=== FILE: README.md ===
# sffcli core in Dafny

This project models the decoding core of `sffcli`. That is the tool that reads
the sprite containers of the M.U.G.E.N engine (SFF version 1 and 2) and turns
each sprite into an indexed image with its palette. It also models two helper
programs from the same repository. One merges the palettes of two indexed
images and remaps their pixels (`merge_png.cpp`). The other is the input stage
of a sprite-sheet packer, which crops each image to its visible pixels and
derives a listed name from the path (`pack.c`).

Modules, one per component of the program:

- `Wrappers`, `Bytes`, `Codec`: the `Result`/`Option` types, little-endian
  reads over an in-memory byte sequence, and the saturating source cursor
  shared by every decoder.
- `Rle8`, `Rle5`, `Lz5`, `Pcx`: the four pixel decompressors. Each one has a
  token-level reference function, a method that follows the original loops,
  and a proof that the two agree. Each also has an encoder with a round-trip
  proof and concrete examples.
- `Container`: the file header, the version-1 and version-2 directory
  entries, and the PCX sub-header. Each has a writer and a read-back
  round-trip proof.
- `Directory`: the walk over the sprite directory and the size bookkeeping
  of a version-1 payload.
- `Payload`: the version-2 payload, dispatched on the compression format.
- `Palettes`: the palette table (slots plus an index map) and the colour-word
  packing.
- `PaletteDir`: the version-2 palette directory, including the
  (group, number) de-duplication and the `PalTable` bookkeeping.
- `Sprites`: the alias entries (C++ `spriteCopy` and Go `shareCopy`), the
  palette a sprite draws with, and the sprite map.
- `Merge`: palette merge, quantisation, nearest-colour search and remap.
- `Pack`: content crop, name sanitising and the packer's bookkeeping.

## Where the two extractors differ

The repository has two extractors, one in C++ (`src/main.cpp`) and one in Go
(`src/main.go`). Where they disagree, the model picks one side and says which.

- Empty source. The C++ RLE8, RLE5 and LZ5 decoders return NULL for an empty
  source, which the model reports as `EmptySource`; the Go decoders return
  the input. The PCX decoder follows Go: it returns the input unchanged when
  it is empty or when `rle <= 0`.
- Pixel count. The C++ decoders compute `dstLen = Size[0] * Size[1]` as a
  signed `int` product of two 16-bit sizes, which overflows once w×h reaches
  2^31. Go multiplies in `int` and does not overflow there. The decoders'
  promise of exactly w×h pixels, for every w and h, follows Go.
- The version-1 header is the C++ one: 28 bytes. The Go reader also reads a
  further reserved word.
- A version-2 format byte goes through the C++ `char`, so a format of 128 or
  more gives a positive `rle` (`Container.RleOfFormat`). Go negates the
  unsigned byte.
- Palette directory. The model follows Go: a repeated (group, number) takes
  the palette of its first entry, `siz == 0` takes slot `link`, and otherwise
  `min(siz/4, 256)` colours are read. The C++ loop reads 256 words for a
  fresh key and leaves a repeated key's slot unread. It also stops after
  `MAX_PAL_NO` = 256 entries and keeps no `PalTable`.
- The version-1 "first sprite of a character file" palette rule (`c00`) is
  the Go expression. The C++ code keeps a `character` flag that clears at a
  (0, 0) sprite. The model takes `c00` as a parameter of `V1Payload`.
- Alias entries. Both copy rules are modelled, each proved separately:
  `Sprites.AliasCopiesAll` for C++ and `Sprites.AliasShares` for Go.
- The version-2 payload reader (`Payload.ReadV2`) is the C++ one. A positive
  `rle` fails, and an unknown format is skipped silently. Go accepts a
  positive `rle` without reading anything, checks the colour depth of raw
  data, and reports an unknown format as an error.

## Model

| member | source | states |
|---|---|---|
| Bytes.Sat | src/main.cpp:443-451 | The decoders' source index never passes the last byte: it is the logical read position until that reaches the last byte, then stays there. |
| Bytes.AdvanceSat | src/main.cpp:443-445 | The guarded increment `if (i < srcLen-1) i++` applied to a saturated index gives the saturated index of the next logical position. |
| Bytes.U32 | src/main.cpp:199-207 | A 32-bit little-endian read succeeds exactly when four bytes remain, and yields a value below 2^32. |
| Bytes.I16 | src/main.cpp:208-224 | A 16-bit signed read succeeds exactly when two bytes remain, and yields a value in [-32768, 32768). |
| Bytes.U32RoundTrip | src/main.cpp:199-207 | Reading back the 4-byte little-endian encoding of a 32-bit value gives the value. |
| Bytes.I16RoundTrip | src/main.cpp:208-224 | Reading back the two's-complement encoding of a 16-bit value gives the value. |
| Codec.RunToken | src/main.cpp:441-452 | The shared token reader of RLE8 and PCX: a byte whose top two bits match the format's run tag is a 2-byte run header with a 6-bit length, and any other byte is a 1-byte single pixel. |
| Rle8.Token | src/main.cpp:441-452 | A token is 1 or 2 source bytes, and a zero-length run header always takes 2. |
| Rle8.From | src/main.cpp:440-459 | Decoding from a position yields exactly the pixels still needed. The only failure is `Stalls`: a zero-length run at the last byte, where the C++ decoder loops forever. |
| Rle8.ReadToken | src/main.cpp:441-452 | The loop head reads the run length and value of the token at the logical position, and leaves the index saturated after the token. |
| Rle8.Decode | src/main.cpp:426-461 | An empty source is refused, as the C++ decoder's NULL. Every other result has exactly width×height pixels. |
| Rle8.Rle8Decode | src/main.cpp:426-461 | The C++ loop computes exactly the token-level decoding, with width×height pixels on success. |
| Rle8.EncodeSplit | src/main.cpp:446-452 | A byte that looks like a run header (`(d & 0xC0) == 0x40`) is spelled as a run of one, so every encoded pixel reads back as a one-pixel token. |
| Rle8.EncodedFrom | src/main.cpp:440-459 | The encoding of a pixel sequence, found anywhere in a source, decodes to that sequence. |
| Rle8.RoundTrip | src/main.cpp:426-461 | Decoding the encoding of any non-empty pixel sequence of width×height pixels gives the sequence back. |
| Rle8.RunExample | src/main.cpp:446-452 | `0x44 0x05` fills a 2×2 sprite with colour 5. |
| Rle8.StallExample | src/main.cpp:446-458 | A lone `0x40` as the last byte never completes a sprite. |
| Rle5.ReadHeader | src/main.cpp:478-492 | A packet header has a run length below 256 and an item count below 128, and is 2 or 3 bytes long. |
| Rle5.Packet | src/main.cpp:477-510 | Every packet yields at least one pixel and occupies its header plus `dl` item bytes. |
| Rle5.From | src/main.cpp:477-511 | Decoding from a packet always yields exactly the pixels needed: RLE5 never stalls. |
| Rle5.ReadHeaderAt | src/main.cpp:478-492 | The header reads are those of the packet at the logical position, and the index is left saturated after the header. |
| Rle5.Shift | src/main.cpp:493-509 | Once the first pixel of a packet is written, what remains is `rl` more copies of the colour and then the items. |
| Rle5.Unpack | src/main.cpp:493-510 | The inner loop appends the colour `rl+1` times and then each item's colour `(b>>5)+1` times, keeping only what fits, and leaves the index after the items. |
| Rle5.DecodePacket | src/main.cpp:477-510 | One pass of the outer loop writes at least one pixel and moves the decoding on by exactly one packet. |
| Rle5.PacketStep | src/main.cpp:477-510 | Writing a packet into a buffer with room extends the decoded prefix by that packet's pixels. |
| Rle5.Decode | src/main.cpp:463-514 | An empty source is refused. Any other source yields width×height pixels, so empty input is the only failure. |
| Rle5.Rle5Decode | src/main.cpp:463-514 | The C++ nested loops compute exactly the packet-level decoding. |
| Rle5.PixelPacket | src/main.cpp:478-510 | The packet `0, 0x80, v` is exactly one pixel of colour `v`. |
| Rle5.EncodedFrom | src/main.cpp:477-511 | A one-packet-per-pixel encoding, found anywhere in a source, decodes to its pixels. |
| Rle5.RoundTrip | src/main.cpp:463-514 | Decoding the encoding of any non-empty pixel sequence gives it back. |
| Rle5.PacketExample | src/main.cpp:477-510 | A packet with an explicit colour and two items expands to the repeats and the item runs. |
| Lz5.FragFits | src/main.cpp:375-376 | The 2-bit distance fragments gathered from short copies never overlap, so `rb |= ...` is an addition that stays within a byte. |
| Lz5.Init | src/main.cpp:353-356 | The first source byte is the control byte. Decoding starts at source position 1 and control bit 0, with both fragment registers empty. |
| Lz5.CopyBody | src/main.cpp:365-387 | A copy token has distance and length at least 1, takes at most two further bytes, and leaves the fragment register well formed. |
| Lz5.LitBody | src/main.cpp:399-407 | A literal token has a colour below 32 and a length of at least 1, and takes at most one further byte. |
| Lz5.Token | src/main.cpp:358-420 | A control bit that is set selects a copy and a clear one a literal. Every token consumes source bytes and keeps the registers well formed. |
| Lz5.CopyFrom | src/main.cpp:388-397 | A back-copy of `k` pixels appends exactly `k` pixels. |
| Lz5.CopyPeriodic | src/main.cpp:388-397 | An overlapping back-copy repeats the last `d` pixels with period `d`. |
| Lz5.Emit | src/main.cpp:388-411 | A token appends `min(len, room)` pixels. It fails exactly when a copy reaches further back than the pixels produced, where the C++ decoder reads before its buffer. |
| Lz5.Run | src/main.cpp:358-421 | Resumed decoding either fills the buffer exactly or fails with a bad copy distance. |
| Lz5.Decode | src/main.cpp:338-424 | An empty source is refused. Any other failure is a bad copy distance, and success has width×height pixels. |
| Lz5.ReadToken | src/main.cpp:359-420 | The loop body's reads produce the token and register state of the reference tokenizer, with the index saturated. |
| Lz5.CopyRun | src/main.cpp:388-397 | The copy loop appends the back-copy of `min(len, room)` pixels. |
| Lz5.FillRun | src/main.cpp:408-411 | The literal loop appends `min(len, room)` copies of the colour. |
| Lz5.DecodeToken | src/main.cpp:358-420 | One pass of the loop either reports exactly the failure the reference reaches or writes at least one pixel and moves the reference decoding on by one token. |
| Lz5.Lz5Decode | src/main.cpp:338-424 | The C++ loop computes exactly the token-level decoding. |
| Lz5.DecodeFiveBit | src/main.cpp:399-411 | Every decoded LZ5 pixel is below 32, since literals carry 5-bit colours and copies only repeat pixels. |
| Lz5.LitTokens | src/main.cpp:398-420 | A run of short literals under an all-literal control byte decodes to their colours. |
| Lz5.EncodedRun | src/main.cpp:358-421 | The literal-only encoding of 5-bit pixels, with a fresh control byte every eight tokens, decodes to those pixels. |
| Lz5.RoundTrip | src/main.cpp:338-424 | Decoding the encoding of any non-empty 5-bit pixel sequence gives it back. |
| Lz5.LiteralExample | src/main.cpp:399-411 | The literal `0x20` is one pixel of colour 0. |
| Lz5.CopyExample | src/main.cpp:364-397 | A literal followed by a short copy from one pixel back fills a 2×2 sprite with one colour. |
| Lz5.BadDistanceExample | src/main.cpp:388-392 | A copy before any pixel exists is reported as a bad distance. |
| Pcx.Token | src/main.cpp:538-548 | A token is 1 or 2 bytes, and a zero-length run header (`0xC0`) takes 2. |
| Pcx.Units | src/main.cpp:549-559 | The run loop never overfills the buffer and keeps the line position below `rle`. A non-empty run either writes a pixel or moves the line position closer to the end of the line padding. |
| Pcx.Run | src/main.cpp:537-560 | Resumed decoding fills the buffer exactly or stalls, where a `0xC0` at the last byte loops forever. |
| Pcx.Decode | src/main.go:318-350 | An empty source or a non-positive `rle` passes the input through unchanged. Otherwise the result has width×height pixels, and the only failure is a stall. |
| Pcx.RleAfter | src/main.go:348 | After a real decode the sprite's `rle` is cleared to 0. A pass-through leaves it as it was. |
| Pcx.ReadToken | src/main.cpp:538-548 | The loop head reads the run length and value of the token at the logical position, with the index saturated. |
| Pcx.PutRun | src/main.cpp:549-559 | The inner loop, including its line wrap that cuts the run short, computes the unit-level step. |
| Pcx.PcxDecode | src/main.go:318-350 | The Go loop computes exactly the reference decoding and clears `rle` after a decode. |
| Pcx.EncodedRun | src/main.cpp:537-560 | The encoding of a unit stream decodes to those of its bytes that fall within the first `w` bytes of their line. |
| Pcx.KeptLines | src/main.cpp:549-559 | Of lines padded to `rle` bytes, exactly the `w` pixels of each line are kept. |
| Pcx.RoundTrip | src/main.cpp:516-565 | Pixels padded to lines of `rle` bytes and encoded decode back to the pixels. |
| Pcx.LineWrapExample | src/main.cpp:555-558 | A run crossing the end of a line is cut there, and the next line starts from the next token. |
| Pcx.StallExample | src/main.cpp:542-548 | A lone `0xC0` as the last byte never completes a sprite. |
| Pcx.PassThroughExample | src/main.go:319-321 | With `rle == 0` the bytes are returned as they are. |
| Container.ReadSffHeader | src/main.cpp:93-185 | The header is accepted exactly when the 12-byte magic matches and the version's fields are present. A wrong magic and an unknown version are distinct errors. The version bytes are bytes 12 to 15. In version 2 the sprite and palette offsets and counts are the 32-bit words at 36, 40, 44 and 48, and `lofs` and `tofs` the words at 52 and 60. In version 1 the sprite count is the word at 20 and the sprite offset the word at 24. |
| Container.HeaderFields | src/main.cpp:126-181 | The writer puts each header field where its version's layout says. |
| Container.HeaderRoundTrip | src/main.cpp:93-185 | Every well-formed header of either version reads back unchanged, whatever bytes follow it. |
| Container.NewSprite | src/main.go:227-229 | A new sprite has no palette index yet (-1), no own palette and a zero size. |
| Container.ReadEntryV1 | src/main.cpp:197-233 | A version-1 entry reads exactly when 18 bytes remain, with 32-bit offsets and sizes and 16-bit fields. |
| Container.EntryV1RoundTrip | src/main.cpp:197-233 | Every version-1 entry reads back unchanged wherever it is placed. |
| Container.SpriteOfV1 | src/main.go:256-279 | A version-1 entry gives its sprite group, number and drawing offset, and nothing else yet. |
| Container.ReadEntryV2 | src/main.cpp:235-313 | A version-2 entry reads exactly when 28 bytes remain. |
| Container.EntryV2RoundTrip | src/main.cpp:235-313 | Every version-2 entry reads back unchanged wherever it is placed. |
| Container.SpriteOfV2 | src/main.cpp:235-293 | A version-2 entry gives the sprite its group, number, size, offset, palette index and colour depth. |
| Container.RleOfFormat | src/main.cpp:266-271 | `rle = -format` through a signed `char`: non-positive for formats below 128, and positive (`256 - format`) above. |
| Container.PayloadOffset | src/main.cpp:299-303 | The payload offset is a 32-bit value. |
| Container.OffsetBase | src/main.cpp:299-303 | The base is `lofs` when flag bit 0 is clear and `tofs` when it is set. The 32-bit sum wraps at most once, and only when it overflows. |
| Container.ReadPcx | src/main.go:281-308 | A colour depth other than 8 bits is rejected before the rectangle is read. Otherwise the header reads exactly when 68 bytes remain. |
| Container.PcxRoundTrip | src/main.go:281-308 | Every 8-bit PCX header reads back unchanged. |
| Container.WithPcx | src/main.go:309-315 | The PCX geometry keeps the sprite's identity and palette and gives a 16-bit size. |
| Container.PcxGeometry | src/main.go:309-315 | `rle` is the bytes-per-line exactly when encoding is 1 and 0 otherwise. The size is `x1-x0+1` when the corners are in order, and wraps modulo 2^16 when they are not. |
| Directory.ReadEntry | src/main.cpp:1047-1061 | An entry of either version reads exactly when its 18 or 28 bytes are there. |
| Directory.NextPos | src/main.go:1119-1123 | The next entry is where the version-1 link points. In version 2 it is the next 28-byte slot. |
| Directory.Walk | src/main.cpp:1042-1099 | A successful walk yields exactly the number of entries asked for. |
| Directory.ReadDirectory | src/main.cpp:1039-1099 | The directory has exactly as many entries as the header announces. |
| Directory.Stride | src/main.cpp:1096-1098 | In version 2, entry `k` is the one at `first + 28*k`. |
| Directory.StrideExtent | src/main.cpp:1096-1098 | A version-2 directory reads exactly when its last slot ends inside the buffer. |
| Directory.Chain | src/main.cpp:1094-1095 | In version 1 the first entry is at the directory offset, and each later one is where its predecessor's `xofs` points. |
| Directory.ReadSprites | src/main.cpp:1041-1099 | The C++ loop, which reads at `shofs` and then moves `shofs` on, yields exactly the directory. |
| Directory.V1Payload | src/main.go:353-378 | A palette of 768 bytes follows the pixels unless the sprite shares the previous palette or is the character's first sprite. When the next entry lies beyond the payload start, the size is the distance to it, raised to header plus palette when shorter. Otherwise it is the stored size, raised the same way. The pixel bytes are what remains. |
| Directory.PayloadMonotone | src/main.go:353-378 | The pixel byte count grows with the distance to the next entry, and by no more than that distance. |
| Directory.V1PayloadOffset | src/main.go:1104 | A version-1 payload starts 32 bytes after its entry: past the 18 entry bytes, the palette flag byte and 13 reserved bytes. |
| Payload.Block | src/main.cpp:831-858 | A block read succeeds exactly when it is non-empty and inside the file. |
| Payload.ReadV2 | src/main.cpp:819-939 | A positive `rle` is refused. `rle == 0` yields the stored bytes. Formats 2 to 4 succeed exactly when the stream after the 4-byte length word, `datasize - 4` bytes, is non-empty, inside the file and decodes. The pixels are then that stream's width×height decoding, and a decoder failure is reported with its error. Formats 10 to 12 are passed on, and any other format is skipped. |
| Payload.NeverEmpty | src/main.cpp:843-859 | A stream of at most the length word fails as a read, so the decoders' empty-source refusal is never what a payload fails with. |
| Payload.V2RoundTrip | src/main.cpp:836-923 | A payload made of a length word and the compressed stream of a sprite's pixels reads back as those pixels, for each of the three formats. |
| Palettes.Ids | src/main.go:113-117 | The identity map over a range. |
| Palettes.Get | src/main.go:107-109 | A read through the index map yields one of the table's palettes. |
| Palettes.SetSource | src/main.go:83-101 | Slot `i` holds `p` and index `i` points at it. A short table grows to `i+1`, with new indices mapping to themselves and new slots empty. Every other index and slot is unchanged. |
| Palettes.GetAfterSet | src/main.go:83-109 | After `SetSource(i, p)`, `Get(i)` is `p`, and any other index not pointing at slot `i` reads what it read before. |
| Palettes.NewPal | src/main.go:102-106 | A new palette of 256 zero colours goes in a new slot numbered by the old slot count. The new index reads it, and every other readable index not mapped to the new slot reads what it read before. |
| Palettes.NewPalGrows | src/main.go:102-106 | On an aligned table `NewPal` adds exactly one slot and one index, and the new index reads the new palette. Every index that could be read before still reads the same. |
| Palettes.Remap | src/main.go:110-112 | `Remap(s, d)` changes exactly one map entry. |
| Palettes.ResetRemap | src/main.go:113-117 | After a reset, every index maps to its own slot. |
| Palettes.ResetUndoesRemap | src/main.go:110-117 | A reset erases any remap, and afterwards each index reads its own slot. |
| Palettes.GetPalMap | src/main.go:118-122 | The copy has the same entries as the table's map. |
| Palettes.SaveRemapRestore | src/main.go:110-130 | Saving the map, remapping, then swapping the saved map back in restores the table and returns the remapped map. |
| Palettes.SwapPalMap | src/main.go:124-130 | The swap succeeds exactly when the lengths agree. On success the two maps are exchanged. On failure nothing changes. |
| Palettes.SwapTwice | src/main.go:124-130 | Swapping twice restores both the table and the caller's map. |
| Palettes.AlignedKept | src/main.go:83-130 | Every table operation keeps the map and the slot list the same length. |
| Palettes.Pack | src/main.go:1051 | A packed colour `a<<24 | b<<16 | g<<8 | r` is a 32-bit word. |
| Palettes.UnpackPack | src/main.go:624-631 | Unpacking a packed colour gives the colour back. |
| Palettes.PackUnpack | src/main.go:624-631 | Packing the unpacked bytes of a 32-bit word gives the word back. |
| Palettes.GenPalette | src/main.go:624-631 | The image palette has one colour per word, and each colour packs back to its word. |
| Palettes.Colours | src/main.go:1039-1052 | A run of 4-byte colours yields one 32-bit word per colour. |
| Palettes.ReadPaletteV2 | src/main.go:1037-1052 | A version-2 palette always has 256 words. It reads exactly when its first `min(siz/4, 256)` colours are in the file. |
| Palettes.ColourAt | src/main.go:1039-1051 | Colour `j` of a run is the four bytes at `pos + 4j`, with the alpha rule applied. |
| Palettes.Alpha | src/main.go:1044-1049 | A version 2.0.x.x file (`Ver2 == 0`) stores no alpha: colour 0 gets 0 and every other colour 255. Any other version keeps the stored alpha. |
| Palettes.PaletteV2Entries | src/main.go:1038-1052 | Colour `k` below `siz/4` is the bytes at `pos+4k`, with alpha forced to 0 at index 0 and 255 elsewhere when `Ver2 == 0`. Colours past `siz/4` are zero. |
| Palettes.ReadPaletteV1 | src/main.go:391-405 | A version-1 palette is 256 three-byte colours, read exactly when 768 bytes remain. Colour 0 is transparent and the others opaque. |
| PaletteDir.ReadPalEntry | src/main.go:1011-1025 | A palette directory entry reads exactly when its 16 bytes are there. |
| PaletteDir.FirstShortField | src/main.go:1012-1026 | A short entry fails at the first of its six fields that does not fit: every field before it fits and that one does not. |
| PaletteDir.SlotsDisjoint | src/main.go:1011 | Palette directory entries come from disjoint 16-byte slots, in order, from the directory offset on. |
| PaletteDir.NewPals | src/main.go:75-81 | The extractor's initial table: `count` aligned zero palettes, each index reading its own slot. |
| PaletteDir.Start | src/main.go:75-81 | Before the directory there are 32 slots, no keys seen and nothing resolved. |
| PaletteDir.ResolveEntry | src/main.go:1027-1057 | A repeated key takes the index and palette recorded for it. A fresh key with `siz == 0` takes index `link` and the palette stored there, and fails exactly when there is none. Any other fresh key reads its palette at `lofs + ofs` modulo 2^32, succeeds exactly when that read does, and is recorded under its own number. |
| PaletteDir.StepResolves | src/main.go:1010-1059 | A step that succeeds read entry `i` from its 16-byte slot and recorded exactly what `ResolveEntry` decides for it. |
| PaletteDir.FreshStep | src/main.go:1033-1057 | A step on a key not seen before records the entry's key. With `siz == 0` it takes index `link` and the palette stored there. Otherwise it takes its own index and the palette read at `lofs + ofs` modulo 2^32. |
| PaletteDir.KeysAt | src/main.go:1010-1060 | The directory read up to entry `j` succeeds with keys consistent with what it resolved, and agrees with the whole read on every entry before `j`. |
| PaletteDir.FreshEntry | src/main.go:1033-1059 | In a directory that reads, an entry whose key no earlier entry has takes index `link` and the palette stored there when `siz == 0`. Otherwise it takes its own index and the palette read at `lofs + ofs` modulo 2^32. `SlotsHold` then puts that palette in slot `j`. |
| PaletteDir.TableEffect | src/main.go:1058-1071 | What `Table` does to each key. The entry's key maps to its index. `(1, i+1)` becomes -1 exactly when it shares the entry's index while the entry's group is not 1 and its number is not `i+1`. After the last of at most 33 entries the unused `(1, k)` keys are removed. Every other key is unchanged. |
| PaletteDir.Step | src/main.go:1010-1071 | One entry appends its resolution, puts its palette in slot `i`, and records its key, keeping the first index of a repeated key. |
| PaletteDir.ReadPalettes | src/main.go:1008-1071 | A version-2 directory resolves exactly as many entries as the header announces, and a version-1 file has none. |
| PaletteDir.RunInv | src/main.go:1010-1071 | Across the loop, slot `j` holds entry `j`'s palette through its own index. The recorded keys are exactly those seen, each holding the index its first entry resolved to. |
| PaletteDir.SlotsHold | src/main.go:1058-1059 | After the directory, index `j` reads the palette entry `j` resolved to. |
| PaletteDir.RunExtends | src/main.go:1010-1059 | When the first `n` entries read, so do the first `n - 1`, and the resolutions of the first `n` extend theirs by exactly one. |
| PaletteDir.RunChain | src/main.go:1010-1059 | For every `k` up to `n`, a read of `k` entries extends the read of `k - 1` by one resolution. |
| PaletteDir.RunPrefix | src/main.go:1010-1071 | Reading more entries never changes how earlier ones were resolved. |
| PaletteDir.DuplicateReuses | src/main.go:1029-1032 | A repeated (group, number) whose first entry was read from the file reuses that entry's index and palette without reading. At the end both indices read the same palette. |
| PaletteDir.RepeatStep | src/main.go:1029-1032 | One step on a repeated key takes the index and palette its first occurrence left. |
| Sprites.ShareCopy | src/main.go:231-240 | The alias takes the copied sprite's palette, size and colour depth, and keeps its own identity, offset and `rle`. It inherits the palette index only when it had none. |
| Sprites.GetPal | src/main.go:242-247 | A sprite with its own palette, or true colour, draws with its own. Otherwise it draws with the table's palette for its index, or fails when the table has no such index. |
| Sprites.SharedPalette | src/main.go:231-247 | An alias without a palette index draws with the same palette as its source. One with an index draws with that index. |
| Sprites.Resolve | src/main.go:1074-1121 | A completed sprite loop yields one sprite per entry, and the previous-sprite pointer names an earlier entry. A directory of aliases only never fails: only a payload load can fail. |
| Sprites.PrevSprite | src/main.go:1102-1112 | The `prev` handed to a load is the sprite at the recorded previous index, and is absent exactly when no index is recorded. |
| Sprites.PrevIsLastLoaded | src/main.cpp:1092 | `prev` is the last entry with a payload: it moves only on non-zero-size entries. |
| Sprites.Stable | src/main.go:1074-1121 | Walking further never changes the sprites already resolved, and a walk that has failed stays failed with the same error. |
| Sprites.AliasCopiesAll | src/main.cpp:1062-1071 | C++: in a completed walk, a zero-size entry linking to an earlier one is an exact copy of it, palette index included. Otherwise its palette index becomes 0. |
| Sprites.AliasShares | src/main.go:1094-1100 | Go: in a completed walk, a zero-size entry linking to an earlier one shares its palette, size and depth, and keeps its own identity and index when it had one. Otherwise its palette index becomes 0. |
| Sprites.LoadedEntry | src/main.cpp:1072-1093 | In a completed walk, an entry with a payload is the successful load of it with the last loaded sprite before it as `prev`. |
| Sprites.StopsAt | src/main.go:1101-1110 | A payload load that fails ends the whole loop with that load's error. |
| Sprites.FirstFailure | src/main.cpp:1072-1088 | A failed loop names its failing entry: one with a payload, every entry before it resolved, whose load returned the loop's error. |
| Sprites.Extract | src/main.cpp:1042-1099 | The C++ loop, with `prev` kept as an index, computes exactly the reference walk: the same sprites and palette table on success, and the same error otherwise. |
| Sprites.V1Palette | src/main.go:382-405 | A payload that shares the previous palette takes the previous sprite's index, or a fresh one if that is unknown. Otherwise the sprite gets a new slot. |
| Sprites.V1PaletteRead | src/main.go:390-405 | A sprite that reads its own palette reads exactly that palette back through the table. |
| Sprites.Slice | src/main.go:378-381 | A block read succeeds exactly when the bytes are there, and an empty one always does. |
| Sprites.V1PaletteAt | src/main.go:382-405 | A sprite sharing the previous palette reads nothing and never fails. Any other reads its 256 colours from the last 768 bytes of its payload, fails exactly when those bytes are not all there, and then draws with exactly that palette. Only the sprite's palette index changes. |
| Sprites.ReadSpriteV1 | src/main.go:351-405 | The read succeeds exactly when `V1Readable` holds: the flag byte after the 18 entry bytes, a depth-8 PCX header at the payload start, all the pixel bytes `V1Payload` counts, and the palette `V1PaletteAt` needs at the payload's end. The pixels are those bytes, and the palette is chosen as `V1PaletteAt` does. |
| Sprites.V1Pixels | src/main.go:378-405 | After the header, the read succeeds exactly when the pixel bytes and the palette are there. The pixels are the bytes right after the 128-byte header, and the sprite and table are what `V1PaletteAt` gives. |
| Sprites.V1PaletteAtEnd | src/main.go:370-394 | For a sprite that counts its palette, the last 768 payload bytes start right after the pixels. For the first sprite of a character file, they are the last 768 pixel bytes. |
| Sprites.SpriteCopy | src/main.cpp:941-954 | The copy takes every field from the copied sprite, and nothing from the destination survives. |
| Sprites.FirstOccurrence | src/main.go:1114-1118 | The sprite map holds exactly the keys present, each mapped to its first occurrence. |
| Sprites.SpriteMap | src/main.go:1114-1118 | Every key of the map names a sprite with that key. Every sprite's key is in the map, mapped to that sprite or an earlier one. |
| Sprites.GetSprite | src/main.go:1129-1135 | Group -1 finds nothing. Any other key finds a sprite exactly when one has that key, and then the first such sprite. |
| Merge.Unique | src/merge_png.cpp:227-235 | The unique palette holds the same colours as the combined palette, each once. |
| Merge.UniqueOrder | src/merge_png.cpp:230-235 | The unique palette is in order of first appearance. |
| Merge.Dedupe | src/merge_png.cpp:223-235 | The merge tool's loop over `palette1 ++ palette2` with its colour-to-index table computes exactly the first-occurrence unique palette. |
| Merge.Quantize | src/merge_png.cpp:189-201 | The result is the input when it has at most 256 colours, and otherwise the first 256. |
| Merge.QuantizeKeeps | src/merge_png.cpp:189-201 | Quantizing a duplicate-free palette keeps it duplicate-free and invents no colour. |
| Merge.Dist2 | src/merge_png.cpp:180-186 | The distance is non-negative and zero exactly for equal colours. |
| Merge.NearestUnique | src/merge_png.cpp:204-215 | The nearest index, the first of minimal distance, is unique. |
| Merge.NearestIn | src/merge_png.cpp:207-213 | The scan over the first `n` colours finds the first colour of minimal distance. |
| Merge.NearestExact | src/merge_png.cpp:204-215 | For a palette of at most 256 colours, the returned byte is the nearest index itself. |
| Merge.NearestFindsColour | src/merge_png.cpp:204-215 | A colour present in the palette maps to its first position there. |
| Merge.FindNearest | src/merge_png.cpp:204-215 | The merge tool's scan with a strict `<` returns the nearest index as a byte, and 0 for an empty palette. |
| Merge.Cache | src/merge_png.cpp:240-244 | The cache holds exactly the colours of the unique palette. |
| Merge.RemapPixels | src/merge_png.cpp:247-256 | The remapped buffer has width×height entries, each the cached index of its pixel's colour. |
| Merge.MergedPalette | src/merge_png.cpp:223-238 | The merged palette has at most 256 distinct colours, all from the inputs. When at most 256 colours are distinct it holds all of them. |
| Merge.MergeAndRemap | src/merge_png.cpp:218-261 | Every remapped pixel is the nearest merged index to its original colour. When at most 256 colours are distinct, every pixel keeps its exact colour. |
| Merge.RemapsToNearest | src/merge_png.cpp:241-256 | A colour of either palette is cached as its nearest merged colour, which is the colour itself when at most 256 colours are distinct. |
| Pack.ScanRow | src/pack.c:86 | The inner scan finds the first visible pixel of a row, or the width when the row is transparent. |
| Pack.ScanCol | src/pack.c:96 | The inner scan finds the first visible pixel of a column within the kept rows, or their count. |
| Pack.TrimTop | src/pack.c:85-89 | Rows dropped from the top are transparent, and the first kept row has a visible pixel. |
| Pack.TrimBottom | src/pack.c:90-94 | Rows dropped from the bottom are transparent, and the last kept row has a visible pixel. |
| Pack.TrimLeft | src/pack.c:95-99 | Columns dropped from the left are transparent in the kept rows, and the first kept column has a visible pixel. |
| Pack.TrimRight | src/pack.c:100-104 | Columns dropped from the right are transparent in the kept rows, and the last kept column has a visible pixel. |
| Pack.RowInside | src/pack.c:95-104 | A visible pixel of a kept row lies inside the kept columns. |
| Pack.Crop | src/pack.c:84-105 | The window lies inside the image and every pixel outside it is transparent. It is empty at the origin exactly when the image is fully transparent, and otherwise each of its four edges holds a visible pixel. |
| Pack.TightUnique | src/pack.c:84-105 | Only one window has these properties, so the crop is determined by the image. |
| Pack.TightEdges | src/pack.c:84-105 | A tight window is contained in any other window that is tight for the same image. |
| Pack.Window | src/pack.c:84-106 | With cropping off the window is the whole image, and with cropping on it is the tight crop. |
| Pack.LastDot | src/pack.c:73 | The cut point is the last `'.'`, or the end of the name when it has no dot. |
| Pack.Sanitize | src/pack.c:73-77 | The listed name is the name up to its last dot, with each of `/ \ : " space tab LF CR` replaced by `_` and every other character unchanged. |
| Pack.SanitizeName | src/pack.c:73-77 | The packer's copy loop computes exactly the sanitised name. |
| Pack.SanitizeKeepsPlain | src/pack.c:73-77 | A name without dots or special characters is listed as it is. |
| Pack.SanitizeDropsExtension | src/pack.c:73-77 | Only the extension is cut, whatever it is. |
| Pack.Record | src/pack.c:65-82 | Recording appends one entry and one rectangle numbered by position and sized by the window. The maxima and the total area grow by the uncropped size. |
| Pack.EmptyConsistent | src/pack.c:37-40 | The empty packer is consistent. |
| Pack.RecordKeeps | src/pack.c:64-108 | Recording keeps the packer consistent: one rectangle per image, numbered by position and inside it, maxima that bound every image and are reached, and a total area equal to the sum. |
| Pack.AddImage | src/pack.c:64-108 | An image without pixels is skipped. Any other is recorded under the next number with its sanitised name and full size, and with the tight window, or the whole image when cropping is off. |

## Left out

- File and stream I/O: `fopen`, `fread`, `fseek`, physfs and `opendir`
  recursion. Every reader works on an in-memory byte sequence, and a read
  past its end is an error.
- PNG encoding and decoding, `save_as_png`, `save_png`, `load_png`, the
  embedded-PNG formats 10 to 12 (`Payload.ReadV2` only reports them), and
  texture handles (`PalTex`, `GetPalTex`). These are library calls.
- `replacePalette`, `replacePaletteInMemory`, `savePalette` and
  `fast_hash`: they rewrite or write files, or are unused.
- The foreign calls `calculate_image`, `calculate_image3` and `print_info`,
  and `stb_image`/`stb_rect_pack`. Their code is not part of this model.
- `TestDecode`, which draws random pixels.
- Raw 24/32-bit colour data: accepted but never decoded.
- The OpenMP pragma in the remap: the loop is modelled sequentially.
- Pixel loading in the sprite loop. `Sprites.Resolve` takes the payload
  loader as a parameter. The loader may fail, and its first failure ends the
  walk. The payload readers are `Sprites.ReadSpriteV1` and `Payload.ReadV2`.
  They are not combined into one loader, because a version-1 read also needs
  the entry's own file position.
- Sprites.V1PaletteAt: a first sprite of a character file whose payload is
  shorter than 768 bytes makes Go seek before the start of the file. The
  error is ignored, and the read continues from wherever physfs leaves the
  file. The model reports `Short` instead.
- Lz5.RoundTrip: the encoder emits literals only, so the round trip never
  exercises a copy token. The copy path is tied to the C++ loop by
  `Lz5.Lz5Decode` and `Lz5.DecodeToken` against the token-level reference,
  not by a round trip.
- `PaletteDir.Table` carries no contract of its own. Its effect on every key
  is the lemma `PaletteDir.TableEffect`.
- `color_distance` takes a square root of a `double`. The model uses the
  integer squared distance, which orders colours the same way. The
  starting minimum `DBL_MAX` becomes a value above every squared distance.
- Merge.FindNearest: `best_index = i` truncates to 8 bits. The model keeps
  that truncation, but `IsNearest` is stated only for palettes of at most
  256 colours, which is all that `quantize_palette` produces.
- Pack.Record: `prod` is an `int64_t` and is modelled without overflow, so
  an area sum beyond 2^63 is not represented.
- `maxw`, `maxh` and the rectangles are `int` in the packer; widths and
  heights come from the image loader and are modelled as naturals.
- Printing, argument parsing, `malloc`/`free` and the allocation-failure
  paths.
- The Go `numcols` map is written but never read by the core, so it is not
  kept.

=== FILE: bytes.dfy ===
/**
 * Bytes of an in-memory container: the saturating source cursor every pixel
 * decoder uses, and little-endian field reads where a short read is an error.
 */
module Bytes {
  import opened Wrappers

  type byte = x: int | 0 <= x < 256

  const Two16: nat := 0x1_0000
  const Two32: nat := 0x1_0000_0000

  /**
   * The decoders advance their source index only while it is below the last
   * byte (`if (i < srcLen - 1) i++`). A decoder that has asked for `p` bytes
   * therefore stands at `Sat(src, p)`: the last byte is re-read, never overrun.
   */
  function Sat(src: seq<byte>, p: nat): (i: nat)
    requires |src| > 0
    ensures i < |src|
    ensures i == p || (p >= |src| - 1 && i == |src| - 1)
  {
    if p < |src| then p else |src| - 1
  }

  /** The byte read at logical position `p` through the saturating cursor. */
  function At(src: seq<byte>, p: nat): byte
    requires |src| > 0
  {
    src[Sat(src, p)]
  }

  /** Bytes not yet passed by logical position `p`; a termination measure. */
  function Left(src: seq<byte>, p: nat): nat {
    if p < |src| then |src| - p else 0
  }

  /** One step of the decoders' saturating advance. */
  function Advance(src: seq<byte>, i: nat): nat {
    if i + 1 < |src| then i + 1 else i
  }

  /** Advancing the saturated cursor is saturating the advanced logical position. */
  lemma AdvanceSat(src: seq<byte>, p: nat)
    requires |src| > 0
    ensures Advance(src, Sat(src, p)) == Sat(src, p + 1)
  {
  }

  datatype ReadError = Truncated(at: nat)

  function U8(buf: seq<byte>, pos: nat): (r: Result<byte, ReadError>)
    ensures r.Success? <==> pos < |buf|
  {
    if pos < |buf| then Success(buf[pos]) else Failure(Truncated(pos))
  }

  function U16(buf: seq<byte>, pos: nat): (r: Result<nat, ReadError>)
    ensures r.Success? <==> pos + 2 <= |buf|
    ensures r.Success? ==> r.value < Two16
  {
    if pos + 2 <= |buf| then Success(buf[pos] as int + 256 * (buf[pos + 1] as int))
    else Failure(Truncated(pos))
  }

  function U32(buf: seq<byte>, pos: nat): (r: Result<nat, ReadError>)
    ensures r.Success? <==> pos + 4 <= |buf|
    ensures r.Success? ==> r.value < Two32
  {
    if pos + 4 <= |buf| then
      Success(buf[pos] as int + 256 * (buf[pos + 1] as int) + 0x1_0000 * (buf[pos + 2] as int)
              + 0x100_0000 * (buf[pos + 3] as int))
    else Failure(Truncated(pos))
  }

  /** A 16-bit two's-complement reading (`int16_t`). */
  function I16(buf: seq<byte>, pos: nat): (r: Result<int, ReadError>)
    ensures r.Success? <==> pos + 2 <= |buf|
    ensures r.Success? ==> -0x8000 <= r.value < 0x8000
  {
    var u :- U16(buf, pos);
    Success(if u < 0x8000 then u else u - Two16)
  }

  function U16Bytes(x: nat): (r: seq<byte>)
    requires x < Two16
    ensures |r| == 2
  {
    [x % 256, x / 256]
  }

  function U32Bytes(x: nat): (r: seq<byte>)
    requires x < Two32
    ensures |r| == 4
  {
    [x % 256, (x / 256) % 256, (x / 0x1_0000) % 256, x / 0x100_0000]
  }

  function I16Bytes(x: int): (r: seq<byte>)
    requires -0x8000 <= x < 0x8000
    ensures |r| == 2
  {
    U16Bytes(if x >= 0 then x else x + Two16)
  }

  /** Reading back the encoding of a 16-bit value yields the value. */
  lemma U16RoundTrip(buf: seq<byte>, pos: nat, x: nat)
    requires x < Two16
    requires pos + 2 <= |buf| && buf[pos..pos + 2] == U16Bytes(x)
    ensures U16(buf, pos) == Success(x)
  {
    assert buf[pos] == x % 256 && buf[pos + 1] == x / 256;
  }

  /** A successful 16-bit read is the encoding of the value read. */
  lemma U16Encodes(buf: seq<byte>, pos: nat)
    requires pos + 2 <= |buf|
    ensures U16Bytes(U16(buf, pos).value) == buf[pos..pos + 2]
  {
  }

  lemma U32RoundTrip(buf: seq<byte>, pos: nat, x: nat)
    requires x < Two32
    requires pos + 4 <= |buf| && buf[pos..pos + 4] == U32Bytes(x)
    ensures U32(buf, pos) == Success(x)
  {
    assert buf[pos] == x % 256 && buf[pos + 1] == (x / 256) % 256;
    assert buf[pos + 2] == (x / 0x1_0000) % 256 && buf[pos + 3] == x / 0x100_0000;
    DigitsOf(x);
  }

  lemma U32Encodes(buf: seq<byte>, pos: nat)
    requires pos + 4 <= |buf|
    ensures U32Bytes(U32(buf, pos).value) == buf[pos..pos + 4]
  {
    var a, b, c, d: int := buf[pos], buf[pos + 1], buf[pos + 2], buf[pos + 3];
    var y := c + 256 * d;
    var z := b + 256 * y;
    var x := a + 256 * z;
    assert x == U32(buf, pos).value;
    DigitSplit(a, z);
    DigitSplit(b, y);
    DigitSplit(c, d);
    assert x / 0x1_0000 == y by {
      DivDiv(x);
    }
    assert x / 0x100_0000 == d by {
      DivDiv(x);
    }
  }

  /** Division by a power of 256 is repeated division by 256. */
  lemma DivDiv(x: nat)
    ensures x / 0x1_0000 == (x / 256) / 256
    ensures x / 0x100_0000 == ((x / 256) / 256) / 256
  {
  }

  /** The low base-256 digit and the rest of `a + 256 * y`. */
  lemma DigitSplit(a: int, y: int)
    requires 0 <= a < 256 && 0 <= y
    ensures (a + 256 * y) % 256 == a && (a + 256 * y) / 256 == y
  {
  }

  lemma I16RoundTrip(buf: seq<byte>, pos: nat, x: int)
    requires -0x8000 <= x < 0x8000
    requires pos + 2 <= |buf| && buf[pos..pos + 2] == I16Bytes(x)
    ensures I16(buf, pos) == Success(x)
  {
    U16RoundTrip(buf, pos, if x >= 0 then x else x + Two16);
  }

  /** The base-256 digits of a 32-bit value recompose it. */
  lemma DigitsOf(x: nat)
    requires x < Two32
    ensures x % 256 + 256 * ((x / 256) % 256) + 0x1_0000 * ((x / 0x1_0000) % 256)
            + 0x100_0000 * (x / 0x100_0000) == x
  {
    var q1 := x / 256;
    var q2 := q1 / 256;
    var q3 := q2 / 256;
    assert x == x % 256 + 256 * q1;
    assert q1 == q1 % 256 + 256 * q2;
    assert q2 == q2 % 256 + 256 * q3;
    assert q2 == x / 0x1_0000;
    assert q3 == x / 0x100_0000;
  }

  /** Multiplying by the same factor keeps the order. */
  lemma MulLe(a: nat, b: nat, w: nat)
    requires a <= b
    ensures a * w <= b * w
  {
    assert b * w == a * w + (b - a) * w;
  }
}

=== FILE: codec.dfy ===
/** What every pixel decoder returns, and how partial outputs are glued together. */
module Codec {
  import opened Wrappers
  import opened Bytes

  datatype DecodeError =
    | EmptySource
      /** The decoder reached a state it can never leave: the C++ decoder loops forever here. */
    | Stalls
      /** An LZ5 copy asked for bytes `distance` back when only `produced` exist. */
    | BadDistance(produced: nat, distance: nat)

  type Decoded = Result<seq<byte>, DecodeError>

  /** `pre` followed by the pixels of `r`, or `r`'s error. */
  function Prepend(pre: seq<byte>, r: Decoded): (q: Decoded)
    ensures q.Success? <==> r.Success?
    ensures q.Success? ==> q.value == pre + r.value
    ensures q.Failure? ==> q.error == r.error
    ensures pre == [] ==> q == r
  {
    match r
    case Success(v) => assert pre == [] ==> pre + v == v; Success(pre + v)
    case Failure(e) => Failure(e)
  }

  /**
   * The token of a one-byte run-length format at logical position `p`: a
   * byte whose top two bits equal `top` is a run header, its low six bits
   * the length of a run of the next byte; any other byte is one pixel of
   * itself. Yields the run length, the value and the bytes taken.
   */
  function RunToken(src: seq<byte>, p: nat, top: nat): (t: (nat, byte, nat))
    requires |src| > 0
    ensures t.0 == 0 ==> t.2 == 2
    ensures 1 <= t.2 <= 2
    ensures t.2 == 2 <==> At(src, p) / 64 == top
  {
    var d := At(src, p);
    if d / 64 == top then (d % 64, At(src, p + 1), 2) else (1, d, 1)
  }

  lemma PrependAssoc(a: seq<byte>, b: seq<byte>, r: Decoded)
    ensures Prepend(a, Prepend(b, r)) == Prepend(a + b, r)
  {
    if r.Success? {
      assert a + (b + r.value) == (a + b) + r.value;
    }
  }

  /**
   * The first `n` pixels of `s`, or all of them: what a fixed-size buffer keeps
   * of a decoded stream when writes past its end are dropped.
   */
  function Take(s: seq<byte>, n: nat): (r: seq<byte>)
    ensures |r| == Min(|s|, n)
  {
    s[..Min(|s|, n)]
  }

  /** Keeping one more pixel from the front of a stream, or none once the buffer is full. */
  lemma TakeCons(dst: seq<byte>, s: seq<byte>, n: nat)
    requires s != [] && |dst| <= n
    ensures var dst' := if |dst| < n then dst + [s[0]] else dst;
      dst + Take(s, n - |dst|) == dst' + Take(s[1..], n - |dst'|)
  {
    if |dst| < n {
      assert Take(s, n - |dst|) == [s[0]] + Take(s[1..], n - |dst| - 1);
    }
  }

  lemma AppendAssoc(a: seq<byte>, b: seq<byte>, c: seq<byte>)
    ensures a + (b + c) == (a + b) + c
  {
  }

  lemma AppendSplit(out: seq<byte>, px: seq<byte>, k: nat)
    requires k <= |px|
    ensures out + px[..k] + px[k..] == out + px
  {
    assert px[..k] + px[k..] == px;
  }

  /** A source holding `a + b` at `p` holds `a` at `p` and `b` right after it. */
  lemma SliceCut(src: seq<byte>, p: nat, a: seq<byte>, b: seq<byte>)
    requires p + |a + b| <= |src| && src[p..p + |a + b|] == a + b
    ensures src[p..p + |a|] == a && src[p + |a|..p + |a| + |b|] == b
  {
    var t := src[p..p + |a + b|];
    assert src[p..p + |a|] == t[..|a|];
    assert src[p + |a|..p + |a| + |b|] == t[|a|..];
  }
}

=== FILE: container.dfy ===
/**
 * The fixed-layout records of a sprite container: the file header, the
 * version-1 and version-2 sprite directory entries and the PCX sub-header of
 * a version-1 payload. Every record is read little-endian from an in-memory
 * buffer; a field that runs past the end of the buffer is an error.
 */
module Container {
  import opened Wrappers
  import opened Bytes

  datatype SffError =
    | BadMagic
    | BadVersion(ver0: byte)
      /** A field starting at `at` runs past the end of the buffer. */
    | Short(at: nat)
      /** A PCX payload whose colour depth is not 8 bits per pixel. */
    | BadDepth(bpp: byte)
      /** A palette lookup outside the palette table (a run-time panic in the Go extractor). */
    | NoPalette(index: int)

  function Lift<T>(r: Result<T, ReadError>): Result<T, SffError> {
    match r
    case Success(v) => Success(v)
    case Failure(e) => Failure(Short(e.at))
  }

  /** `"ElecbyteSpr\0"`. */
  const Magic: seq<byte> := [0x45, 0x6C, 0x65, 0x63, 0x62, 0x79, 0x74, 0x65, 0x53, 0x70, 0x72, 0]

  /**
   * The file header. `lofs` and `tofs` are the bases that version-2 payload
   * offsets are relative to (literal and translated data); a version-1 file has
   * neither, nor a palette directory.
   */
  datatype SffHeader = SffHeader(
    ver3: byte, ver2: byte, ver1: byte, ver0: byte,
    firstSprite: nat, numSprites: nat,
    firstPalette: nat, numPalettes: nat,
    lofs: nat, tofs: nat)

  /** The header as a reader can produce it: 32-bit fields, and a version-1 file's missing fields zero. */
  predicate HeaderOk(h: SffHeader) {
    h.firstSprite < Two32 && h.numSprites < Two32 && h.firstPalette < Two32
    && h.numPalettes < Two32 && h.lofs < Two32 && h.tofs < Two32
    && (h.ver0 == 1 || h.ver0 == 2)
    && (h.ver0 == 1 ==> h.firstPalette == 0 && h.numPalettes == 0 && h.lofs == 0 && h.tofs == 0)
  }

  /**
   * The header at the start of `buf`: the magic, four version bytes (`Ver3`
   * first) and a reserved word, then the fields in the order the version
   * dictates. Version 2 skips four more reserved words and reads the sprite
   * directory, the palette directory and the two offset bases; version 1
   * reads the sprite count before the sprite directory offset.
   */
  function ReadSffHeader(buf: seq<byte>): (r: Result<SffHeader, SffError>)
    ensures r.Success? <==>
      |buf| >= 16 && buf[..12] == Magic
      && ((buf[15] == 2 && |buf| >= 64) || (buf[15] == 1 && |buf| >= 28))
    ensures (|buf| < 12 || buf[..12] != Magic) <==> r == Failure(BadMagic)
    ensures |buf| >= 20 && buf[..12] == Magic && buf[15] != 1 && buf[15] != 2
      ==> r == Failure(BadVersion(buf[15]))
    ensures r.Success? ==> HeaderOk(r.value) && r.value.ver0 == buf[15]
    ensures r.Success? ==> r.value.ver3 == buf[12] && r.value.ver2 == buf[13] && r.value.ver1 == buf[14]
    ensures r.Success? && buf[15] == 2 ==>
      && U32(buf, 36) == Success(r.value.firstSprite) && U32(buf, 40) == Success(r.value.numSprites)
      && U32(buf, 44) == Success(r.value.firstPalette) && U32(buf, 48) == Success(r.value.numPalettes)
      && U32(buf, 52) == Success(r.value.lofs) && U32(buf, 60) == Success(r.value.tofs)
    ensures r.Success? && buf[15] == 1 ==>
      U32(buf, 20) == Success(r.value.numSprites) && U32(buf, 24) == Success(r.value.firstSprite)
  {
    if |buf| < 12 || buf[..12] != Magic then Failure(BadMagic)
    else
      var ver3 :- Lift(U8(buf, 12));
      var ver2 :- Lift(U8(buf, 13));
      var ver1 :- Lift(U8(buf, 14));
      var ver0 :- Lift(U8(buf, 15));
      var _ :- Lift(U32(buf, 16));
      if ver0 == 2 then
        var _ :- Lift(U32(buf, 20));
        var _ :- Lift(U32(buf, 24));
        var _ :- Lift(U32(buf, 28));
        var _ :- Lift(U32(buf, 32));
        var firstSprite :- Lift(U32(buf, 36));
        var numSprites :- Lift(U32(buf, 40));
        var firstPalette :- Lift(U32(buf, 44));
        var numPalettes :- Lift(U32(buf, 48));
        var lofs :- Lift(U32(buf, 52));
        var _ :- Lift(U32(buf, 56));
        var tofs :- Lift(U32(buf, 60));
        Success(SffHeader(ver3, ver2, ver1, ver0, firstSprite, numSprites, firstPalette, numPalettes, lofs, tofs))
      else if ver0 == 1 then
        var numSprites :- Lift(U32(buf, 20));
        var firstSprite :- Lift(U32(buf, 24));
        Success(SffHeader(ver3, ver2, ver1, ver0, firstSprite, numSprites, 0, 0, 0, 0))
      else Failure(BadVersion(ver0))
  }

  /** The header as a writer lays it out, reserved words zero. */
  function HeaderBytes(h: SffHeader): (b: seq<byte>)
    requires HeaderOk(h)
    ensures |b| == (if h.ver0 == 2 then 64 else 28)
  {
    var head := Magic + [h.ver3, h.ver2, h.ver1, h.ver0] + U32Bytes(0);
    if h.ver0 == 2 then
      head + U32Bytes(0) + U32Bytes(0) + U32Bytes(0) + U32Bytes(0)
      + U32Bytes(h.firstSprite) + U32Bytes(h.numSprites)
      + U32Bytes(h.firstPalette) + U32Bytes(h.numPalettes)
      + U32Bytes(h.lofs) + U32Bytes(0) + U32Bytes(h.tofs)
    else
      head + U32Bytes(h.numSprites) + U32Bytes(h.firstSprite)
  }

  /** `b` holds the encoding of `x` at `pos`. */
  predicate Holds32(b: seq<byte>, pos: nat, x: nat) {
    x < Two32 && pos + 4 <= |b| && b[pos..pos + 4] == U32Bytes(x)
  }

  lemma HeaderFields(h: SffHeader)
    requires HeaderOk(h)
    ensures var b := HeaderBytes(h);
      b[..12] == Magic && b[12] == h.ver3 && b[13] == h.ver2 && b[14] == h.ver1 && b[15] == h.ver0
      && (h.ver0 == 2 ==>
            Holds32(b, 36, h.firstSprite) && Holds32(b, 40, h.numSprites)
            && Holds32(b, 44, h.firstPalette) && Holds32(b, 48, h.numPalettes)
            && Holds32(b, 52, h.lofs) && Holds32(b, 60, h.tofs))
      && (h.ver0 == 1 ==> Holds32(b, 20, h.numSprites) && Holds32(b, 24, h.firstSprite))
  {
  }

  /** Every header a writer can produce reads back unchanged, whatever the file holds after it. */
  lemma HeaderRoundTrip(h: SffHeader, post: seq<byte>)
    requires HeaderOk(h)
    ensures ReadSffHeader(HeaderBytes(h) + post) == Success(h)
  {
    var hb := HeaderBytes(h);
    var b := hb + post;
    HeaderFields(h);
    assert b[..12] == hb[..12];
    assert forall k :: 0 <= k < |hb| ==> b[k] == hb[k];
    if h.ver0 == 2 {
      U32RoundTrip(b, 36, h.firstSprite);
      U32RoundTrip(b, 40, h.numSprites);
      U32RoundTrip(b, 44, h.firstPalette);
      U32RoundTrip(b, 48, h.numPalettes);
      U32RoundTrip(b, 52, h.lofs);
      U32RoundTrip(b, 60, h.tofs);
    } else {
      U32RoundTrip(b, 20, h.numSprites);
      U32RoundTrip(b, 24, h.firstSprite);
    }
  }

  /**
   * A sprite as the extractor keeps it: its own palette (empty when it uses
   * the shared table), group and number, size, drawing offset, index into the
   * palette table (-1 while unknown), `rle` (0 raw, a negative compression
   * format, or a positive PCX line length) and colour depth.
   */
  datatype Sprite = Sprite(
    pal: seq<nat>, group: int, number: int, w: nat, h: nat, x: int, y: int,
    palidx: int, rle: int, coldepth: byte)

  /** A freshly allocated sprite: every field zero except the palette index, which is unknown. */
  function NewSprite(): (s: Sprite)
    ensures s.palidx < 0 && s.pal == [] && s.w == 0 && s.h == 0 && s.rle == 0
  {
    Sprite([], 0, 0, 0, 0, 0, 0, -1, 0, 0)
  }

  predicate Is16(x: int) { -0x8000 <= x < 0x8000 }

  predicate Holds16(b: seq<byte>, pos: nat, x: nat) {
    x < Two16 && pos + 2 <= |b| && b[pos..pos + 2] == U16Bytes(x)
  }

  predicate HoldsI16(b: seq<byte>, pos: nat, x: int) {
    Is16(x) && pos + 2 <= |b| && b[pos..pos + 2] == I16Bytes(x)
  }

  /**
   * A version-1 directory entry (18 bytes): the offset of the next entry,
   * the payload size, the drawing offset, group, number and the index of the
   * sprite a zero-size entry shares.
   */
  datatype EntryV1 = EntryV1(next: nat, size: nat, x: int, y: int, group: int, number: int, link: nat)

  predicate V1Ok(e: EntryV1) {
    e.next < Two32 && e.size < Two32 && Is16(e.x) && Is16(e.y)
    && Is16(e.group) && Is16(e.number) && e.link < Two16
  }

  function ReadEntryV1(buf: seq<byte>, pos: nat): (r: Result<EntryV1, SffError>)
    ensures r.Success? <==> pos + 18 <= |buf|
    ensures r.Success? ==> V1Ok(r.value)
  {
    var next :- Lift(U32(buf, pos));
    var size :- Lift(U32(buf, pos + 4));
    var x :- Lift(I16(buf, pos + 8));
    var y :- Lift(I16(buf, pos + 10));
    var group :- Lift(I16(buf, pos + 12));
    var number :- Lift(I16(buf, pos + 14));
    var link :- Lift(U16(buf, pos + 16));
    Success(EntryV1(next, size, x, y, group, number, link))
  }

  function EntryV1Bytes(e: EntryV1): (b: seq<byte>)
    requires V1Ok(e)
    ensures |b| == 18
  {
    U32Bytes(e.next) + U32Bytes(e.size) + I16Bytes(e.x) + I16Bytes(e.y)
    + I16Bytes(e.group) + I16Bytes(e.number) + U16Bytes(e.link)
  }

  lemma EntryV1Fields(e: EntryV1)
    requires V1Ok(e)
    ensures var b := EntryV1Bytes(e);
      Holds32(b, 0, e.next) && Holds32(b, 4, e.size) && HoldsI16(b, 8, e.x) && HoldsI16(b, 10, e.y)
      && HoldsI16(b, 12, e.group) && HoldsI16(b, 14, e.number) && Holds16(b, 16, e.link)
  {
  }

  /** Every version-1 entry reads back unchanged, wherever it is placed. */
  lemma EntryV1RoundTrip(e: EntryV1, pre: seq<byte>, post: seq<byte>)
    requires V1Ok(e)
    ensures ReadEntryV1(pre + EntryV1Bytes(e) + post, |pre|) == Success(e)
  {
    var b := EntryV1Bytes(e);
    var buf := pre + b + post;
    var p := |pre|;
    EntryV1Fields(e);
    assert buf[p..p + 18] == b;
    U32RoundTrip(buf, p, e.next);
    U32RoundTrip(buf, p + 4, e.size);
    I16RoundTrip(buf, p + 8, e.x);
    I16RoundTrip(buf, p + 10, e.y);
    I16RoundTrip(buf, p + 12, e.group);
    I16RoundTrip(buf, p + 14, e.number);
    U16RoundTrip(buf, p + 16, e.link);
  }

  /** The sprite a version-1 entry describes before its payload is read. */
  function SpriteOfV1(e: EntryV1): (s: Sprite)
    ensures s.palidx < 0 && s.w == 0 && s.h == 0 && s.rle == 0
    ensures s.group == e.group && s.number == e.number && s.x == e.x && s.y == e.y
  {
    NewSprite().(group := e.group, number := e.number, x := e.x, y := e.y)
  }

  /**
   * A version-2 directory entry (28 bytes): group, number, size, drawing
   * offset, the shared sprite's index, the compression format, colour depth,
   * payload offset and size, palette index and flags.
   */
  datatype EntryV2 = EntryV2(
    group: int, number: int, w: nat, h: nat, x: int, y: int, link: nat,
    format: byte, coldepth: byte, ofs: nat, size: nat, palidx: nat, flags: nat)

  predicate V2Ok(e: EntryV2) {
    Is16(e.group) && Is16(e.number) && e.w < Two16 && e.h < Two16 && Is16(e.x) && Is16(e.y)
    && e.link < Two16 && e.ofs < Two32 && e.size < Two32 && e.palidx < Two16 && e.flags < Two16
  }

  function ReadEntryV2(buf: seq<byte>, pos: nat): (r: Result<EntryV2, SffError>)
    ensures r.Success? <==> pos + 28 <= |buf|
    ensures r.Success? ==> V2Ok(r.value)
  {
    var group :- Lift(I16(buf, pos));
    var number :- Lift(I16(buf, pos + 2));
    var w :- Lift(U16(buf, pos + 4));
    var h :- Lift(U16(buf, pos + 6));
    var x :- Lift(I16(buf, pos + 8));
    var y :- Lift(I16(buf, pos + 10));
    var link :- Lift(U16(buf, pos + 12));
    var format :- Lift(U8(buf, pos + 14));
    var coldepth :- Lift(U8(buf, pos + 15));
    var ofs :- Lift(U32(buf, pos + 16));
    var size :- Lift(U32(buf, pos + 20));
    var palidx :- Lift(U16(buf, pos + 24));
    var flags :- Lift(U16(buf, pos + 26));
    Success(EntryV2(group, number, w, h, x, y, link, format, coldepth, ofs, size, palidx, flags))
  }

  function EntryV2Bytes(e: EntryV2): (b: seq<byte>)
    requires V2Ok(e)
    ensures |b| == 28
  {
    I16Bytes(e.group) + I16Bytes(e.number) + U16Bytes(e.w) + U16Bytes(e.h)
    + I16Bytes(e.x) + I16Bytes(e.y) + U16Bytes(e.link) + [e.format, e.coldepth]
    + U32Bytes(e.ofs) + U32Bytes(e.size) + U16Bytes(e.palidx) + U16Bytes(e.flags)
  }

  lemma EntryV2Head(e: EntryV2)
    requires V2Ok(e)
    ensures var b := EntryV2Bytes(e);
      HoldsI16(b, 0, e.group) && HoldsI16(b, 2, e.number) && Holds16(b, 4, e.w) && Holds16(b, 6, e.h)
      && HoldsI16(b, 8, e.x) && HoldsI16(b, 10, e.y) && Holds16(b, 12, e.link)
  {
  }

  lemma EntryV2Tail(e: EntryV2)
    requires V2Ok(e)
    ensures var b := EntryV2Bytes(e);
      b[14] == e.format && b[15] == e.coldepth && Holds32(b, 16, e.ofs) && Holds32(b, 20, e.size)
      && Holds16(b, 24, e.palidx) && Holds16(b, 26, e.flags)
  {
  }

  /** Every version-2 entry reads back unchanged, wherever it is placed. */
  lemma EntryV2RoundTrip(e: EntryV2, pre: seq<byte>, post: seq<byte>)
    requires V2Ok(e)
    ensures ReadEntryV2(pre + EntryV2Bytes(e) + post, |pre|) == Success(e)
  {
    var b := EntryV2Bytes(e);
    var buf := pre + b + post;
    var p := |pre|;
    EntryV2Head(e);
    EntryV2Tail(e);
    assert buf[p..p + 28] == b;
    I16RoundTrip(buf, p, e.group);
    I16RoundTrip(buf, p + 2, e.number);
    U16RoundTrip(buf, p + 4, e.w);
    U16RoundTrip(buf, p + 6, e.h);
    I16RoundTrip(buf, p + 8, e.x);
    I16RoundTrip(buf, p + 10, e.y);
    U16RoundTrip(buf, p + 12, e.link);
    assert buf[p + 14] == e.format && buf[p + 15] == e.coldepth;
    U32RoundTrip(buf, p + 16, e.ofs);
    U32RoundTrip(buf, p + 20, e.size);
    U16RoundTrip(buf, p + 24, e.palidx);
    U16RoundTrip(buf, p + 26, e.flags);
  }

  /** The format byte read through a `char`, which is signed on the platforms the C++ extractor targets. */
  function SignedChar(b: byte): int {
    if b < 128 then b else b - 256
  }

  /** The sprite a version-2 entry describes: `rle` is the negated format. */
  function SpriteOfV2(e: EntryV2): (s: Sprite)
    ensures s.group == e.group && s.number == e.number && s.w == e.w && s.h == e.h
    ensures s.x == e.x && s.y == e.y && s.palidx == e.palidx && s.coldepth == e.coldepth
    ensures s.pal == []
  {
    Sprite([], e.group, e.number, e.w, e.h, e.x, e.y, e.palidx, -SignedChar(e.format), e.coldepth)
  }

  /**
   * Formats below 128 (every format in use) give `rle == -format`, which is
   * never positive; a format byte of 128 or more reads as a negative `char`
   * and gives a positive `rle`, which the payload reader rejects.
   */
  lemma RleOfFormat(e: EntryV2)
    ensures e.format < 128 ==> SpriteOfV2(e).rle == -(e.format as int) <= 0
    ensures e.format >= 128 ==> SpriteOfV2(e).rle == 256 - e.format > 0
  {
  }

  /**
   * The payload offset: relative to the literal-data base `lofs` when flag
   * bit 0 is clear and to the translated-data base `tofs` when it is set,
   * summed in 32 bits.
   */
  function PayloadOffset(e: EntryV2, lofs: nat, tofs: nat): (ofs: nat)
    requires e.ofs < Two32 && lofs < Two32 && tofs < Two32
    ensures ofs < Two32
  {
    (e.ofs + (if e.flags % 2 == 0 then lofs else tofs)) % Two32
  }

  /** The 32-bit sum wraps at most once, and only the low flag bit picks the base. */
  lemma OffsetBase(e: EntryV2, lofs: nat, tofs: nat)
    requires e.ofs < Two32 && lofs < Two32 && tofs < Two32
    ensures var base := if e.flags % 2 == 0 then lofs else tofs;
      var ofs := PayloadOffset(e, lofs, tofs);
      (ofs == e.ofs + base || ofs == e.ofs + base - Two32)
      && (e.ofs + base < Two32 <==> ofs == e.ofs + base)
    ensures forall f: nat :: f % 2 == e.flags % 2 ==> PayloadOffset(e.(flags := f), lofs, tofs) == PayloadOffset(e, lofs, tofs)
  {
  }

  /**
   * The 68-byte prefix of a version-1 payload that matters here: the encoding
   * (1 for run-length), bits per pixel, the image rectangle and the bytes per
   * line of one plane.
   */
  datatype PcxHeader = PcxHeader(encoding: byte, bpp: byte, x0: nat, y0: nat, x1: nat, y1: nat, bpl: nat)

  predicate PcxOk(p: PcxHeader) {
    p.x0 < Two16 && p.y0 < Two16 && p.x1 < Two16 && p.y1 < Two16 && p.bpl < Two16
  }

  /** The PCX header at `off`; the colour depth is checked before the rectangle is read. */
  function ReadPcx(buf: seq<byte>, off: nat): (r: Result<PcxHeader, SffError>)
    ensures r.Success? <==> off + 68 <= |buf| && buf[off + 3] == 8
    ensures off + 4 <= |buf| && buf[off + 3] != 8 ==> r == Failure(BadDepth(buf[off + 3]))
    ensures r.Success? ==> PcxOk(r.value) && r.value.bpp == 8
  {
    var _ :- Lift(U16(buf, off));
    var encoding :- Lift(U8(buf, off + 2));
    var bpp :- Lift(U8(buf, off + 3));
    if bpp != 8 then Failure(BadDepth(bpp))
    else
      var x0 :- Lift(U16(buf, off + 4));
      var y0 :- Lift(U16(buf, off + 6));
      var x1 :- Lift(U16(buf, off + 8));
      var y1 :- Lift(U16(buf, off + 10));
      var bpl :- Lift(U16(buf, off + 66));
      Success(PcxHeader(encoding, bpp, x0, y0, x1, y1, bpl))
  }

  function PcxBytes(p: PcxHeader): (b: seq<byte>)
    requires PcxOk(p)
    ensures |b| == 68
  {
    [0, 0, p.encoding, p.bpp] + U16Bytes(p.x0) + U16Bytes(p.y0) + U16Bytes(p.x1) + U16Bytes(p.y1)
    + Repeat(0, 54) + U16Bytes(p.bpl)
  }

  lemma PcxFields(p: PcxHeader)
    requires PcxOk(p)
    ensures var b := PcxBytes(p);
      b[2] == p.encoding && b[3] == p.bpp && Holds16(b, 4, p.x0) && Holds16(b, 6, p.y0)
      && Holds16(b, 8, p.x1) && Holds16(b, 10, p.y1) && Holds16(b, 66, p.bpl)
  {
  }

  /** Every 8-bit PCX header reads back unchanged, wherever it is placed. */
  lemma PcxRoundTrip(p: PcxHeader, pre: seq<byte>, post: seq<byte>)
    requires PcxOk(p) && p.bpp == 8
    ensures ReadPcx(pre + PcxBytes(p) + post, |pre|) == Success(p)
  {
    var b := PcxBytes(p);
    var buf := pre + b + post;
    var q := |pre|;
    PcxFields(p);
    assert buf[q..q + 68] == b;
    U16RoundTrip(buf, q + 4, p.x0);
    U16RoundTrip(buf, q + 6, p.y0);
    U16RoundTrip(buf, q + 8, p.x1);
    U16RoundTrip(buf, q + 10, p.y1);
    U16RoundTrip(buf, q + 66, p.bpl);
  }

  /** The sprite size the rectangle gives, in 16-bit arithmetic, and `rle`: the line length when run-length encoded. */
  function WithPcx(s: Sprite, p: PcxHeader): (s': Sprite)
    ensures s'.pal == s.pal && s'.group == s.group && s'.number == s.number && s'.palidx == s.palidx
    ensures s'.w < Two16 && s'.h < Two16
  {
    s.(w := (p.x1 - p.x0 + 1) % Two16, h := (p.y1 - p.y0 + 1) % Two16,
       rle := if p.encoding == 1 then p.bpl else 0)
  }

  /**
   * `rle` is the line length exactly for run-length encoding; a rectangle
   * whose corners are in order gives its true size unless that is 65536, and
   * corners more than one apart in the wrong order wrap around.
   */
  lemma PcxGeometry(s: Sprite, p: PcxHeader)
    requires PcxOk(p)
    ensures var t := WithPcx(s, p);
      (p.encoding == 1 ==> t.rle == p.bpl) && (p.encoding != 1 ==> t.rle == 0)
      && (p.x0 <= p.x1 < p.x0 + 0xFFFF ==> t.w == p.x1 - p.x0 + 1)
      && (p.x1 + 1 < p.x0 ==> t.w == p.x1 - p.x0 + 1 + Two16)
      && (p.y0 <= p.y1 < p.y0 + 0xFFFF ==> t.h == p.y1 - p.y0 + 1)
      && (p.y1 + 1 < p.y0 ==> t.h == p.y1 - p.y0 + 1 + Two16)
  {
  }
}

=== FILE: directory.dfy ===
/**
 * The sprite directory: where each entry lives and what it says, and the
 * size bookkeeping of a version-1 payload. Version-1 entries form a chain,
 * each naming the offset of the next; version-2 entries sit at a fixed
 * 28-byte stride.
 */
module Directory {
  import opened Wrappers
  import opened Bytes
  import opened Container

  /**
   * One directory entry, whichever version: the sprite it describes, the
   * offset word `xofs` (the next entry's offset in version 1, the payload's in
   * version 2), the payload size and the index of the sprite a zero-size entry
   * shares.
   */
  datatype Entry = Entry(sprite: Sprite, xofs: nat, size: nat, link: nat)

  const StrideV2: nat := 28

  /** The entry at `pos`, read as the header's version dictates. */
  function ReadEntry(buf: seq<byte>, pos: nat, hdr: SffHeader): (r: Result<Entry, SffError>)
    requires HeaderOk(hdr)
    ensures r.Success? <==> pos + (if hdr.ver0 == 1 then 18 else StrideV2) <= |buf|
    ensures r.Success? ==> r.value.xofs < Two32 && r.value.size < Two32 && r.value.link < Two16
  {
    if hdr.ver0 == 1 then
      var e :- ReadEntryV1(buf, pos);
      Success(Entry(SpriteOfV1(e), e.next, e.size, e.link))
    else
      var e :- ReadEntryV2(buf, pos);
      Success(Entry(SpriteOfV2(e), PayloadOffset(e, hdr.lofs, hdr.tofs), e.size, e.link))
  }

  /** Where the entry after the one at `pos` is: the chain link in version 1, the next slot in version 2. */
  function NextPos(hdr: SffHeader, pos: nat, e: Entry): (r: nat)
    ensures hdr.ver0 == 1 ==> r == e.xofs
    ensures hdr.ver0 != 1 ==> r == pos + StrideV2
  {
    if hdr.ver0 == 1 then e.xofs else pos + StrideV2
  }

  /** `n` entries, the first at `pos`; the walk stops at the first entry that cannot be read. */
  function Walk(buf: seq<byte>, hdr: SffHeader, pos: nat, n: nat): (r: Result<seq<Entry>, SffError>)
    requires HeaderOk(hdr)
    ensures r.Success? ==> |r.value| == n
    decreases n
  {
    if n == 0 then Success([])
    else
      var e :- ReadEntry(buf, pos, hdr);
      var rest :- Walk(buf, hdr, NextPos(hdr, pos, e), n - 1);
      Success([e] + rest)
  }

  /** Every entry the header announces. */
  function ReadDirectory(buf: seq<byte>, hdr: SffHeader): (r: Result<seq<Entry>, SffError>)
    requires HeaderOk(hdr)
    ensures r.Success? ==> |r.value| == hdr.numSprites
  {
    Walk(buf, hdr, hdr.firstSprite, hdr.numSprites)
  }

  /** In version 2 entry `k` is the one at `pos + 28 * k`. */
  lemma {:induction false} Stride(buf: seq<byte>, hdr: SffHeader, pos: nat, n: nat, k: nat)
    requires HeaderOk(hdr) && hdr.ver0 == 2
    requires Walk(buf, hdr, pos, n).Success? && k < n
    ensures ReadEntry(buf, pos + StrideV2 * k, hdr) == Success(Walk(buf, hdr, pos, n).value[k])
    decreases k
  {
    var e := ReadEntry(buf, pos, hdr).value;
    if k > 0 {
      Stride(buf, hdr, pos + StrideV2, n - 1, k - 1);
    }
  }

  /** A version-2 walk succeeds exactly when its last slot ends inside the buffer. */
  lemma {:induction false} StrideExtent(buf: seq<byte>, hdr: SffHeader, pos: nat, n: nat)
    requires HeaderOk(hdr) && hdr.ver0 == 2
    ensures Walk(buf, hdr, pos, n).Success? <==> n == 0 || pos + StrideV2 * n <= |buf|
    decreases n
  {
    if n > 0 {
      StrideExtent(buf, hdr, pos + StrideV2, n - 1);
    }
  }

  /** In version 1 the first entry is at `pos` and each later one where its predecessor points. */
  lemma {:induction false} Chain(buf: seq<byte>, hdr: SffHeader, pos: nat, n: nat, k: nat)
    requires HeaderOk(hdr) && hdr.ver0 == 1
    requires Walk(buf, hdr, pos, n).Success? && k + 1 < n
    ensures var es := Walk(buf, hdr, pos, n).value;
      ReadEntry(buf, pos, hdr) == Success(es[0])
      && ReadEntry(buf, es[k].xofs, hdr) == Success(es[k + 1])
    decreases k
  {
    var e := ReadEntry(buf, pos, hdr).value;
    if k > 0 {
      Chain(buf, hdr, e.xofs, n - 1, k - 1);
    } else {
      var es' := Walk(buf, hdr, e.xofs, n - 1).value;
      assert ReadEntry(buf, e.xofs, hdr) == Success(es'[0]) by {
        assert n - 1 > 0;
      }
    }
  }

  /** The C++ directory loop: read the entry at `shofs`, then move `shofs` on. */
  method ReadSprites(buf: seq<byte>, hdr: SffHeader) returns (r: Result<seq<Entry>, SffError>)
    requires HeaderOk(hdr)
    ensures r == ReadDirectory(buf, hdr)
  {
    var es: seq<Entry> := [];
    var shofs: nat := hdr.firstSprite;
    var i: nat := 0;
    PrependNone(Walk(buf, hdr, shofs, hdr.numSprites));
    while i < hdr.numSprites
      invariant i <= hdr.numSprites && |es| == i
      invariant ReadDirectory(buf, hdr) == PrependEntries(es, Walk(buf, hdr, shofs, hdr.numSprites - i))
    {
      var e := ReadEntry(buf, shofs, hdr);
      if e.Failure? {
        return Failure(e.error);
      }
      PrependAssoc(es, [e.value], Walk(buf, hdr, NextPos(hdr, shofs, e.value), hdr.numSprites - i - 1));
      es := es + [e.value];
      shofs := if hdr.ver0 == 1 then e.value.xofs else shofs + StrideV2;
      i := i + 1;
    }
    assert es + [] == es;
    return Success(es);
  }

  /** `pre` followed by the entries of `r`, or `r`'s error. */
  function PrependEntries(pre: seq<Entry>, r: Result<seq<Entry>, SffError>): (q: Result<seq<Entry>, SffError>)
    ensures q.Failure? <==> r.Failure?
    ensures r.Failure? ==> q == Failure(r.error)
  {
    match r
    case Success(v) => Success(pre + v)
    case Failure(e) => Failure(e)
  }

  lemma PrependNone(r: Result<seq<Entry>, SffError>)
    ensures PrependEntries([], r) == r
  {
    if r.Success? {
      assert [] + r.value == r.value;
    }
  }

  lemma PrependAssoc(a: seq<Entry>, b: seq<Entry>, r: Result<seq<Entry>, SffError>)
    ensures PrependEntries(a, PrependEntries(b, r)) == PrependEntries(a + b, r)
  {
    if r.Success? {
      assert a + (b + r.value) == (a + b) + r.value;
    }
  }

  /** The bytes of a version-1 payload: the PCX header, the pixel data and, unless shared, a 768-byte palette. */
  datatype Payload = Payload(datasize: nat, palSize: nat, pixelBytes: nat)

  /**
   * The size of the version-1 payload at `offset`: everything up to the next
   * entry when that lies beyond the payload (the recorded `datasize` is only
   * trusted for the last one), raised to at least the header and palette.
   * A sprite that reuses the previous palette counts no palette bytes. The
   * first sprite of a character file counts none either, although it still
   * reads its palette: from the last 768 of its pixel bytes.
   */
  function V1Payload(offset: nat, datasize: nat, next: nat, c00: bool, paletteSame: bool): (p: Payload)
    ensures p.palSize == 0 <==> c00 || paletteSame
    ensures p.palSize == 0 || p.palSize == 768
    ensures 128 + p.palSize + p.pixelBytes == p.datasize
    ensures next > offset ==> p.datasize == if next - offset < 128 + p.palSize then 128 + p.palSize else next - offset
    ensures next <= offset ==> p.datasize == if datasize < 128 + p.palSize then 128 + p.palSize else datasize
  {
    var ds := if next > offset then next - offset else datasize;
    var palSize := if c00 || paletteSame then 0 else 768;
    var ds' := if ds < 128 + palSize then 128 + palSize else ds;
    Payload(ds', palSize, ds' - (128 + palSize))
  }

  /**
   * The payload of the version-1 entry at `shofs` starts after its 32-byte
   * slot: the 18 entry bytes, the palette flag byte and 13 reserved bytes.
   */
  function V1PayloadOffset(shofs: nat): (r: nat)
    ensures r == shofs + 18 + 1 + 13
  {
    shofs + 32
  }

  /** A payload never has fewer bytes than its header and palette, and grows with the distance to the next entry. */
  lemma PayloadMonotone(offset: nat, datasize: nat, next: nat, next': nat, c00: bool, same: bool)
    requires offset < next <= next'
    ensures V1Payload(offset, datasize, next, c00, same).pixelBytes
         <= V1Payload(offset, datasize, next', c00, same).pixelBytes
    ensures V1Payload(offset, datasize, next', c00, same).pixelBytes
         <= V1Payload(offset, datasize, next, c00, same).pixelBytes + (next' - next)
  {
  }
}

=== FILE: lz5.dfy ===
/**
 * LZ5 (sprite format 4). A control byte, read first and again after every
 * eighth token, selects per token (least significant bit first) a copy from
 * the pixels already produced or a literal run of a 5-bit colour.
 */
module Lz5 {
  import opened Wrappers
  import opened Bytes
  import opened Codec

  /**
   * The decoder's registers between tokens: the logical source position, the
   * control byte `ct` and its next bit `cts`, and the 2-bit distance fragments
   * `rb` gathered by short copies, `rbc` bits of them so far.
   */
  datatype State = State(p: nat, ct: byte, cts: nat, rb: byte, rbc: nat)

  /**
   * `cts` names a bit of the control byte, and the fragments gathered so far
   * fill the top `rbc` bits of `rb`, leaving the rest clear.
   */
  predicate Valid(s: State) {
    s.cts < 8 && LowClear(s.rb, s.rbc)
  }

  /** `rbc` is 0, 2, 4 or 6 and the `8 - rbc` low bits of `rb` are clear. */
  predicate LowClear(rb: byte, rbc: nat) {
    || (rbc == 0 && rb == 0)
    || (rbc == 2 && rb % 64 == 0)
    || (rbc == 4 && rb % 16 == 0)
    || (rbc == 6 && rb % 4 == 0)
  }

  /** Bit `k` of `x` is set: `x & (1 << k)`. */
  predicate Bit(x: nat, k: nat)
    decreases k
  {
    if k == 0 then x % 2 == 1 else Bit(x / 2, k - 1)
  }

  /** An all-literal control byte. */
  lemma NoBit(k: nat)
    ensures !Bit(0, k)
  {
  }

  /**
   * The 2-bit fragment `f` (`d >> 6`) moved just below the `rbc` bits already
   * gathered: `(d & 0xC0) >> rbc`.
   */
  function Place(f: nat, rbc: nat): nat
    requires rbc <= 6 && rbc % 2 == 0
  {
    if rbc == 0 then 64 * f else if rbc == 2 then 16 * f else if rbc == 4 then 4 * f else f
  }

  /**
   * The fragments never overlap: adding the next 2-bit fragment below the ones
   * already gathered is the C++ decoder's `rb |= ...`, stays a byte, and leaves the
   * bits below it clear.
   */
  lemma FragFits(rb: byte, rbc: nat, f: nat)
    requires LowClear(rb, rbc) && f < 4
    ensures rb + Place(f, rbc) < 256
    ensures rbc < 6 ==> LowClear(rb + Place(f, rbc), rbc + 2)
  {
    if rbc == 2 {
      assert rb == 64 * (rb / 64) && rb / 64 < 4;
    } else if rbc == 4 {
      assert rb == 16 * (rb / 16) && rb / 16 < 16;
    } else if rbc == 6 {
      assert rb == 4 * (rb / 4) && rb / 4 < 64;
    }
  }

  /** A decoded token: `len` pixels copied from `dist` back, or `len` pixels of colour `v`. */
  datatype Tok = Copy(dist: nat, len: nat) | Lit(v: byte, len: nat)

  /** Registers after the first control byte. */
  function Init(src: seq<byte>): (s: State)
    requires |src| > 0
    ensures Valid(s)
    ensures s.ct == src[0] && s.p == 1 && s.cts == 0 && s.rb == 0 && s.rbc == 0
  {
    State(1, src[0], 0, 0, 0)
  }

  /** Whether control bit `cts` of `ct` selects a copy (`ct & (1 << cts)`). */
  predicate IsCopy(s: State)
    requires Valid(s)
  {
    Bit(s.ct, s.cts)
  }

  /**
   * A token without the control-byte refresh: the token, the logical position
   * after its bytes, and the new distance fragments.
   */
  datatype Body = Body(tok: Tok, q: nat, rb: byte, rbc: nat)

  /** A copy token whose first byte `d` was read before position `q`. */
  function CopyBody(src: seq<byte>, s: State, d: byte, q: nat): (b: Body)
    requires |src| > 0 && Valid(s)
    ensures b.tok.Copy? && b.tok.dist >= 1 && b.tok.len >= 1
    ensures q <= b.q <= q + 2 && Valid(State(0, 0, 0, b.rb, b.rbc))
  {
    if d % 64 == 0 then
      Body(Copy(d * 4 + At(src, q) + 1, At(src, q + 1) + 3), q + 2, s.rb, s.rbc)
    else
      FragFits(s.rb, s.rbc, d / 64);
      var rb := s.rb + Place(d / 64, s.rbc);
      if s.rbc + 2 < 8 then Body(Copy(At(src, q) + 1, d % 64 + 1), q + 1, rb, s.rbc + 2)
      else Body(Copy(rb as int + 1, d % 64 + 1), q, 0, 0)
  }

  /** A short copy that still gathers its distance fragment. */
  lemma ShortCopy(src: seq<byte>, s: State, d: byte, q: nat)
    requires |src| > 0 && Valid(s) && d % 64 != 0 && s.rbc < 6
    ensures CopyBody(src, s, d, q) == Body(Copy(At(src, q) + 1, d % 64 + 1), q + 1, s.rb + Place(d / 64, s.rbc), s.rbc + 2)
  {
  }

  /** A literal token whose first byte `d` was read before position `q`. */
  function LitBody(src: seq<byte>, s: State, d: byte, q: nat): (b: Body)
    requires |src| > 0
    ensures b.tok.Lit? && b.tok.v < 32 && b.tok.len >= 1
    ensures q <= b.q <= q + 1 && b.rb == s.rb && b.rbc == s.rbc
  {
    if d / 32 == 0 then Body(Lit(d, At(src, q) + 8), q + 1, s.rb, s.rbc)
    else Body(Lit(d % 32, d / 32), q, s.rb, s.rbc)
  }

  /**
   * The token at `s`, and the registers after it, including the fresh control
   * byte read once eight tokens have used the current one.
   */
  function Token(src: seq<byte>, s: State): (r: (Tok, State))
    requires |src| > 0 && Valid(s)
    ensures Valid(r.1) && r.1.p > s.p && r.0.len >= 1
    ensures r.0.Copy? <==> IsCopy(s)
    ensures r.0.Copy? ==> r.0.dist >= 1
    ensures r.0.Lit? ==> r.0.v < 32
  {
    var d := At(src, s.p);
    var b := if IsCopy(s) then CopyBody(src, s, d, s.p + 1) else LitBody(src, s, d, s.p + 1);
    if s.cts + 1 >= 8 then (b.tok, State(b.q + 1, At(src, b.q), 0, b.rb, b.rbc))
    else (b.tok, State(b.q, s.ct, s.cts + 1, b.rb, b.rbc))
  }

  /**
   * The `k` pixels an overlapping back-copy appends to `out`, one at a time as
   * the C++ decoder writes them: each is the pixel `d` places before it, which may
   * itself be one just copied.
   */
  function CopyFrom(out: seq<byte>, d: nat, k: nat): (r: seq<byte>)
    requires 1 <= d <= |out|
    ensures |r| == k
    decreases k
  {
    if k == 0 then []
    else
      var r := CopyFrom(out, d, k - 1);
      r + [(out + r)[|out| + k - 1 - d]]
  }

  /**
   * A back-copy starts with the last `d` pixels of `out` and then repeats
   * itself with period `d`.
   */
  predicate Periodic(out: seq<byte>, d: nat, c: seq<byte>)
    requires 1 <= d <= |out|
  {
    forall m {:trigger c[m]} :: 0 <= m < |c| ==> c[m] == if m < d then out[|out| - d + m] else c[m - d]
  }

  lemma {:induction false} CopyPeriodic(out: seq<byte>, d: nat, k: nat)
    requires 1 <= d <= |out|
    ensures Periodic(out, d, CopyFrom(out, d, k))
  {
    if k > 0 {
      CopyPeriodic(out, d, k - 1);
      var r := CopyFrom(out, d, k - 1);
      var c := CopyFrom(out, d, k);
      assert c == r + [(out + r)[|out| + k - 1 - d]];
      assert Periodic(out, d, r);
      forall m | 0 <= m < k
        ensures c[m] == if m < d then out[|out| - d + m] else c[m - d]
      {
        if m < k - 1 {
          assert c[m] == r[m];
          if m >= d {
            assert c[m - d] == r[m - d];
          }
        } else if m >= d {
          assert c[m] == (out + r)[|out| + m - d] == r[m - d];
        } else {
          assert c[m] == (out + r)[|out| + m - d] == out[|out| + m - d];
        }
      }
    }
  }

  /** What one token appends to `out` in a buffer of `n` pixels, or the bad distance. */
  function Emit(tok: Tok, out: seq<byte>, n: nat): (r: Decoded)
    requires |out| < n && tok.len >= 1
    requires tok.Copy? ==> tok.dist >= 1
    ensures r.Success? ==> |r.value| == Min(tok.len, n - |out|) >= 1
    ensures r.Failure? <==> tok.Copy? && tok.dist > |out|
    ensures r.Failure? ==> r.error == BadDistance(|out|, tok.dist)
  {
    var k := Min(tok.len, n - |out|);
    match tok
    case Lit(v, _) => Success(Repeat(v, k))
    case Copy(dist, _) =>
      if dist > |out| then Failure(BadDistance(|out|, dist)) else Success(CopyFrom(out, dist, k))
  }

  /** The whole `n`-pixel buffer once decoding resumes at `s` with `out` already written. */
  function Run(src: seq<byte>, s: State, out: seq<byte>, n: nat): (r: Decoded)
    requires |src| > 0 && Valid(s) && |out| <= n
    ensures r.Success? ==> |r.value| == n
    ensures r.Failure? ==> r.error.BadDistance?
    decreases n - |out|
  {
    if |out| == n then Success(out)
    else
      var (tok, s') := Token(src, s);
      var e :- Emit(tok, out, n);
      Run(src, s', out + e, n)
  }

  /** The pixels of a `w`×`h` sprite; an empty source is refused. */
  function Decode(src: seq<byte>, w: nat, h: nat): (r: Decoded)
    ensures r.Success? ==> |r.value| == w * h
    ensures |src| == 0 <==> r == Failure(EmptySource)
    ensures r.Failure? && |src| > 0 ==> r.error.BadDistance?
  {
    if |src| == 0 then Failure(EmptySource) else Run(src, Init(src), [], w * h)
  }

  /** The reads of a copy token after its first byte `d`, through the saturating index. */
  method ReadCopy(src: seq<byte>, i: nat, rb: byte, rbc: nat, d: byte, ghost s: State, ghost q: nat)
    returns (tok: Tok, rb': byte, rbc': nat, i': nat, ghost q': nat)
    requires |src| > 0 && i == Sat(src, q) && Valid(s) && s.rb == rb && s.rbc == rbc
    ensures tok == CopyBody(src, s, d, q).tok
    ensures rb' == CopyBody(src, s, d, q).rb && rbc' == CopyBody(src, s, d, q).rbc
    ensures q' == CopyBody(src, s, d, q).q && i' == Sat(src, q')
  {
    if d % 64 == 0 {
      var dist := d as int * 4 + src[i] as int + 1;
      AdvanceSat(src, q);
      i' := Advance(src, i);
      var n := src[i'] as int + 2;
      AdvanceSat(src, q + 1);
      i' := Advance(src, i');
      tok, rb', rbc', q' := Copy(dist, n + 1), rb, rbc, q + 2;
    } else {
      FragFits(rb, rbc, d / 64);
      rb' := rb + Place(d / 64, rbc);
      rbc' := rbc + 2;
      var n := d % 64;
      if rbc' < 8 {
        tok := Copy(src[i] as int + 1, n + 1);
        AdvanceSat(src, q);
        i', q' := Advance(src, i), q + 1;
      } else {
        tok := Copy(rb' as int + 1, n + 1);
        rb', rbc' := 0, 0;
        i', q' := i, q;
      }
    }
  }

  /** The reads of a literal token after its first byte `d`. */
  method ReadLit(src: seq<byte>, i: nat, d: byte, ghost s: State, ghost q: nat)
    returns (tok: Tok, i': nat, ghost q': nat)
    requires |src| > 0 && i == Sat(src, q)
    ensures tok == LitBody(src, s, d, q).tok
    ensures q' == LitBody(src, s, d, q).q && i' == Sat(src, q')
  {
    if d / 32 == 0 {
      tok := Lit(d, src[i] as int + 8);
      AdvanceSat(src, q);
      i', q' := Advance(src, i), q + 1;
    } else {
      tok := Lit(d % 32, d / 32);
      i', q' := i, q;
    }
  }

  /**
   * The token reads of the C++ loop body, including the control-byte
   * refresh the C++ decoder does after the token's pixels.
   */
  method ReadToken(src: seq<byte>, i: nat, ct: byte, cts: nat, rb: byte, rbc: nat, ghost p: nat)
    returns (tok: Tok, i': nat, ct': byte, cts': nat, rb': byte, rbc': nat, ghost p': nat)
    requires |src| > 0 && i == Sat(src, p) && Valid(State(p, ct, cts, rb, rbc))
    ensures var (t, s') := Token(src, State(p, ct, cts, rb, rbc));
      tok == t && ct' == s'.ct && cts' == s'.cts && rb' == s'.rb && rbc' == s'.rbc
    ensures p' == Token(src, State(p, ct, cts, rb, rbc)).1.p
    ensures i' == Sat(src, p')
  {
    ghost var s := State(p, ct, cts, rb, rbc);
    var d := src[i];
    AdvanceSat(src, p);
    if Bit(ct, cts) {
      tok, rb', rbc', i', p' := ReadCopy(src, Advance(src, i), rb, rbc, d, s, p + 1);
    } else {
      tok, i', p' := ReadLit(src, Advance(src, i), d, s, p + 1);
      rb', rbc' := rb, rbc;
    }
    ct', cts' := ct, cts + 1;
    if cts' >= 8 {
      ct' := src[i'];
      cts' := 0;
      AdvanceSat(src, p');
      i', p' := Advance(src, i'), p' + 1;
    }
  }

  /** A full buffer is the result. */
  lemma RunDone(src: seq<byte>, s: State, out: seq<byte>, n: nat)
    requires |src| > 0 && Valid(s) && |out| == n
    ensures Run(src, s, out, n) == Success(out)
  {
  }

  /** One token of `Run`: its pixels, or its bad distance, then the rest. */
  lemma RunStep(src: seq<byte>, s: State, out: seq<byte>, n: nat)
    requires |src| > 0 && Valid(s) && |out| < n
    ensures var (tok, s') := Token(src, s);
      var e := Emit(tok, out, n);
      Run(src, s, out, n) == if e.Failure? then Failure(e.error) else Run(src, s', out + e.value, n)
  {
  }

  /**
   * The C++ copy loop: `len` pixels each read `d` back, kept while the
   * buffer of `n` pixels has room.
   */
  method CopyRun(dst: seq<byte>, n: nat, d: nat, len: nat) returns (dst': seq<byte>)
    requires 1 <= d <= |dst| < n
    ensures dst' == dst + CopyFrom(dst, d, Min(len, n - |dst|))
  {
    dst' := dst;
    var m := len;
    while m > 0
      invariant 0 <= m <= len && |dst| <= |dst'| <= n
      invariant |dst'| - |dst| == Min(len - m, n - |dst|)
      invariant dst' == dst + CopyFrom(dst, d, |dst'| - |dst|)
    {
      if |dst'| < n {
        dst' := dst' + [dst'[|dst'| - d]];
      }
      m := m - 1;
    }
  }

  /** The C++ literal loop: `len` pixels of colour `v` while the buffer has room. */
  method FillRun(dst: seq<byte>, n: nat, v: byte, len: nat) returns (dst': seq<byte>)
    requires |dst| <= n
    ensures dst' == dst + Repeat(v, Min(len, n - |dst|))
  {
    dst' := dst;
    var m := len;
    while m > 0 && |dst'| < n
      invariant 0 <= m <= len && |dst| <= |dst'| <= n
      invariant |dst'| - |dst| == len - m
      invariant dst' == dst + Repeat(v, len - m)
    {
      assert Repeat(v, len - m + 1) == Repeat(v, len - m) + [v];
      dst' := dst' + [v];
      m := m - 1;
    }
  }

  /**
   * One pass of the C++ loop: a token's reads, then its pixels, or the
   * out-of-range back-reference the C++ decoder cannot survive.
   */
  method DecodeToken(src: seq<byte>, n: nat, dst: seq<byte>, i: nat, ct: byte, cts: nat, rb: byte, rbc: nat, ghost p: nat)
    returns (err: Option<DecodeError>, dst': seq<byte>, i': nat, ct': byte, cts': nat, rb': byte, rbc': nat, ghost p': nat)
    requires |src| > 0 && i == Sat(src, p) && Valid(State(p, ct, cts, rb, rbc)) && |dst| < n
    ensures err.Some? ==> Run(src, State(p, ct, cts, rb, rbc), dst, n) == Failure(err.value)
    ensures err.None? ==> |dst| < |dst'| <= n && i' == Sat(src, p') && Valid(State(p', ct', cts', rb', rbc'))
    ensures err.None? ==>
      Run(src, State(p, ct, cts, rb, rbc), dst, n) == Run(src, State(p', ct', cts', rb', rbc'), dst', n)
  {
    ghost var s := State(p, ct, cts, rb, rbc);
    var tok;
    tok, i', ct', cts', rb', rbc', p' := ReadToken(src, i, ct, cts, rb, rbc, p);
    RunStep(src, s, dst, n);
    err := None;
    match tok {
      case Copy(dist, len) =>
        if dist > |dst| {
          // `dst[j - d]` before the buffer: a crash in the C++ decoder.
          return Some(BadDistance(|dst|, dist)), dst, i', ct', cts', rb', rbc', p';
        }
        dst' := CopyRun(dst, n, dist, len);
      case Lit(v, len) =>
        dst' := FillRun(dst, n, v, len);
    }
  }

  /** `Lz5Decode` as the C++ decoder writes it. */
  method Lz5Decode(src: seq<byte>, w: nat, h: nat) returns (r: Decoded)
    ensures r == Decode(src, w, h)
  {
    if |src| == 0 {
      return Failure(EmptySource);
    }
    var dstLen := w * h;
    var dst: seq<byte> := [];
    var ct, cts, rb, rbc := src[0], 0, 0, 0;
    var i := Advance(src, 0);
    AdvanceSat(src, 0);
    ghost var p: nat := 1;
    while |dst| < dstLen
      invariant |dst| <= dstLen && i == Sat(src, p) && Valid(State(p, ct, cts, rb, rbc))
      invariant Decode(src, w, h) == Run(src, State(p, ct, cts, rb, rbc), dst, dstLen)
      decreases dstLen - |dst|
    {
      var err;
      err, dst, i, ct, cts, rb, rbc, p := DecodeToken(src, dstLen, dst, i, ct, cts, rb, rbc, p);
      if err.Some? {
        return Failure(err.value);
      }
    }
    return Success(dst);
  }

  /** Every pixel is a 5-bit colour. */
  predicate FiveBit(px: seq<byte>) {
    forall k :: 0 <= k < |px| ==> px[k] < 32
  }

  /** A back-copy of 5-bit pixels is 5-bit. */
  lemma {:induction false} CopyFiveBit(out: seq<byte>, d: nat, k: nat)
    requires 1 <= d <= |out| && FiveBit(out)
    ensures FiveBit(CopyFrom(out, d, k))
  {
    if k > 0 {
      CopyFiveBit(out, d, k - 1);
      var r := CopyFrom(out, d, k - 1);
      assert FiveBit(out + r);
    }
  }

  /** Decoding never produces a pixel outside the 5-bit colours a literal can name. */
  lemma {:induction false} RunFiveBit(src: seq<byte>, s: State, out: seq<byte>, n: nat)
    requires |src| > 0 && Valid(s) && |out| <= n && FiveBit(out)
    ensures Run(src, s, out, n).Success? ==> FiveBit(Run(src, s, out, n).value)
    decreases n - |out|
  {
    if |out| < n {
      var (tok, s') := Token(src, s);
      RunStep(src, s, out, n);
      var e := Emit(tok, out, n);
      if e.Success? {
        if tok.Copy? {
          CopyFiveBit(out, tok.dist, Min(tok.len, n - |out|));
        }
        assert FiveBit(out + e.value);
        RunFiveBit(src, s', out + e.value, n);
      }
    }
  }

  /** Every decoded LZ5 sprite uses colours 0 to 31 only. */
  lemma DecodeFiveBit(src: seq<byte>, w: nat, h: nat)
    ensures Decode(src, w, h).Success? ==> FiveBit(Decode(src, w, h).value)
  {
    if |src| > 0 {
      RunFiveBit(src, Init(src), [], w * h);
    }
  }

  /** Short literals `0x20 | v`: one pixel of colour `v` each. */
  function Lits(px: seq<byte>): (e: seq<byte>)
    requires FiveBit(px)
    ensures |e| == |px|
  {
    if px == [] then [] else [32 + px[0]] + Lits(px[1..])
  }

  /** Groups of at most eight short literals, each after an all-literal control byte. */
  function Encode(px: seq<byte>): (e: seq<byte>)
    requires FiveBit(px)
    ensures |e| > |px|
    decreases |px|
  {
    if |px| <= 8 then [0] + Lits(px) else [0] + Lits(px[..8]) + Encode(px[8..])
  }

  /** The registers after `k` more tokens under the current control byte, which had room for them. */
  function After(src: seq<byte>, s: State, k: nat): State
    requires |src| > 0
  {
    if s.cts + k == 8 then State(s.p + k + 1, At(src, s.p + k), 0, s.rb, s.rbc)
    else State(s.p + k, s.ct, s.cts + k, s.rb, s.rbc)
  }

  /** A short literal `0x20 | v` under an all-literal control byte. */
  lemma LitToken(src: seq<byte>, s: State, v: byte)
    requires |src| > 0 && Valid(s) && s.ct == 0 && v < 32
    requires s.p < |src| && src[s.p] == 32 + v
    ensures Token(src, s) == (Lit(v, 1), After(src, s, 1))
  {
    NoBit(s.cts);
    assert LitBody(src, s, 32 + v, s.p + 1) == Body(Lit(v, 1), s.p + 1, s.rb, s.rbc);
  }

  /**
   * The short literals of `g` sit at the registers `s`, under an all-literal
   * control byte with a bit left for each.
   */
  predicate LitsAt(src: seq<byte>, s: State, g: seq<byte>) {
    && |src| > 0 && Valid(s) && s.ct == 0 && s.cts + |g| <= 8
    && FiveBit(g) && s.p + |g| <= |src| && src[s.p..s.p + |g|] == Lits(g)
  }

  /** The first short literal of a run, and the run after it. */
  lemma LitsSplit(src: seq<byte>, s: State, g: seq<byte>)
    requires LitsAt(src, s, g) && g != []
    ensures s.p < |src| && src[s.p] == 32 + g[0] && g[0] < 32
    ensures Valid(After(src, s, 1))
    ensures |g| > 1 ==> LitsAt(src, After(src, s, 1), g[1..])
  {
    var p := s.p;
    assert src[p] == src[p..p + |g|][0];
    assert src[p + 1..p + |g|] == src[p..p + |g|][1..];
  }

  /** Decoding the first literal of a run appends its colour. */
  lemma LitStep(src: seq<byte>, s: State, out: seq<byte>, n: nat, g: seq<byte>)
    requires LitsAt(src, s, g) && g != [] && |out| < n
    ensures Valid(After(src, s, 1))
    ensures |g| > 1 ==> LitsAt(src, After(src, s, 1), g[1..])
    ensures Run(src, s, out, n) == Run(src, After(src, s, 1), out + [g[0]], n)
  {
    LitsSplit(src, s, g);
    LitToken(src, s, g[0]);
    RunStep(src, s, out, n);
    assert Repeat(g[0], 1) == [g[0]];
  }

  /** Registers advance token by token. */
  lemma AfterAfter(src: seq<byte>, s: State, k: nat)
    requires |src| > 0 && s.cts + k + 1 <= 8
    ensures After(src, After(src, s, 1), k) == After(src, s, k + 1)
  {
  }

  lemma ConsAppend(out: seq<byte>, g: seq<byte>)
    requires g != []
    ensures out + [g[0]] + g[1..] == out + g
  {
  }

  /** A run of short literals under an all-literal control byte decodes to its colours. */
  lemma {:induction false} LitTokens(src: seq<byte>, s: State, out: seq<byte>, n: nat, g: seq<byte>)
    requires LitsAt(src, s, g) && |out| + |g| <= n
    ensures Valid(After(src, s, |g|))
    ensures Run(src, s, out, n) == Run(src, After(src, s, |g|), out + g, n)
    decreases |g|
  {
    if g == [] {
      assert out + g == out;
    } else {
      LitStep(src, s, out, n, g);
      ConsAppend(out, g);
      if |g| > 1 {
        LitTokens(src, After(src, s, 1), out + [g[0]], n, g[1..]);
        AfterAfter(src, s, |g| - 1);
      } else {
        assert g == [g[0]];
      }
    }
  }

  /** A long encoding is a control byte, eight literals, then the encoding of the rest. */
  lemma EncodeParts(px: seq<byte>)
    requires FiveBit(px) && |px| > 8
    ensures FiveBit(px[..8]) && FiveBit(px[8..])
    ensures var e, e' := Encode(px), Encode(px[8..]);
      |e| == 9 + |e'| && e[1..9] == Lits(px[..8]) && e[9] == 0 && e[10..] == e'[1..]
  {
    var g, rest := px[..8], px[8..];
    assert FiveBit(g) && FiveBit(rest);
    assert Encode(px) == [0] + Lits(g) + Encode(rest);
  }

  /** The encoding of `px` after its first control byte sits at the registers `s`. */
  predicate EncodedAt(src: seq<byte>, s: State, px: seq<byte>) {
    && |src| > 0 && Valid(s) && s.ct == 0 && s.cts == 0 && FiveBit(px) && px != []
    && s.p + |Encode(px)| - 1 <= |src| && src[s.p..s.p + |Encode(px)| - 1] == Encode(px)[1..]
  }

  /** A short encoding is a single run of literals. */
  lemma EncodeShort(src: seq<byte>, s: State, px: seq<byte>)
    requires EncodedAt(src, s, px) && |px| <= 8
    ensures LitsAt(src, s, px)
  {
    assert Encode(px)[1..] == Lits(px);
  }

  /** A long encoding is eight literals, a fresh control byte, then the encoding of the rest. */
  lemma EncodeSplit(src: seq<byte>, s: State, px: seq<byte>)
    requires EncodedAt(src, s, px) && |px| > 8
    ensures LitsAt(src, s, px[..8])
    ensures After(src, s, 8) == State(s.p + 9, 0, 0, s.rb, s.rbc)
    ensures EncodedAt(src, After(src, s, 8), px[8..])
  {
    EncodeParts(px);
    Pieces(src, s.p, Encode(px));
  }

  /** A source holding `e[1..]` at `p`, cut where a long encoding's pieces meet. */
  lemma Pieces(src: seq<byte>, p: nat, e: seq<byte>)
    requires |e| >= 10 && p + |e| - 1 <= |src| && src[p..p + |e| - 1] == e[1..]
    ensures src[p..p + 8] == e[1..9] && src[p + 8] == e[9] && src[p + 9..p + |e| - 1] == e[10..]
  {
    var t := src[p..p + |e| - 1];
    assert src[p..p + 8] == t[..8];
    assert src[p + 8] == t[8];
    assert src[p + 9..p + |e| - 1] == t[9..];
  }

  /** The encoding of `px` after its first control byte decodes to `px`. */
  lemma {:induction false} EncodedRun(src: seq<byte>, s: State, out: seq<byte>, px: seq<byte>, n: nat)
    requires EncodedAt(src, s, px) && n == |out| + |px|
    ensures Run(src, s, out, n) == Success(out + px)
    decreases |px|
  {
    if |px| <= 8 {
      EncodeShort(src, s, px);
      LitTokens(src, s, out, n, px);
      RunDone(src, After(src, s, |px|), out + px, n);
    } else {
      EncodeSplit(src, s, px);
      LitTokens(src, s, out, n, px[..8]);
      EncodedRun(src, After(src, s, 8), out + px[..8], px[8..], n);
      AppendSplit(out, px, 8);
    }
  }

  lemma Tail(e: seq<byte>, p: nat)
    requires p == 1 <= |e|
    ensures p + |e| - 1 <= |e| && e[p..p + |e| - 1] == e[1..]
  {
  }

  /** Every 5-bit pixel sequence survives an encode-then-decode round trip. */
  lemma RoundTrip(px: seq<byte>, w: nat, h: nat)
    requires px != [] && FiveBit(px) && w * h == |px|
    ensures Decode(Encode(px), w, h) == Success(px)
  {
    var e := Encode(px);
    var s := Init(e);
    assert e[0] == 0;
    assert s == State(1, 0, 0, 0, 0);
    Tail(e, s.p);
    assert EncodedAt(e, s, px);
    assert [] + px == px;
    EncodedRun(e, s, [], px, w * h);
  }

  /** A literal `0x20` in a 1×1 sprite is one pixel of colour 0. */
  lemma LiteralExample()
    ensures Decode([0x00, 0x20], 1, 1) == Success([0])
  {
    RoundTrip([0], 1, 1);
  }

  /** The two tokens of `CopyExample`'s source. */
  lemma CopyExampleTokens(src: seq<byte>)
    requires src == [0x02, 0x25, 0x02, 0x00]
    ensures Token(src, Init(src)) == (Lit(5, 1), State(2, 2, 1, 0, 0))
    ensures Token(src, State(2, 2, 1, 0, 0)) == (Copy(1, 3), State(4, 2, 2, 0, 2))
  {
    var s0, s1 := Init(src), State(2, 2, 1, 0, 0);
    assert !Bit(2, 0);
    assert LitBody(src, s0, 0x25, 2) == Body(Lit(5, 1), 2, 0, 0);
    assert Bit(2, 1) by {
      assert Bit(1, 0);
    }
    assert At(src, 2) == 2 && At(src, 3) == 0;
    ShortCopy(src, s1, 2, 3);
    assert Place(0, 0) == 0;
  }

  /** A literal of colour 5, then a short copy of three pixels from one back. */
  lemma CopyExample()
    ensures Decode([0x02, 0x25, 0x02, 0x00], 2, 2) == Success([5, 5, 5, 5])
  {
    var src: seq<byte> := [0x02, 0x25, 0x02, 0x00];
    CopyExampleTokens(src);
    CopyExampleLit(src);
    CopyExampleCopy(src);
  }

  lemma CopyExampleLit(src: seq<byte>)
    requires src == [0x02, 0x25, 0x02, 0x00]
    requires Token(src, Init(src)) == (Lit(5, 1), State(2, 2, 1, 0, 0))
    ensures Run(src, Init(src), [], 4) == Run(src, State(2, 2, 1, 0, 0), [5], 4)
  {
    assert Emit(Lit(5, 1), [], 4) == Success([5]) by {
      assert Repeat(5 as byte, 1) == [5];
    }
    RunStep(src, Init(src), [], 4);
    assert [] + [5] == [5];
  }

  lemma CopyExampleCopy(src: seq<byte>)
    requires src == [0x02, 0x25, 0x02, 0x00]
    requires Token(src, State(2, 2, 1, 0, 0)) == (Copy(1, 3), State(4, 2, 2, 0, 2))
    ensures Run(src, State(2, 2, 1, 0, 0), [5], 4) == Success([5, 5, 5, 5])
  {
    assert Emit(Copy(1, 3), [5], 4) == Success([5, 5, 5]) by {
      assert CopyFrom([5], 1, 3) == [5, 5, 5];
    }
    RunStep(src, State(2, 2, 1, 0, 0), [5], 4);
    assert [5] + [5, 5, 5] == [5, 5, 5, 5];
    RunDone(src, State(4, 2, 2, 0, 2), [5, 5, 5, 5], 4);
  }

  /** A copy before any pixel exists reaches outside the buffer. */
  lemma BadDistanceExample()
    ensures Decode([0x01, 0x01, 0x00], 1, 1) == Failure(BadDistance(0, 1))
  {
    var src: seq<byte> := [0x01, 0x01, 0x00];
    BadDistanceToken(src);
    RunStep(src, Init(src), [], 1);
  }

  /** The first token of `BadDistanceExample`'s source: a copy from one back. */
  lemma BadDistanceToken(src: seq<byte>)
    requires src == [0x01, 0x01, 0x00]
    ensures Token(src, Init(src)).0 == Copy(1, 2)
  {
    assert Bit(1, 0);
    assert At(src, 1) == 1 && At(src, 2) == 0;
    ShortCopy(src, Init(src), 1, 2);
  }
}

=== FILE: merge.dfy ===
/**
 * Merging the palettes of two indexed images into one of at most 256
 * colours and remapping both images' pixels onto it: the two palettes are
 * concatenated, duplicate colours dropped (first occurrence wins), the
 * result cut to its first 256 colours, and each original colour sent to the
 * first merged colour at minimal distance.
 */
module Merge {
  import opened Wrappers
  import opened Bytes

  datatype RGB = RGB(r: byte, g: byte, b: byte)

  /** No colour appears twice. */
  predicate NoDup(u: seq<RGB>) {
    forall i, j :: 0 <= i < j < |u| ==> u[i] != u[j]
  }

  /** Position `p` is where colour `c` first appears in `s`. */
  predicate IsFirst(s: seq<RGB>, c: RGB, p: int) {
    0 <= p < |s| && s[p] == c && c !in s[..p]
  }

  /** The colours of `s`, each once, in the order of their first appearance. */
  function Unique(s: seq<RGB>): (u: seq<RGB>)
    ensures forall c :: c in u <==> c in s
    ensures NoDup(u)
    decreases |s|
  {
    if |s| == 0 then []
    else
      var n := |s| - 1;
      var u := Unique(s[..n]);
      assert s == s[..n] + [s[n]];
      if s[n] in u then u else u + [s[n]]
  }

  /** Earlier colours of `Unique(s)` first appear earlier in `s`. */
  lemma {:induction false} UniqueOrder(s: seq<RGB>, i: nat, j: nat, p: int, q: int)
    requires i < j < |Unique(s)|
    requires IsFirst(s, Unique(s)[i], p) && IsFirst(s, Unique(s)[j], q)
    ensures p < q
    decreases |s|
  {
    var n := |s| - 1;
    var pre := s[..n];
    var u := Unique(pre);
    assert s[..n] == pre;
    if q == n {
      assert Unique(s)[i] in pre;
    } else {
      assert pre[q] == s[q];
      assert s[..q] == pre[..q];
      assert s[..p] == pre[..p];
      UniqueOrder(pre, i, j, p, q);
    }
  }

  /** The C loop over the combined palette, with its colour-to-index table. */
  method Dedupe(combined: seq<RGB>) returns (u: seq<RGB>)
    ensures u == Unique(combined)
  {
    var index: map<RGB, byte> := map[];
    u := [];
    var i := 0;
    while i < |combined|
      invariant i <= |combined|
      invariant u == Unique(combined[..i])
      invariant forall c :: c in index <==> c in u
    {
      var c := combined[i];
      assert combined[..i + 1][..i] == combined[..i];
      if c !in index {
        index := index[c := |u| % 256];
        u := u + [c];
      }
      i := i + 1;
    }
    assert combined[..i] == combined;
  }

  /** At most 256 colours: the palette itself when it fits, else its first 256. */
  function Quantize(u: seq<RGB>): (q: seq<RGB>)
    ensures |q| == Min(|u|, 256) && q == u[..|q|]
    ensures |u| <= 256 ==> q == u
  {
    if |u| <= 256 then u else u[..256]
  }

  /** Quantizing a duplicate-free palette keeps it duplicate-free and invents no colour. */
  lemma QuantizeKeeps(u: seq<RGB>)
    requires NoDup(u)
    ensures NoDup(Quantize(u))
    ensures forall c :: c in Quantize(u) ==> c in u
  {
  }

  /** Squared Euclidean distance; the merge tool's square root preserves its order. */
  function Dist2(a: RGB, b: RGB): (d: int)
    ensures d >= 0
    ensures d == 0 <==> a == b
  {
    var dr := a.r - b.r;
    var dg := a.g - b.g;
    var db := a.b - b.b;
    Square(dr);
    Square(dg);
    Square(db);
    dr * dr + dg * dg + db * db
  }

  lemma Square(x: int)
    ensures x * x >= 0 && (x * x == 0 <==> x == 0)
  {
    if x != 0 {
      if x > 0 {
        assert x * x >= x;
      } else {
        assert x * x == (-x) * (-x);
        assert (-x) * (-x) >= -x;
      }
    }
  }

  /** Index `k` holds a colour at minimal distance from `c`, and every earlier index is strictly farther. */
  ghost predicate IsNearest(c: RGB, pal: seq<RGB>, k: int) {
    0 <= k < |pal|
    && (forall j :: 0 <= j < |pal| ==> Dist2(c, pal[k]) <= Dist2(c, pal[j]))
    && (forall j :: 0 <= j < k ==> Dist2(c, pal[k]) < Dist2(c, pal[j]))
  }

  /** At most one index is the nearest. */
  lemma NearestUnique(c: RGB, pal: seq<RGB>, k1: int, k2: int)
    requires IsNearest(c, pal, k1) && IsNearest(c, pal, k2)
    ensures k1 == k2
  {
    assert Dist2(c, pal[k1]) == Dist2(c, pal[k2]);
  }

  /** The nearest colour to `c` among the first `n` entries of `pal`. */
  function NearestIn(c: RGB, pal: seq<RGB>, n: nat): (k: nat)
    requires 0 < n <= |pal|
    ensures IsNearest(c, pal[..n], k)
    decreases n
  {
    if n == 1 then 0
    else
      var b := NearestIn(c, pal, n - 1);
      if Dist2(c, pal[n - 1]) < Dist2(c, pal[b]) then n - 1 else b
  }

  /** The byte the merge tool returns: the nearest index, truncated to 8 bits; 0 for an empty palette. */
  function Nearest(c: RGB, pal: seq<RGB>): byte {
    if |pal| == 0 then 0 else NearestIn(c, pal, |pal|) % 256
  }

  /** A palette of at most 256 colours gets the nearest index itself. */
  lemma NearestExact(c: RGB, pal: seq<RGB>)
    requires 0 < |pal| <= 256
    ensures IsNearest(c, pal, Nearest(c, pal))
  {
    var k := NearestIn(c, pal, |pal|);
    assert pal[..|pal|] == pal;
    assert IsNearest(c, pal, k);
    assert k % 256 == k;
  }

  /** A colour present in the palette maps to its first position there. */
  lemma NearestFindsColour(c: RGB, pal: seq<RGB>)
    requires c in pal && |pal| <= 256
    ensures IsFirst(pal, c, Nearest(c, pal))
  {
    NearestExact(c, pal);
    var k := Nearest(c, pal);
    var j :| 0 <= j < |pal| && pal[j] == c;
    assert Dist2(c, pal[k]) <= Dist2(c, pal[j]) == 0;
    assert c !in pal[..k] by {
      forall i | 0 <= i < k
        ensures pal[i] != c
      {
        assert Dist2(c, pal[i]) > 0;
      }
    }
  }

  /** Greatest squared distance plus one; it plays the part of the merge tool's `DBL_MAX` start value. */
  const Unreached: int := 3 * 255 * 255 + 1

  /** The merge tool's linear scan for the nearest colour. */
  method FindNearest(c: RGB, pal: seq<RGB>) returns (idx: byte)
    ensures |pal| == 0 ==> idx == 0
    ensures 0 < |pal| <= 256 ==> IsNearest(c, pal, idx)
    ensures idx == Nearest(c, pal)
  {
    var minDistance := Unreached;
    idx := 0;
    var i := 0;
    while i < |pal|
      invariant i <= |pal|
      invariant i == 0 ==> idx == 0 && minDistance == Unreached
      invariant i > 0 ==> idx == NearestIn(c, pal, i) % 256 && minDistance == Dist2(c, pal[NearestIn(c, pal, i)])
    {
      var d := Dist2(c, pal[i]);
      assert d < Unreached by {
        DistBound(c, pal[i]);
      }
      if d < minDistance {
        minDistance := d;
        idx := i % 256;
      }
      i := i + 1;
    }
    if 0 < |pal| <= 256 {
      NearestExact(c, pal);
    }
  }

  lemma DistBound(a: RGB, b: RGB)
    ensures Dist2(a, b) < Unreached
  {
    var dr := a.r - b.r;
    var dg := a.g - b.g;
    var db := a.b - b.b;
    Bounded(dr);
    Bounded(dg);
    Bounded(db);
  }

  lemma Bounded(x: int)
    requires -255 <= x <= 255
    ensures x * x <= 255 * 255
  {
    var a: nat := if x < 0 then -x else x;
    assert x * x == a * a;
    MulLe(a, 255, a);
    MulLe(a, 255, 255);
  }

  /** Every colour of the unique palette with its nearest merged index. */
  function Cache(u: seq<RGB>, merged: seq<RGB>): (m: map<RGB, byte>)
    ensures forall c :: c in m <==> c in u
  {
    map c | c in u :: Nearest(c, merged)
  }

  /** A C++ map read: a missing colour reads as 0. */
  function CacheGet(m: map<RGB, byte>, c: RGB): byte {
    if c in m then m[c] else 0
  }

  /** Row `y` of a `w`-wide image of `h` rows ends inside its `w * h` pixels, where row `y + 1` starts. */
  lemma RowEnd(y: nat, w: nat, h: nat)
    requires y < h
    ensures y * w + w == (y + 1) * w <= w * h
  {
    MulLe(y + 1, h, w);
  }

  /** The pixels of a `w` by `h` image, each through its palette and the cache, row by row. */
  method RemapPixels(pixels: seq<byte>, palette: seq<RGB>, w: nat, h: nat, cache: map<RGB, byte>) returns (out: seq<byte>)
    requires w * h <= |pixels|
    requires forall k :: 0 <= k < w * h ==> pixels[k] < |palette|
    ensures |out| == w * h
    ensures forall k :: 0 <= k < w * h ==> out[k] == CacheGet(cache, palette[pixels[k]])
  {
    out := Repeat(0, w * h);
    var y, row := 0, 0;
    while y < h
      invariant y <= h && row == y * w && |out| == w * h
      invariant forall k :: 0 <= k < row ==> out[k] == CacheGet(cache, palette[pixels[k]])
    {
      RowEnd(y, w, h);
      var x := 0;
      while x < w
        invariant x <= w && |out| == w * h
        invariant forall k :: 0 <= k < row + x ==> out[k] == CacheGet(cache, palette[pixels[k]])
      {
        var k := row + x;
        out := out[k := CacheGet(cache, palette[pixels[k]])];
        x := x + 1;
      }
      y, row := y + 1, row + w;
    }
  }

  /** The images' pixels index their palettes within their `w * h` extent. */
  predicate Indexed(palette: seq<RGB>, pixels: seq<byte>, w: nat, h: nat) {
    w * h <= |pixels| && forall k :: 0 <= k < w * h ==> pixels[k] < |palette|
  }

  /** The merged palette of two palettes. */
  function MergedPalette(p1: seq<RGB>, p2: seq<RGB>): (merged: seq<RGB>)
    ensures |merged| <= 256 && NoDup(merged)
    ensures forall c :: c in merged ==> c in p1 || c in p2
    ensures |Unique(p1 + p2)| <= 256 ==> forall c :: c in p1 + p2 ==> c in merged
  {
    QuantizeKeeps(Unique(p1 + p2));
    Quantize(Unique(p1 + p2))
  }

  /** Merges the two palettes and remaps both images onto the result. */
  method MergeAndRemap(p1: seq<RGB>, px1: seq<byte>, w1: nat, h1: nat, p2: seq<RGB>, px2: seq<byte>, w2: nat, h2: nat)
    returns (merged: seq<RGB>, out1: seq<byte>, out2: seq<byte>)
    requires Indexed(p1, px1, w1, h1) && Indexed(p2, px2, w2, h2)
    ensures merged == MergedPalette(p1, p2)
    ensures |out1| == w1 * h1 && |out2| == w2 * h2
    ensures forall k :: 0 <= k < w1 * h1 ==> IsNearest(p1[px1[k]], merged, out1[k])
    ensures forall k :: 0 <= k < w2 * h2 ==> IsNearest(p2[px2[k]], merged, out2[k])
    ensures |Unique(p1 + p2)| <= 256 ==>
      (forall k :: 0 <= k < w1 * h1 ==> out1[k] < |merged| && merged[out1[k]] == p1[px1[k]])
      && (forall k :: 0 <= k < w2 * h2 ==> out2[k] < |merged| && merged[out2[k]] == p2[px2[k]])
  {
    var u := Dedupe(p1 + p2);
    merged := Quantize(u);
    var cache := Cache(u, merged);
    out1 := RemapPixels(px1, p1, w1, h1, cache);
    out2 := RemapPixels(px2, p2, w2, h2, cache);
    forall k | 0 <= k < w1 * h1
      ensures IsNearest(p1[px1[k]], merged, out1[k])
      ensures |u| <= 256 ==> out1[k] < |merged| && merged[out1[k]] == p1[px1[k]]
    {
      RemapsToNearest(p1, p2, p1[px1[k]]);
    }
    forall k | 0 <= k < w2 * h2
      ensures IsNearest(p2[px2[k]], merged, out2[k])
      ensures |u| <= 256 ==> out2[k] < |merged| && merged[out2[k]] == p2[px2[k]]
    {
      RemapsToNearest(p1, p2, p2[px2[k]]);
    }
  }

  /**
   * A colour of either palette is sent to its nearest merged colour, and,
   * when at most 256 colours are distinct, to that very colour.
   */
  lemma RemapsToNearest(p1: seq<RGB>, p2: seq<RGB>, c: RGB)
    requires c in p1 || c in p2
    ensures var merged := MergedPalette(p1, p2);
      var cache := Cache(Unique(p1 + p2), merged);
      IsNearest(c, merged, CacheGet(cache, c))
      && (|Unique(p1 + p2)| <= 256 ==> merged[CacheGet(cache, c)] == c)
  {
    var merged := MergedPalette(p1, p2);
    assert c in p1 + p2;
    assert |Unique(p1 + p2)| > 0;
    NearestExact(c, merged);
    if |Unique(p1 + p2)| <= 256 {
      NearestFindsColour(c, merged);
    }
  }
}

=== FILE: pack.dfy ===
/**
 * The packer's per-image bookkeeping: the name a file is listed under, the
 * crop of an RGBA image to the smallest window holding every pixel with
 * non-zero alpha, and the rectangle and running totals recorded for it.
 */
module Pack {
  import opened Wrappers
  import opened Bytes

  /** `W` by `H` pixels of four bytes each, row after row. */
  predicate Image(p: seq<byte>, W: nat, H: nat) {
    |p| == W * H * 4
  }

  lemma AlphaIndex(W: nat, H: nat, y: nat, x: nat)
    requires y < H && x < W
    ensures (y * W + x) * 4 + 3 < W * H * 4
  {
    assert y * W + x < (y + 1) * W;
    MulLe(y + 1, H, W);
  }

  /** The alpha byte of the pixel in row `y`, column `x`. */
  function Alpha(p: seq<byte>, W: nat, H: nat, y: nat, x: nat): byte
    requires Image(p, W, H) && y < H && x < W
  {
    AlphaIndex(W, H, y, x);
    p[(y * W + x) * 4 + 3]
  }

  ghost predicate RowClear(p: seq<byte>, W: nat, H: nat, y: nat)
    requires Image(p, W, H) && y < H
  {
    forall x :: 0 <= x < W ==> Alpha(p, W, H, y, x) == 0
  }

  /** Column `x` is transparent in the `n` rows from `y0`. */
  ghost predicate ColClear(p: seq<byte>, W: nat, H: nat, x: nat, y0: nat, n: nat)
    requires Image(p, W, H) && x < W && y0 + n <= H
  {
    forall y :: y0 <= y < y0 + n ==> Alpha(p, W, H, y, x) == 0
  }

  /** Row `y` has a visible pixel in columns `[x0, x1)`. */
  ghost predicate RowHasIn(p: seq<byte>, W: nat, H: nat, y: nat, x0: nat, x1: nat)
    requires Image(p, W, H) && y < H && x1 <= W
  {
    exists x :: x0 <= x < x1 && Alpha(p, W, H, y, x) != 0
  }

  /** Column `x` has a visible pixel in rows `[y0, y1)`. */
  ghost predicate ColHasIn(p: seq<byte>, W: nat, H: nat, x: nat, y0: nat, y1: nat)
    requires Image(p, W, H) && x < W && y1 <= H
  {
    exists y :: y0 <= y < y1 && Alpha(p, W, H, y, x) != 0
  }

  ghost predicate AllClear(p: seq<byte>, W: nat, H: nat)
    requires Image(p, W, H)
  {
    forall y, x :: 0 <= y < H && 0 <= x < W ==> Alpha(p, W, H, y, x) == 0
  }

  /**
   * The window `[X, X + w) x [Y, Y + h)` is the tight crop: it lies inside
   * the image, every pixel outside it is transparent, and either it is the
   * empty window at the origin or each of its four edges holds a visible
   * pixel.
   */
  ghost predicate Tight(p: seq<byte>, W: nat, H: nat, X: nat, Y: nat, w: nat, h: nat)
    requires Image(p, W, H)
  {
    X + w <= W && Y + h <= H
    && (forall y, x :: 0 <= y < H && 0 <= x < W && !(Y <= y < Y + h && X <= x < X + w) ==> Alpha(p, W, H, y, x) == 0)
    && ((w == 0 && h == 0 && X == 0 && Y == 0)
        || (w > 0 && h > 0
            && RowHasIn(p, W, H, Y, X, X + w) && RowHasIn(p, W, H, Y + h - 1, X, X + w)
            && ColHasIn(p, W, H, X, Y, Y + h) && ColHasIn(p, W, H, X + w - 1, Y, Y + h)))
  }

  /** The first column of row `y` with a visible pixel, or `W`. */
  method ScanRow(p: seq<byte>, W: nat, H: nat, y: nat) returns (x: nat)
    requires Image(p, W, H) && y < H
    ensures x <= W && (forall k :: 0 <= k < x ==> Alpha(p, W, H, y, k) == 0)
    ensures x < W ==> Alpha(p, W, H, y, x) != 0
    ensures x == W <==> RowClear(p, W, H, y)
  {
    x := 0;
    while x < W && Alpha(p, W, H, y, x) == 0
      invariant x <= W && forall k :: 0 <= k < x ==> Alpha(p, W, H, y, k) == 0
    {
      x := x + 1;
    }
  }

  /** The first of the `n` rows from `y0` with a visible pixel in column `x`, counted from `y0`, or `n`. */
  method ScanCol(p: seq<byte>, W: nat, H: nat, x: nat, y0: nat, n: nat) returns (y: nat)
    requires Image(p, W, H) && x < W && y0 + n <= H
    ensures y <= n && (forall k :: y0 <= k < y0 + y ==> Alpha(p, W, H, k, x) == 0)
    ensures y < n ==> Alpha(p, W, H, y0 + y, x) != 0
    ensures y == n <==> ColClear(p, W, H, x, y0, n)
  {
    y := 0;
    while y < n && Alpha(p, W, H, y0 + y, x) == 0
      invariant y <= n && forall k :: y0 <= k < y0 + y ==> Alpha(p, W, H, k, x) == 0
    {
      y := y + 1;
    }
  }

  /** Drops transparent rows from the top; `h` rows are left from `Y`. */
  method TrimTop(p: seq<byte>, W: nat, H: nat) returns (Y: nat, h: nat)
    requires Image(p, W, H)
    ensures Y + h == H
    ensures forall r :: 0 <= r < Y ==> RowClear(p, W, H, r)
    ensures h > 0 ==> RowHasIn(p, W, H, Y, 0, W)
  {
    Y, h := 0, H;
    var y := 0;
    while y < H && h > 0
      invariant Y == y && Y + h == H
      invariant forall r :: 0 <= r < Y ==> RowClear(p, W, H, r)
    {
      var x := ScanRow(p, W, H, y);
      if x < W {
        return;
      }
      Y, h := Y + 1, h - 1;
      y := y + 1;
    }
  }

  /** Drops transparent rows from the bottom of the `h0` rows from `Y`. */
  method TrimBottom(p: seq<byte>, W: nat, H: nat, Y: nat, h0: nat) returns (h: nat)
    requires Image(p, W, H) && Y + h0 == H
    requires h0 > 0 ==> RowHasIn(p, W, H, Y, 0, W)
    ensures h <= h0 && (h > 0 <==> h0 > 0)
    ensures forall r :: Y + h <= r < H ==> RowClear(p, W, H, r)
    ensures h > 0 ==> RowHasIn(p, W, H, Y + h - 1, 0, W)
  {
    h := h0;
    if h0 == 0 {
      return;
    }
    var x0 :| 0 <= x0 < W && Alpha(p, W, H, Y, x0) != 0;
    var y: int := H - 1;
    while y >= Y && h > 0
      invariant y == Y + h - 1 && 0 < h <= h0
      invariant forall r :: Y + h <= r < H ==> RowClear(p, W, H, r)
    {
      var x := ScanRow(p, W, H, y);
      if x < W {
        return;
      }
      assert Alpha(p, W, H, y, x0) == 0;
      h := h - 1;
      y := y - 1;
    }
  }

  /** Drops columns from the left that are transparent in the `h` rows from `Y`. */
  method TrimLeft(p: seq<byte>, W: nat, H: nat, Y: nat, h: nat) returns (X: nat, w: nat)
    requires Image(p, W, H) && Y + h <= H
    requires h > 0 ==> RowHasIn(p, W, H, Y, 0, W)
    ensures X + w == W
    ensures h == 0 ==> X == 0
    ensures forall c :: 0 <= c < X ==> ColClear(p, W, H, c, Y, h)
    ensures h > 0 ==> w > 0 && ColHasIn(p, W, H, X, Y, Y + h)
  {
    X, w := 0, W;
    if h == 0 {
      return;
    }
    var x0 :| 0 <= x0 < W && Alpha(p, W, H, Y, x0) != 0;
    var x := 0;
    while x < W && h > 0 && w > 0
      invariant X == x <= x0 && X + w == W
      invariant forall c :: 0 <= c < X ==> ColClear(p, W, H, c, Y, h)
    {
      var y := ScanCol(p, W, H, x, Y, h);
      if y < h {
        return;
      }
      X, w := X + 1, w - 1;
      x := x + 1;
    }
  }

  /** Drops columns from the right of the `w0` from `X` that are transparent in the `h` rows from `Y`. */
  method TrimRight(p: seq<byte>, W: nat, H: nat, X: nat, Y: nat, h: nat, w0: nat) returns (w: nat)
    requires Image(p, W, H) && Y + h <= H && X + w0 == W
    requires h > 0 ==> w0 > 0 && ColHasIn(p, W, H, X, Y, Y + h)
    ensures w <= w0 && (h == 0 ==> w == w0)
    ensures forall c :: X + w <= c < W ==> ColClear(p, W, H, c, Y, h)
    ensures h > 0 ==> w > 0 && ColHasIn(p, W, H, X + w - 1, Y, Y + h)
  {
    w := w0;
    if h == 0 {
      return;
    }
    var y0 :| Y <= y0 < Y + h && Alpha(p, W, H, y0, X) != 0;
    var x: int := W - 1;
    while x >= X && h > 0 && w > 0
      invariant x == X + w - 1 && w <= w0 && w > 0
      invariant forall c :: X + w <= c < W ==> ColClear(p, W, H, c, Y, h)
    {
      var y := ScanCol(p, W, H, x, Y, h);
      if y < h {
        return;
      }
      w := w - 1;
      x := x - 1;
    }
  }

  /** A visible pixel of a window row, with every column outside the window clear there, lies inside the window. */
  lemma RowInside(p: seq<byte>, W: nat, H: nat, X: nat, Y: nat, w: nat, h: nat, y: nat)
    requires Image(p, W, H) && X + w <= W && Y <= y < Y + h <= H
    requires forall c :: 0 <= c < X ==> ColClear(p, W, H, c, Y, h)
    requires forall c :: X + w <= c < W ==> ColClear(p, W, H, c, Y, h)
    requires RowHasIn(p, W, H, y, 0, W)
    ensures RowHasIn(p, W, H, y, X, X + w)
  {
    var x :| 0 <= x < W && Alpha(p, W, H, y, x) != 0;
    assert forall c :: 0 <= c < X ==> Alpha(p, W, H, y, c) == 0 by {
      forall c | 0 <= c < X
        ensures Alpha(p, W, H, y, c) == 0
      {
        assert ColClear(p, W, H, c, Y, h);
      }
    }
    assert forall c :: X + w <= c < W ==> Alpha(p, W, H, y, c) == 0 by {
      forall c | X + w <= c < W
        ensures Alpha(p, W, H, y, c) == 0
      {
        assert ColClear(p, W, H, c, Y, h);
      }
    }
  }

  /** The packer's four trimming loops: the tight window of visible pixels. */
  method Crop(p: seq<byte>, W: nat, H: nat) returns (X: nat, Y: nat, w: nat, h: nat)
    requires Image(p, W, H) && W > 0 && H > 0
    ensures Tight(p, W, H, X, Y, w, h)
    ensures w == 0 <==> AllClear(p, W, H)
  {
    var h0;
    Y, h0 := TrimTop(p, W, H);
    h := TrimBottom(p, W, H, Y, h0);
    var w0;
    X, w0 := TrimLeft(p, W, H, Y, h);
    w := TrimRight(p, W, H, X, Y, h, w0);
    if w < 1 || h < 1 {
      assert AllClear(p, W, H) by {
        forall y, x | 0 <= y < H && 0 <= x < W
          ensures Alpha(p, W, H, y, x) == 0
        {
          assert RowClear(p, W, H, y);
        }
      }
      w, h, X, Y := 0, 0, 0, 0;
      return;
    }
    RowInside(p, W, H, X, Y, w, h, Y);
    RowInside(p, W, H, X, Y, w, h, Y + h - 1);
    forall y, x | 0 <= y < H && 0 <= x < W && !(Y <= y < Y + h && X <= x < X + w)
      ensures Alpha(p, W, H, y, x) == 0
    {
      if y < Y || y >= Y + h {
        assert RowClear(p, W, H, y);
      } else {
        assert ColClear(p, W, H, x, Y, h);
      }
    }
    var x0 :| Y <= x0 < Y + h && Alpha(p, W, H, x0, X) != 0;
  }

  /** At most one window is tight for an image. */
  lemma TightUnique(p: seq<byte>, W: nat, H: nat, X: nat, Y: nat, w: nat, h: nat, X': nat, Y': nat, w': nat, h': nat)
    requires Image(p, W, H)
    requires Tight(p, W, H, X, Y, w, h) && Tight(p, W, H, X', Y', w', h')
    ensures X == X' && Y == Y' && w == w' && h == h'
  {
    if w > 0 && w' > 0 {
      TightEdges(p, W, H, X, Y, w, h, X', Y', w', h');
      TightEdges(p, W, H, X', Y', w', h', X, Y, w, h);
    }
  }

  /** The visible pixels on the edges of one tight window lie inside another. */
  lemma TightEdges(p: seq<byte>, W: nat, H: nat, X: nat, Y: nat, w: nat, h: nat, X': nat, Y': nat, w': nat, h': nat)
    requires Image(p, W, H)
    requires Tight(p, W, H, X, Y, w, h) && Tight(p, W, H, X', Y', w', h') && w > 0 && w' > 0
    ensures Y' <= Y && Y + h <= Y' + h' && X' <= X && X + w <= X' + w'
  {
    var a :| X <= a < X + w && Alpha(p, W, H, Y, a) != 0;
    var b :| X <= b < X + w && Alpha(p, W, H, Y + h - 1, b) != 0;
    var c :| Y <= c < Y + h && Alpha(p, W, H, c, X) != 0;
    var d :| Y <= d < Y + h && Alpha(p, W, H, d, X + w - 1) != 0;
  }

  /** The packer's default: input images are cropped. */
  const InpCropDefault: bool := true

  /** The window kept of an image: the tight crop when cropping is on, otherwise the whole image. */
  method Window(p: seq<byte>, W: nat, H: nat, inpcrop: bool) returns (X: nat, Y: nat, w: nat, h: nat)
    requires Image(p, W, H) && W > 0 && H > 0
    ensures !inpcrop ==> X == 0 && Y == 0 && w == W && h == H
    ensures inpcrop ==> Tight(p, W, H, X, Y, w, h)
  {
    if inpcrop {
      X, Y, w, h := Crop(p, W, H);
    } else {
      X, Y, w, h := 0, 0, W, H;
    }
  }

  /** A character the listed name may not contain: path and drive separators, quotes and white space. */
  predicate Special(c: char) {
    c == '/' || c == '\\' || c == ':' || c == '"' || c == ' ' || c == '\t' || c == '\n' || c == '\r'
  }

  /** The position of the last `'.'` in `s`, or `|s|` when there is none. */
  function LastDot(s: string): (e: nat)
    ensures e <= |s|
    ensures e < |s| ==> s[e] == '.' && forall k :: e < k < |s| ==> s[k] != '.'
    ensures e == |s| ==> forall k :: 0 <= k < |s| ==> s[k] != '.'
    decreases |s|
  {
    if |s| == 0 then 0
    else if s[|s| - 1] == '.' then |s| - 1
    else
      var e := LastDot(s[..|s| - 1]);
      if e == |s| - 1 then |s| else e
  }

  /** The listed name of a file: its path up to the last `'.'`, each special character replaced by `'_'`. */
  function Sanitize(name: string): (r: string)
    ensures |r| == LastDot(name)
    ensures forall k :: 0 <= k < |r| ==> !Special(r[k])
    ensures forall k :: 0 <= k < |r| ==> (Special(name[k]) ==> r[k] == '_') && (!Special(name[k]) ==> r[k] == name[k])
  {
    seq(LastDot(name), k requires 0 <= k < LastDot(name) => if Special(name[k]) then '_' else name[k])
  }

  /** The packer's copy loop from the start of the name to the last `'.'`. */
  method SanitizeName(name: string) returns (r: string)
    ensures r == Sanitize(name)
  {
    var e := |name|;
    var i: nat := |name|;
    while i > 0
      invariant i <= |name| && e <= |name|
      invariant e == |name| ==> forall k :: i <= k < |name| ==> name[k] != '.'
      invariant e < |name| ==> e == LastDot(name)
      invariant e < |name| || e == |name|
      decreases i
    {
      if name[i - 1] == '.' && e == |name| {
        e := i - 1;
      }
      i := i - 1;
    }
    r := [];
    var s := 0;
    while s < e
      invariant s <= e && |r| == s
      invariant forall k :: 0 <= k < s ==> r[k] == Sanitize(name)[k]
    {
      var c := name[s];
      r := r + [if Special(c) then '_' else c];
      s := s + 1;
    }
  }

  /** A name without dots or special characters is listed as it is. */
  lemma SanitizeKeepsPlain(name: string)
    requires forall k :: 0 <= k < |name| ==> name[k] != '.' && !Special(name[k])
    ensures Sanitize(name) == name
  {
  }

  /** Only the extension after the last dot is cut: what precedes it is listed whatever the extension. */
  lemma SanitizeDropsExtension(name: string, ext: string)
    requires forall k :: 0 <= k < |ext| ==> ext[k] != '.'
    ensures Sanitize(name + "." + ext) == Sanitize(name + ".")
    ensures (forall k :: 0 <= k < |name| ==> !Special(name[k])) ==> Sanitize(name + "." + ext) == name
  {
    var full := name + "." + ext;
    assert full[|name|] == '.';
    assert forall k :: |name| < k < |full| ==> full[k] == ext[k - |name| - 1];
    assert LastDot(full) == |name|;
    assert (name + ".")[|name|] == '.';
    assert LastDot(name + ".") == |name|;
  }

  /** What the packer keeps per image: its listed name, crop origin and full size. */
  datatype Meta = Meta(name: string, X: nat, Y: nat, W: nat, H: nat)

  /** The rectangle handed to the packer: the image's number and its cropped size. */
  datatype Rect = Rect(id: nat, w: nat, h: nat)

  /** The images so far, their rectangles and the largest width, largest height and total area of the uncropped images. */
  datatype Packer = Packer(files: seq<Meta>, rects: seq<Rect>, maxw: nat, maxh: nat, prod: nat)

  function Empty(): Packer {
    Packer([], [], 0, 0, 0)
  }

  /** Records an image of `W` by `H` pixels whose kept window is `[X, X + w) x [Y, Y + h)`. */
  function Record(st: Packer, name: string, W: nat, H: nat, X: nat, Y: nat, w: nat, h: nat): (st': Packer)
    ensures |st'.files| == |st.files| + 1 && st'.files[..|st.files|] == st.files
    ensures |st'.rects| == |st.rects| + 1 && st'.rects[..|st.rects|] == st.rects
    ensures st'.rects[|st.rects|] == Rect(|st.files|, w, h)
    ensures st'.maxw >= st.maxw && st'.maxw >= W && (st'.maxw == st.maxw || st'.maxw == W)
    ensures st'.maxh >= st.maxh && st'.maxh >= H && (st'.maxh == st.maxh || st'.maxh == H)
    ensures st'.prod == st.prod + W * H
  {
    var i := |st.files|;
    Packer(st.files + [Meta(Sanitize(name), X, Y, W, H)], st.rects + [Rect(i, w, h)],
      if W > st.maxw then W else st.maxw,
      if H > st.maxh then H else st.maxh,
      st.prod + W * H)
  }

  /** The total area of the images. */
  function Area(fs: seq<Meta>): nat
    decreases |fs|
  {
    if |fs| == 0 then 0 else Area(fs[..|fs| - 1]) + fs[|fs| - 1].W * fs[|fs| - 1].H
  }

  /**
   * What recording keeps true: one rectangle per image, numbered by
   * position and no larger than its image; the maxima bound every image and
   * are reached by one (or are 0 with no images); the product is the total
   * area.
   */
  ghost predicate Consistent(st: Packer) {
    Numbered(st) && Maxima(st) && st.prod == Area(st.files)
  }

  /** One rectangle per image, numbered by position, its window inside the image. */
  ghost predicate Numbered(st: Packer) {
    |st.rects| == |st.files|
    && forall i :: 0 <= i < |st.rects| ==>
         (st.rects[i].id == i
          && st.files[i].X + st.rects[i].w <= st.files[i].W && st.files[i].Y + st.rects[i].h <= st.files[i].H)
  }

  /** The maxima bound every image's size and are reached by one, or are 0. */
  ghost predicate Maxima(st: Packer) {
    (forall i :: 0 <= i < |st.files| ==> st.files[i].W <= st.maxw && st.files[i].H <= st.maxh)
    && (st.maxw == 0 || exists i :: 0 <= i < |st.files| && st.files[i].W == st.maxw)
    && (st.maxh == 0 || exists i :: 0 <= i < |st.files| && st.files[i].H == st.maxh)
  }

  lemma EmptyConsistent()
    ensures Consistent(Empty())
  {
  }

  lemma RecordKeeps(st: Packer, name: string, W: nat, H: nat, X: nat, Y: nat, w: nat, h: nat)
    requires Consistent(st) && X + w <= W && Y + h <= H
    ensures Consistent(Record(st, name, W, H, X, Y, w, h))
  {
    var st' := Record(st, name, W, H, X, Y, w, h);
    assert st'.files[..|st.files|] == st.files;
    RecordNumbered(st, name, W, H, X, Y, w, h);
    RecordMaxima(st, name, W, H, X, Y, w, h);
  }

  lemma RecordNumbered(st: Packer, name: string, W: nat, H: nat, X: nat, Y: nat, w: nat, h: nat)
    requires Numbered(st) && X + w <= W && Y + h <= H
    ensures Numbered(Record(st, name, W, H, X, Y, w, h))
  {
    var st' := Record(st, name, W, H, X, Y, w, h);
    var n := |st.files|;
    assert forall i :: 0 <= i < n ==> st'.files[i] == st.files[i] && st'.rects[i] == st.rects[i];
  }

  lemma RecordMaxima(st: Packer, name: string, W: nat, H: nat, X: nat, Y: nat, w: nat, h: nat)
    requires Maxima(st)
    ensures Maxima(Record(st, name, W, H, X, Y, w, h))
  {
    var st' := Record(st, name, W, H, X, Y, w, h);
    var n := |st.files|;
    assert forall i :: 0 <= i < n ==> st'.files[i] == st.files[i];
    if st'.maxw != W && st'.maxw != 0 {
      var i :| 0 <= i < n && st.files[i].W == st.maxw;
      assert st'.files[i].W == st'.maxw;
    }
    if st'.maxh != H && st'.maxh != 0 {
      var i :| 0 <= i < n && st.files[i].H == st.maxh;
      assert st'.files[i].H == st'.maxh;
    }
    assert st'.files[n].W == W && st'.files[n].H == H;
  }

  /**
   * Adds one loaded image: an image with no pixels is skipped; otherwise
   * its window is chosen and it is recorded under the next number.
   */
  method AddImage(st: Packer, name: string, p: seq<byte>, W: nat, H: nat, inpcrop: bool) returns (st': Packer)
    requires Image(p, W, H) && Consistent(st)
    ensures Consistent(st')
    ensures W == 0 || H == 0 ==> st' == st
    ensures W > 0 && H > 0 ==>
      |st'.rects| == |st.rects| + 1 && st'.rects[..|st.rects|] == st.rects && st'.files[..|st.files|] == st.files
      && var m := st'.files[|st.files|];
      var r := st'.rects[|st.rects|];
      m.name == Sanitize(name) && m.W == W && m.H == H && r.id == |st.files|
      && (inpcrop ==> Tight(p, W, H, m.X, m.Y, r.w, r.h))
      && (!inpcrop ==> m.X == 0 && m.Y == 0 && r.w == W && r.h == H)
  {
    if W == 0 || H == 0 {
      return st;
    }
    var X, Y, w, h := Window(p, W, H, inpcrop);
    RecordKeeps(st, name, W, H, X, Y, w, h);
    st' := Record(st, name, W, H, X, Y, w, h);
  }
}

=== FILE: palettedir.dfy ===
/**
 * The palette directory of a version-2 container, resolved as the Go
 * extractor does: entry `i` (16 bytes at `FirstPaletteHeaderOffset + 16 * i`)
 * either repeats the (group, number) of an earlier entry and reuses that
 * entry's palette, or has size 0 and borrows the palette of the slot its link
 * names, or is read from the file; whichever it is lands in slot `i`.
 */
module PaletteDir {
  import opened Wrappers
  import opened Bytes
  import opened Container
  import opened Palettes

  const MaxPalNo: nat := 32
  const SlotStride: nat := 16

  /** One palette directory entry: group, number, colour count, link, data offset and size. */
  datatype PalEntry = PalEntry(group: int, number: int, ncol: int, link: nat, ofs: nat, siz: nat)

  function ReadPalEntry(buf: seq<byte>, pos: nat): (r: Result<PalEntry, SffError>)
    ensures r.Success? <==> pos + SlotStride <= |buf|
    ensures r.Success? ==> r.value.link < Two16 && r.value.ofs < Two32 && r.value.siz < Two32
  {
    if |buf| < pos + SlotStride then Failure(Short(FirstShortField(buf, pos)))
    else
      Success(PalEntry(I16(buf, pos).value, I16(buf, pos + 2).value, I16(buf, pos + 4).value,
                       U16(buf, pos + 6).value, U32(buf, pos + 8).value, U32(buf, pos + 12).value))
  }

  /** Where the field reads of a short entry at `pos` stop: the start of the first field that does not fit. */
  function FirstShortField(buf: seq<byte>, pos: nat): (at: nat)
    requires |buf| < pos + SlotStride
    ensures at in {pos, pos + 2, pos + 4, pos + 6, pos + 8, pos + 12}
    ensures at <= |buf| || at == pos
    ensures |buf| < at + if at < pos + 8 then 2 else 4
  {
    if |buf| < pos + 2 then pos
    else if |buf| < pos + 4 then pos + 2
    else if |buf| < pos + 6 then pos + 4
    else if |buf| < pos + 8 then pos + 6
    else if |buf| < pos + 12 then pos + 8
    else pos + 12
  }

  /** Where palette directory entry `i` lives. */
  function SlotPos(hdr: SffHeader, i: nat): nat {
    hdr.firstPalette + SlotStride * i
  }

  /** Directory entries are read from disjoint 16-byte slots, in order. */
  lemma SlotsDisjoint(hdr: SffHeader, i: nat, j: nat)
    requires i < j
    ensures hdr.firstPalette <= SlotPos(hdr, i) && SlotPos(hdr, i) + SlotStride <= SlotPos(hdr, j)
  {
  }

  /** How entry `i` was resolved: its key, the index recorded for the key, the palette, and whether it was read from the file. */
  datatype Resolved = Resolved(key: (int, int), idx: int, pal: seq<nat>, read: bool)

  /**
   * The state the loop carries: the palette table, the index recorded per
   * key, the (group, number) table with its colour counts, and how each entry
   * so far was resolved.
   */
  datatype DirState = DirState(
    pl: PaletteList, unique: map<(int, int), int>,
    palTable: map<(int, int), int>, numcols: map<(int, int), int>,
    resolved: seq<Resolved>)

  /** `count` fresh palettes, as the extractor sets up before reading anything. */
  function NewPals(count: nat): (pl: PaletteList)
    ensures Aligned(pl) && |pl.palettes| == count
    ensures forall j :: 0 <= j < count ==> CanGet(pl, j) && Get(pl, j) == Repeat(0, 256)
  {
    if count == 0 then Init()
    else
      var pl := NewPals(count - 1);
      NewPalGrows(pl);
      NewPal(pl).0
  }

  /** The table before the directory: 32 zero palettes, `(1, k)` naming slot `k - 1`. */
  function Start(): (st: DirState)
    ensures Aligned(st.pl) && |st.pl.palettes| == MaxPalNo && st.unique == map[] && st.resolved == []
  {
    var palTable := map k: int | 1 <= k <= MaxPalNo :: (1, k) := k - 1;
    DirState(NewPals(MaxPalNo), map[], palTable, map[], [])
  }

  /** A Go map read: a missing key reads as 0. */
  function Lookup(m: map<(int, int), int>, k: (int, int)): int {
    if k in m then m[k] else 0
  }

  /**
   * The palette entry `e` (number `i`) resolves to: the recorded palette of
   * an earlier entry with the same key, the palette of slot `link` when the
   * entry has no data, or `min(siz / 4, 256)` colours read at `lofs + ofs`
   * (a 32-bit sum). Reading a slot the table does not hold is `NoPalette`.
   */
  function ResolveEntry(buf: seq<byte>, hdr: SffHeader, st: DirState, i: nat, e: PalEntry): (r: Result<Resolved, SffError>)
    requires hdr.lofs < Two32
    ensures r.Success? ==> r.value.key == (e.group, e.number)
    ensures r.Success? ==> (r.value.read <==> (e.group, e.number) !in st.unique && e.siz != 0)
    ensures r.Success? && r.value.read ==> r.value.idx == i
    ensures r.Success? && (e.group, e.number) in st.unique ==>
      r.value.idx == st.unique[(e.group, e.number)] && CanGet(st.pl, r.value.idx)
      && r.value.pal == Get(st.pl, r.value.idx)
    ensures (e.group, e.number) in st.unique ==> (r.Success? <==> CanGet(st.pl, st.unique[(e.group, e.number)]))
    ensures (e.group, e.number) !in st.unique && e.siz == 0 ==>
      && (r.Success? <==> CanGet(st.pl, e.link))
      && (r.Success? ==> r.value.idx == e.link && r.value.pal == Get(st.pl, e.link))
    ensures (e.group, e.number) !in st.unique && e.siz != 0 ==>
      && (r.Success? <==> ReadPaletteV2(buf, (hdr.lofs + e.ofs) % Two32, e.siz, hdr.ver2).Success?)
      && (r.Success? ==> r.value.pal == ReadPaletteV2(buf, (hdr.lofs + e.ofs) % Two32, e.siz, hdr.ver2).value)
  {
    var key := (e.group, e.number);
    if key in st.unique then
      var prior := st.unique[key];
      if CanGet(st.pl, prior) then Success(Resolved(key, prior, Get(st.pl, prior), false))
      else Failure(NoPalette(prior))
    else if e.siz == 0 then
      if CanGet(st.pl, e.link) then Success(Resolved(key, e.link, Get(st.pl, e.link), false))
      else Failure(NoPalette(e.link))
    else
      var pal :- ReadPaletteV2(buf, (hdr.lofs + e.ofs) % Two32, e.siz, hdr.ver2);
      Success(Resolved(key, i, pal, true))
  }

  /**
   * The (group, number) table after entry `i`: the key points at the entry's
   * index; `(1, i + 1)` is dropped to -1 when it points at that same index
   * and the entry's group is not 1 and its number is not `i + 1`; after the last of at most 33 entries the unused
   * `(1, k)` keys are removed.
   */
  function Table(t: map<(int, int), int>, hdr: SffHeader, i: nat, e: PalEntry, idx: int): map<(int, int), int> {
    var key := (e.group, e.number);
    var t1 := t[key := idx];
    var t2 := if i <= MaxPalNo && Lookup(t1, (1, i + 1)) == t1[key] && e.group != 1 && e.number != i + 1
              then t1[(1, i + 1) := -1] else t1;
    if i <= MaxPalNo && i + 1 == hdr.numPalettes
    then t2 - (set k: int | i + 2 <= k <= MaxPalNo :: (1, k))
    else t2
  }

  /**
   * What `Table` does to the keys: the entry's own key maps to its index
   * unless the final clean-up removes it; `(1, i + 1)` is marked -1 exactly
   * when it shares that index, the entry's group is not 1 and its number is
   * not `i + 1`; the clean-up
   * removes just the unused `(1, k)` keys; every other key keeps its value.
   */
  lemma TableEffect(t: map<(int, int), int>, hdr: SffHeader, i: nat, e: PalEntry, idx: int, k: (int, int))
    ensures var key := (e.group, e.number);
      var t' := Table(t, hdr, i, e, idx);
      var last := i <= MaxPalNo && i + 1 == hdr.numPalettes;
      var dropped := last && k.0 == 1 && i + 2 <= k.1 <= MaxPalNo;
      var marked := i <= MaxPalNo && Lookup(t[key := idx], (1, i + 1)) == idx && e.group != 1 && e.number != i + 1;
      (k in t' <==> !dropped && (k in t || k == key || (marked && k == (1, i + 1))))
      && (k in t' && k == key && !(marked && k == (1, i + 1)) ==> t'[k] == idx)
      && (k in t' && marked && k == (1, i + 1) ==> t'[k] == -1)
      && (k in t' && k != key && k != (1, i + 1) ==> t'[k] == t[k])
  {
  }

  /** One pass of the directory loop: read entry `i`, resolve it, put its palette in slot `i`. */
  function Step(buf: seq<byte>, hdr: SffHeader, st: DirState, i: nat): (r: Result<DirState, SffError>)
    requires hdr.lofs < Two32
    ensures r.Success? ==> |r.value.resolved| == |st.resolved| + 1 && r.value.resolved[..|st.resolved|] == st.resolved
    ensures r.Success? ==> r.value.pl == SetSource(st.pl, i, r.value.resolved[|st.resolved|].pal)
    ensures r.Success? ==> var res := r.value.resolved[|st.resolved|];
      r.value.unique == st.unique[res.key := res.idx]
      && (res.key in st.unique ==> res.idx == st.unique[res.key])
  {
    var e :- ReadPalEntry(buf, SlotPos(hdr, i));
    var res :- ResolveEntry(buf, hdr, st, i, e);
    var key := res.key;
    Success(DirState(
      SetSource(st.pl, i, res.pal),
      st.unique[key := res.idx],
      Table(st.palTable, hdr, i, e, res.idx),
      st.numcols[key := e.ncol],
      st.resolved + [res]))
  }

  /** The first `n` entries of the palette directory. */
  function Run(buf: seq<byte>, hdr: SffHeader, n: nat): (r: Result<DirState, SffError>)
    requires hdr.lofs < Two32
    ensures r.Success? ==> |r.value.resolved| == n
    decreases n
  {
    if n == 0 then Success(Start())
    else
      var st :- Run(buf, hdr, n - 1);
      Step(buf, hdr, st, n - 1)
  }

  /** The whole palette directory; a version-1 container has none. */
  function ReadPalettes(buf: seq<byte>, hdr: SffHeader): (r: Result<DirState, SffError>)
    requires HeaderOk(hdr)
    ensures r.Success? ==> |r.value.resolved| == if hdr.ver0 == 1 then 0 else hdr.numPalettes
  {
    if hdr.ver0 == 1 then Success(Start()) else Run(buf, hdr, hdr.numPalettes)
  }

  /** The first entry with key `k` among the first `n` resolved entries. */
  predicate FirstWith(rs: seq<Resolved>, n: nat, k: (int, int), f: nat)
    requires n <= |rs|
  {
    f < n && rs[f].key == k && forall j :: 0 <= j < f ==> rs[j].key != k
  }

  /** Slot `j` holds what entry `j` resolved to, read through its own index (the index it records when it was read); the table holds at least 32 slots. */
  ghost predicate Slots(st: DirState) {
    var rs := st.resolved;
    Aligned(st.pl) && |st.pl.palettes| >= |rs| && |st.pl.palettes| >= MaxPalNo
    && forall j :: 0 <= j < |rs| ==> st.pl.paletteMap[j] == j && st.pl.palettes[j] == rs[j].pal && (rs[j].read ==> rs[j].idx == j)
  }

  /** The recorded keys are exactly the keys seen. */
  ghost predicate Keys(st: DirState) {
    forall k :: k in st.unique <==> exists j :: 0 <= j < |st.resolved| && st.resolved[j].key == k
  }

  /** Each recorded key keeps the index its first entry resolved to. */
  ghost predicate Firsts(st: DirState) {
    forall k, f: nat :: k in st.unique && FirstWith(st.resolved, |st.resolved|, k, f) ==> st.unique[k] == st.resolved[f].idx
  }

  ghost predicate Inv(st: DirState) {
    Slots(st) && Keys(st) && Firsts(st)
  }

  lemma StartInv()
    ensures Inv(Start())
  {
  }

  lemma StepSlots(buf: seq<byte>, hdr: SffHeader, st: DirState, i: nat)
    requires hdr.lofs < Two32 && Slots(st) && i == |st.resolved|
    requires Step(buf, hdr, st, i).Success?
    ensures Slots(Step(buf, hdr, st, i).value)
  {
    var st' := Step(buf, hdr, st, i).value;
    assert forall j :: 0 <= j < i ==> st'.resolved[j] == st.resolved[j];
  }

  lemma StepKeys(buf: seq<byte>, hdr: SffHeader, st: DirState, i: nat)
    requires hdr.lofs < Two32 && Keys(st) && i == |st.resolved|
    requires Step(buf, hdr, st, i).Success?
    ensures Keys(Step(buf, hdr, st, i).value)
  {
    var st' := Step(buf, hdr, st, i).value;
    var rs, rs' := st.resolved, st'.resolved;
    assert forall j :: 0 <= j < i ==> rs'[j] == rs[j];
    forall k | k in st'.unique
      ensures exists j :: 0 <= j < |rs'| && rs'[j].key == k
    {
      if k == rs'[i].key {
        assert rs'[i].key == k;
      } else {
        var j :| 0 <= j < |rs| && rs[j].key == k;
        assert rs'[j].key == k;
      }
    }
  }

  lemma StepFirsts(buf: seq<byte>, hdr: SffHeader, st: DirState, i: nat)
    requires hdr.lofs < Two32 && Keys(st) && Firsts(st) && i == |st.resolved|
    requires Step(buf, hdr, st, i).Success?
    ensures Firsts(Step(buf, hdr, st, i).value)
  {
    var st' := Step(buf, hdr, st, i).value;
    var rs, rs' := st.resolved, st'.resolved;
    assert forall j :: 0 <= j < i ==> rs'[j] == rs[j];
    forall k, f: nat | k in st'.unique && FirstWith(rs', |rs'|, k, f)
      ensures st'.unique[k] == rs'[f].idx
    {
      if f < i {
        assert FirstWith(rs, |rs|, k, f);
        assert k in st.unique;
      }
    }
  }

  lemma {:induction false} RunInv(buf: seq<byte>, hdr: SffHeader, n: nat)
    requires hdr.lofs < Two32 && Run(buf, hdr, n).Success?
    ensures Inv(Run(buf, hdr, n).value)
    decreases n
  {
    if n == 0 {
      StartInv();
    } else {
      RunInv(buf, hdr, n - 1);
      var st := Run(buf, hdr, n - 1).value;
      StepSlots(buf, hdr, st, n - 1);
      StepKeys(buf, hdr, st, n - 1);
      StepFirsts(buf, hdr, st, n - 1);
    }
  }

  /** After the directory, index `j` reads the palette entry `j` resolved to. */
  lemma SlotsHold(buf: seq<byte>, hdr: SffHeader, n: nat, j: nat)
    requires hdr.lofs < Two32 && Run(buf, hdr, n).Success? && j < n
    ensures var st := Run(buf, hdr, n).value;
      CanGet(st.pl, j) && Get(st.pl, j) == st.resolved[j].pal
  {
    RunInv(buf, hdr, n);
    var st := Run(buf, hdr, n).value;
    assert st.pl.paletteMap[j] == j;
  }

  /** The facts `ResolveEntry` gives about a fresh key, for the entry one step reads. */
  predicate FreshResolved(buf: seq<byte>, hdr: SffHeader, before: DirState, i: nat, e: PalEntry, res: Resolved)
    requires hdr.lofs < Two32
  {
    && res.key == (e.group, e.number)
    && (e.siz == 0 ==> !res.read && res.idx == e.link && CanGet(before.pl, e.link) && res.pal == Get(before.pl, e.link))
    && (e.siz != 0 ==>
          && res.read && res.idx == i
          && ReadPaletteV2(buf, (hdr.lofs + e.ofs) % Two32, e.siz, hdr.ver2).Success?
          && res.pal == ReadPaletteV2(buf, (hdr.lofs + e.ofs) % Two32, e.siz, hdr.ver2).value)
  }

  /** A step reads entry `i` from its slot and appends exactly what `ResolveEntry` makes of it. */
  lemma StepResolves(buf: seq<byte>, hdr: SffHeader, st: DirState, i: nat)
    requires hdr.lofs < Two32 && Step(buf, hdr, st, i).Success?
    ensures ReadPalEntry(buf, SlotPos(hdr, i)).Success?
    ensures Success(Step(buf, hdr, st, i).value.resolved[|st.resolved|])
      == ResolveEntry(buf, hdr, st, i, ReadPalEntry(buf, SlotPos(hdr, i)).value)
  {
  }

  /** One step on a key not seen before resolves it by its link or by reading it. */
  lemma FreshStep(buf: seq<byte>, hdr: SffHeader, st: DirState, i: nat)
    requires hdr.lofs < Two32 && Keys(st) && i == |st.resolved|
    requires Step(buf, hdr, st, i).Success?
    requires forall k :: 0 <= k < i ==> st.resolved[k].key != Step(buf, hdr, st, i).value.resolved[i].key
    ensures ReadPalEntry(buf, SlotPos(hdr, i)).Success?
    ensures FreshResolved(buf, hdr, st, i, ReadPalEntry(buf, SlotPos(hdr, i)).value, Step(buf, hdr, st, i).value.resolved[i])
  {
    var e := ReadPalEntry(buf, SlotPos(hdr, i)).value;
    StepResolves(buf, hdr, st, i);
    assert (e.group, e.number) !in st.unique;
  }

  /**
   * How a directory entry whose key no earlier entry has was resolved: with
   * no data it takes the palette slot `link` held before it, and otherwise
   * its palette is the one read at `lofs + ofs`, under its own index
   * (`SlotsHold` then says index `j` reads that palette).
   */
  lemma FreshEntry(buf: seq<byte>, hdr: SffHeader, n: nat, j: nat)
    requires hdr.lofs < Two32 && Run(buf, hdr, n).Success? && j < n
    requires var rs := Run(buf, hdr, n).value.resolved; forall k :: 0 <= k < j ==> rs[k].key != rs[j].key
    ensures ReadPalEntry(buf, SlotPos(hdr, j)).Success? && Run(buf, hdr, j).Success?
    ensures FreshResolved(buf, hdr, Run(buf, hdr, j).value, j, ReadPalEntry(buf, SlotPos(hdr, j)).value, Run(buf, hdr, n).value.resolved[j])
  {
    var sti := KeysAt(buf, hdr, n, j);
    FreshStep(buf, hdr, sti, j);
  }

  /** The state before entry `j` of a successful run, with its recorded keys, and the step that resolves entry `j`. */
  lemma KeysAt(buf: seq<byte>, hdr: SffHeader, n: nat, j: nat) returns (sti: DirState)
    requires hdr.lofs < Two32 && Run(buf, hdr, n).Success? && j < n
    ensures Run(buf, hdr, j) == Success(sti) && Keys(sti) && j == |sti.resolved|
    ensures Step(buf, hdr, sti, j).Success?
    ensures Step(buf, hdr, sti, j).value.resolved[j] == Run(buf, hdr, n).value.resolved[j]
    ensures forall k :: 0 <= k < j ==> sti.resolved[k] == Run(buf, hdr, n).value.resolved[k]
  {
    sti := AtStep(buf, hdr, n, j);
  }

  /** The entries the first `n` directory entries resolve to, when they read. */
  function Resolutions(buf: seq<byte>, hdr: SffHeader, n: nat): Option<seq<Resolved>>
    requires hdr.lofs < Two32
  {
    if Run(buf, hdr, n).Success? then Some(Run(buf, hdr, n).value.resolved) else None
  }

  /** A successful run of `n` entries extends the run of `n - 1`. */
  lemma RunExtends(buf: seq<byte>, hdr: SffHeader, n: nat)
    requires hdr.lofs < Two32 && 0 < n && Resolutions(buf, hdr, n).Some?
    ensures Resolutions(buf, hdr, n - 1).Some? && |Resolutions(buf, hdr, n - 1).value| == n - 1
    ensures |Resolutions(buf, hdr, n).value| == n
    ensures Resolutions(buf, hdr, n).value[..n - 1] == Resolutions(buf, hdr, n - 1).value
  {
  }

  /** Every successful run extends the one before it. */
  lemma RunChain(buf: seq<byte>, hdr: SffHeader, n: nat)
    requires hdr.lofs < Two32
    ensures forall k: nat :: 0 < k <= n && Resolutions(buf, hdr, k).Some? ==>
      && Resolutions(buf, hdr, k - 1).Some? && |Resolutions(buf, hdr, k - 1).value| == k - 1
      && |Resolutions(buf, hdr, k).value| == k
      && Resolutions(buf, hdr, k).value[..k - 1] == Resolutions(buf, hdr, k - 1).value
  {
    forall k: nat | 0 < k <= n && Resolutions(buf, hdr, k).Some?
      ensures Resolutions(buf, hdr, k - 1).Some? && |Resolutions(buf, hdr, k - 1).value| == k - 1
      ensures |Resolutions(buf, hdr, k).value| == k
      ensures Resolutions(buf, hdr, k).value[..k - 1] == Resolutions(buf, hdr, k - 1).value
    {
      RunExtends(buf, hdr, k);
    }
  }

  lemma PrefixOfPrefix<T>(s: seq<T>, a: seq<T>, m: nat)
    requires m <= |a| <= |s| && s[..|a|] == a
    ensures s[..m] == a[..m]
  {
    assert forall k :: 0 <= k < m ==> s[k] == s[..|a|][k];
  }

  /** A chain whose `k`th value extends its `k - 1`st has every earlier value as a prefix of a later one. */
  lemma {:induction false} ChainPrefix<T>(chain: nat -> Option<seq<T>>, n: nat, m: nat)
    requires m <= n && chain(n).Some? && |chain(n).value| == n
    requires forall k: nat :: 0 < k <= n && chain(k).Some? ==>
      && chain(k - 1).Some? && |chain(k - 1).value| == k - 1 && |chain(k).value| == k
      && chain(k).value[..k - 1] == chain(k - 1).value
    ensures chain(m).Some? && chain(m).value == chain(n).value[..m]
    decreases n
  {
    if m < n {
      ChainPrefix(chain, n - 1, m);
      PrefixOfPrefix(chain(n).value, chain(n - 1).value, m);
    } else {
      assert chain(n).value[..m] == chain(n).value;
    }
  }

  /** The resolved entries of `n` entries extend those of fewer. */
  lemma RunPrefix(buf: seq<byte>, hdr: SffHeader, n: nat, m: nat)
    requires hdr.lofs < Two32 && Run(buf, hdr, n).Success? && m <= n
    ensures Run(buf, hdr, m).Success?
    ensures Run(buf, hdr, m).value.resolved == Run(buf, hdr, n).value.resolved[..m]
  {
    RunChain(buf, hdr, n);
    ChainPrefix((k: nat) => Resolutions(buf, hdr, k), n, m);
  }

  /**
   * A repeated (group, number) reuses its first entry: when that first entry
   * was read from the file, the repeat records the first entry's slot and
   * its palette, and both slots read the same palette at the end.
   */
  lemma DuplicateReuses(buf: seq<byte>, hdr: SffHeader, n: nat, f: nat, i: nat)
    requires hdr.lofs < Two32 && Run(buf, hdr, n).Success?
    requires f < i < n
    requires var rs := Run(buf, hdr, n).value.resolved; FirstWith(rs, n, rs[i].key, f) && rs[f].read
    ensures var st := Run(buf, hdr, n).value;
      var rs := st.resolved;
      rs[i].idx == f && rs[i].pal == rs[f].pal && !rs[i].read
      && CanGet(st.pl, i) && CanGet(st.pl, f) && Get(st.pl, i) == Get(st.pl, f)
  {
    var rs := Run(buf, hdr, n).value.resolved;
    var sti := AtStep(buf, hdr, n, i);
    assert sti.resolved[f] == rs[f];
    RepeatStep(buf, hdr, sti, i, f);
    SlotsHold(buf, hdr, n, i);
    SlotsHold(buf, hdr, n, f);
  }

  /** One step on a repeated key: the entry takes the index and palette its read first occurrence left. */
  lemma RepeatStep(buf: seq<byte>, hdr: SffHeader, st: DirState, i: nat, f: nat)
    requires hdr.lofs < Two32 && Inv(st) && i == |st.resolved| && f < i
    requires Step(buf, hdr, st, i).Success?
    requires var res := Step(buf, hdr, st, i).value.resolved[i];
      FirstWith(st.resolved, i, res.key, f) && st.resolved[f].read
    ensures var res := Step(buf, hdr, st, i).value.resolved[i];
      res.idx == f && res.pal == st.resolved[f].pal && !res.read
  {
    var rs := st.resolved;
    var res := Step(buf, hdr, st, i).value.resolved[i];
    assert res.key in st.unique;
    assert st.unique[res.key] == rs[f].idx;
    assert st.pl.paletteMap[f] == f;
  }

  /** The state before entry `i` of a successful run, and how entry `i` is resolved from it. */
  lemma AtStep(buf: seq<byte>, hdr: SffHeader, n: nat, i: nat) returns (sti: DirState)
    requires hdr.lofs < Two32 && Run(buf, hdr, n).Success? && i < n
    ensures Run(buf, hdr, i) == Success(sti) && Inv(sti)
    ensures sti.resolved == Run(buf, hdr, n).value.resolved[..i]
    ensures Step(buf, hdr, sti, i).Success?
    ensures Step(buf, hdr, sti, i).value.resolved[i] == Run(buf, hdr, n).value.resolved[i]
  {
    RunPrefix(buf, hdr, n, i);
    RunPrefix(buf, hdr, n, i + 1);
    sti := Run(buf, hdr, i).value;
    RunInv(buf, hdr, i);
    var rs := Run(buf, hdr, n).value.resolved;
    assert Run(buf, hdr, i + 1).value.resolved == rs[..i + 1];
  }
}

=== FILE: palettes.dfy ===
/**
 * The palette table and the colour words it holds. A palette is 256 packed
 * colours (`a<<24 | b<<16 | g<<8 | r`); the table keeps palette slots and a
 * map from each sprite-facing index to the slot it currently reads.
 */
module Palettes {
  import opened Wrappers
  import opened Bytes
  import opened Container

  /** Palette slots (an empty slot is `[]`) and the index map; texture handles are not modelled. */
  datatype PaletteList = PaletteList(palettes: seq<seq<nat>>, paletteMap: seq<int>)

  function Init(): PaletteList {
    PaletteList([], [])
  }

  /** `[from, from + 1, ..., to - 1]`. */
  function Ids(from: nat, to: nat): (r: seq<int>)
    ensures |r| == if from <= to then to - from else 0
    ensures forall k :: 0 <= k < |r| ==> r[k] == from + k
  {
    if from < to then seq(to - from, k => from + k) else []
  }

  /** The index map names slots the table holds, one entry per slot. */
  predicate Aligned(pl: PaletteList) {
    |pl.paletteMap| == |pl.palettes|
  }

  predicate CanGet(pl: PaletteList, i: int) {
    0 <= i < |pl.paletteMap| && 0 <= pl.paletteMap[i] < |pl.palettes|
  }

  /** The palette index `i` reads through the map. */
  function Get(pl: PaletteList, i: int): (r: seq<nat>)
    requires CanGet(pl, i)
    ensures r in pl.palettes
  {
    pl.palettes[pl.paletteMap[i]]
  }

  /**
   * Puts `p` in slot `i` and points index `i` back at it. A table too short
   * grows to `i + 1` slots; the new indices below `i` map to themselves and
   * the new slots below `i` stay empty.
   */
  function SetSource(pl: PaletteList, i: nat, p: seq<nat>): (pl': PaletteList)
    ensures |pl'.paletteMap| == if i < |pl.paletteMap| then |pl.paletteMap| else i + 1
    ensures |pl'.palettes| == if i < |pl.palettes| then |pl.palettes| else i + 1
    ensures pl'.paletteMap[i] == i && pl'.palettes[i] == p
    ensures forall j :: 0 <= j < |pl.paletteMap| && j != i ==> pl'.paletteMap[j] == pl.paletteMap[j]
    ensures forall j :: |pl.paletteMap| <= j < i ==> pl'.paletteMap[j] == j
    ensures forall j :: 0 <= j < |pl.palettes| && j != i ==> pl'.palettes[j] == pl.palettes[j]
    ensures forall j :: |pl.palettes| <= j < i ==> pl'.palettes[j] == []
  {
    var m := pl.paletteMap;
    var ps := pl.palettes;
    var m' := if i < |m| then m[i := i] else m + Ids(|m|, i + 1);
    var ps' := if i < |ps| then ps[i := p] else ps + Repeat([], i - |ps|) + [p];
    PaletteList(ps', m')
  }

  /** After `SetSource(i, p)`, index `i` reads `p`; an index that neither is `i` nor mapped to slot `i` reads what it read before. */
  lemma GetAfterSet(pl: PaletteList, i: nat, p: seq<nat>, j: int)
    ensures CanGet(SetSource(pl, i, p), i) && Get(SetSource(pl, i, p), i) == p
    ensures CanGet(pl, j) && j != i && pl.paletteMap[j] != i ==>
      CanGet(SetSource(pl, i, p), j) && Get(SetSource(pl, i, p), j) == Get(pl, j)
  {
  }

  /** A fresh all-zero palette in a new slot at the end of the table. */
  function NewPal(pl: PaletteList): (r: (PaletteList, nat, seq<nat>))
    ensures r.1 == |pl.palettes| && r.2 == Repeat(0, 256)
    ensures r.0 == SetSource(pl, r.1, r.2)
    ensures CanGet(r.0, r.1) && Get(r.0, r.1) == r.2
    ensures forall j :: CanGet(pl, j) && j != r.1 && pl.paletteMap[j] != r.1 ==> CanGet(r.0, j) && Get(r.0, j) == Get(pl, j)
  {
    var i := |pl.palettes|;
    var p := Repeat(0, 256);
    (SetSource(pl, i, p), i, p)
  }

  /** `NewPal` on an aligned table adds exactly one slot and one index, which reads the new palette. */
  lemma NewPalGrows(pl: PaletteList)
    requires Aligned(pl)
    ensures var (pl', i, p) := NewPal(pl);
      Aligned(pl') && |pl'.palettes| == |pl.palettes| + 1
      && pl'.palettes[..i] == pl.palettes && pl'.paletteMap[..i] == pl.paletteMap
      && CanGet(pl', i) && Get(pl', i) == p
      && |p| == 256 && (forall k :: 0 <= k < 256 ==> p[k] == 0)
      && forall j :: CanGet(pl, j) ==> CanGet(pl', j) && Get(pl', j) == Get(pl, j)
  {
    var (pl', i, p) := NewPal(pl);
    assert pl'.palettes[..i] == pl.palettes;
    assert pl'.paletteMap[..i] == pl.paletteMap;
    forall j | CanGet(pl, j)
      ensures CanGet(pl', j) && Get(pl', j) == Get(pl, j)
    {
      GetAfterSet(pl, i, p, j);
    }
  }

  /** Points index `source` at slot `destination`; nothing else changes. */
  function Remap(pl: PaletteList, source: nat, destination: int): (pl': PaletteList)
    requires source < |pl.paletteMap|
    ensures pl'.palettes == pl.palettes && |pl'.paletteMap| == |pl.paletteMap|
    ensures pl'.paletteMap[source] == destination
    ensures forall j :: 0 <= j < |pl.paletteMap| && j != source ==> pl'.paletteMap[j] == pl.paletteMap[j]
  {
    pl.(paletteMap := pl.paletteMap[source := destination])
  }

  /** Points every index back at its own slot. */
  function ResetRemap(pl: PaletteList): (pl': PaletteList)
    ensures pl'.palettes == pl.palettes && |pl'.paletteMap| == |pl.paletteMap|
    ensures forall j :: 0 <= j < |pl'.paletteMap| ==> pl'.paletteMap[j] == j
  {
    pl.(paletteMap := Ids(0, |pl.paletteMap|))
  }

  /** After a reset an aligned table reads each slot through its own index, whatever was remapped before. */
  lemma ResetUndoesRemap(pl: PaletteList, s: nat, d: int, j: nat)
    requires Aligned(pl) && s < |pl.paletteMap| && j < |pl.palettes|
    ensures ResetRemap(Remap(pl, s, d)) == ResetRemap(pl)
    ensures CanGet(ResetRemap(pl), j) && Get(ResetRemap(pl), j) == pl.palettes[j]
  {
  }

  /**
   * Exchanges the table's index map with `palMap` when both have the same
   * length; otherwise reports failure and changes neither.
   */
  function SwapPalMap(pl: PaletteList, palMap: seq<int>): (r: (bool, PaletteList, seq<int>))
    ensures r.0 <==> |palMap| == |pl.paletteMap|
    ensures r.0 ==> r.1 == pl.(paletteMap := palMap) && r.2 == pl.paletteMap
    ensures !r.0 ==> r.1 == pl && r.2 == palMap
  {
    if |palMap| != |pl.paletteMap| then (false, pl, palMap)
    else (true, pl.(paletteMap := palMap), pl.paletteMap)
  }

  /** Swapping twice restores both the table and the caller's map. */
  lemma SwapTwice(pl: PaletteList, palMap: seq<int>)
    ensures var (ok, pl', pm') := SwapPalMap(pl, palMap);
      var (ok', pl'', pm'') := SwapPalMap(pl', pm');
      ok' == ok && pl'' == pl && pm'' == palMap
  {
  }

  /** A copy of the table's index map, for a caller to swap back in later. */
  function GetPalMap(pl: PaletteList): (m: seq<int>)
    ensures |m| == |pl.paletteMap| && forall j :: 0 <= j < |m| ==> m[j] == pl.paletteMap[j]
  {
    pl.paletteMap[..]
  }

  /**
   * Saving the map, remapping, then swapping the saved copy back in restores
   * the table and hands back the remapped map.
   */
  lemma SaveRemapRestore(pl: PaletteList, s: nat, d: int)
    requires s < |pl.paletteMap|
    ensures var saved := GetPalMap(pl);
      var (ok, pl', back) := SwapPalMap(Remap(pl, s, d), saved);
      ok && pl' == pl && back == Remap(pl, s, d).paletteMap
  {
  }

  /** Every operation keeps an aligned table aligned. */
  lemma AlignedKept(pl: PaletteList, i: nat, p: seq<nat>, s: nat, d: int, palMap: seq<int>)
    requires Aligned(pl)
    ensures Aligned(SetSource(pl, i, p)) && Aligned(NewPal(pl).0) && Aligned(ResetRemap(pl))
    ensures s < |pl.paletteMap| ==> Aligned(Remap(pl, s, d))
    ensures Aligned(SwapPalMap(pl, palMap).1)
  {
  }

  /** A colour as `genPalette` hands it to the image library. */
  datatype Rgba = Rgba(r: byte, g: byte, b: byte, a: byte)

  /** `a<<24 | b<<16 | g<<8 | r`. */
  function Pack(c: Rgba): (x: nat)
    ensures x < Two32
  {
    c.r + 0x100 * c.g + 0x1_0000 * c.b + 0x100_0000 * c.a
  }

  /** The four bytes of a colour word, lowest first. */
  function Unpack(x: nat): Rgba
    requires x < Two32
  {
    Rgba(x % 256, (x / 0x100) % 256, (x / 0x1_0000) % 256, (x / 0x100_0000) % 256)
  }

  lemma UnpackPack(c: Rgba)
    ensures Unpack(Pack(c)) == c
  {
    var b: seq<byte> := [c.r, c.g, c.b, c.a];
    U32Encodes(b, 0);
    assert U32(b, 0).value == Pack(c);
  }

  lemma PackUnpack(x: nat)
    requires x < Two32
    ensures Pack(Unpack(x)) == x
  {
    DigitsOf(x);
  }

  predicate Words(pal: seq<nat>) {
    forall k :: 0 <= k < |pal| ==> pal[k] < Two32
  }

  /** The image library's palette: each colour word unpacked. */
  function GenPalette(pal: seq<nat>): (r: seq<Rgba>)
    requires Words(pal)
    ensures |r| == |pal|
    ensures forall k :: 0 <= k < |pal| ==> Pack(r[k]) == pal[k]
  {
    var r := seq(|pal|, k requires 0 <= k < |pal| => Unpack(pal[k]));
    assert forall k :: 0 <= k < |pal| ==> Pack(r[k]) == pal[k] by {
      forall k | 0 <= k < |pal| {
        PackUnpack(pal[k]);
      }
    }
    r
  }

  /**
   * The alpha a palette entry gets: a version 2.0.x.x file (`Ver2 == 0`) stores
   * none, so entry 0 is transparent and every other entry opaque.
   */
  function Alpha(stored: byte, k: nat, ver2: byte): (a: byte)
    ensures ver2 != 0 ==> a == stored
    ensures ver2 == 0 ==> (a == 0 <==> k == 0) && (a == 0 || a == 255)
  {
    if ver2 != 0 then stored else if k == 0 then 0 else 255
  }

  /** Colours `k` to `m - 1` of a version-2 palette whose entry `k` is at `pos`, four bytes each. */
  function Colours(buf: seq<byte>, pos: nat, k: nat, m: nat, ver2: byte): (r: Result<seq<nat>, SffError>)
    ensures r.Success? ==> |r.value| == if k <= m then m - k else 0
    ensures r.Success? ==> Words(r.value)
    decreases m - k
  {
    if k >= m then Success([])
    else if pos + 4 > |buf| then Failure(Short(pos))
    else
      var c := Pack(Rgba(buf[pos], buf[pos + 1], buf[pos + 2], Alpha(buf[pos + 3], k, ver2)));
      var rest :- Colours(buf, pos + 4, k + 1, m, ver2);
      Success([c] + rest)
  }

  /**
   * A version-2 palette of `siz` bytes at `pos`: the first `siz / 4` colours
   * (at most 256) are read, the rest of the 256 entries stay zero.
   */
  function ReadPaletteV2(buf: seq<byte>, pos: nat, siz: nat, ver2: byte): (r: Result<seq<nat>, SffError>)
    ensures r.Success? ==> |r.value| == 256 && Words(r.value)
    ensures r.Success? <==> siz < 4 || pos + 4 * Min(siz / 4, 256) <= |buf|
  {
    var m := Min(siz / 4, 256);
    ColoursExtent(buf, pos, 0, m, ver2);
    var read :- Colours(buf, pos, 0, m, ver2);
    Success(read + Repeat(0, 256 - m))
  }

  lemma {:induction false} ColoursExtent(buf: seq<byte>, pos: nat, k: nat, m: nat, ver2: byte)
    requires k <= m
    ensures Colours(buf, pos, k, m, ver2).Success? <==> k == m || pos + 4 * (m - k) <= |buf|
    decreases m - k
  {
    if k < m {
      ColoursExtent(buf, pos + 4, k + 1, m, ver2);
    }
  }

  /** Entry `j` of the colours read from `pos` holds the bytes at `pos + 4 * j`, with the alpha rule applied. */
  lemma {:induction false} ColourAt(buf: seq<byte>, pos: nat, k: nat, m: nat, ver2: byte, j: nat)
    requires Colours(buf, pos, k, m, ver2).Success? && j < m - k
    ensures var q := pos + 4 * j;
      q + 4 <= |buf|
      && Unpack(Colours(buf, pos, k, m, ver2).value[j]) == Rgba(buf[q], buf[q + 1], buf[q + 2], Alpha(buf[q + 3], k + j, ver2))
    decreases j
  {
    var q := pos;
    UnpackPack(Rgba(buf[q], buf[q + 1], buf[q + 2], Alpha(buf[q + 3], k, ver2)));
    if j > 0 {
      ColourAt(buf, pos + 4, k + 1, m, ver2, j - 1);
    }
  }

  /**
   * What a version-2 palette holds: colour `k` below `siz / 4` is the four
   * bytes at `pos + 4 * k`, with alpha 0 at entry 0 and 255 elsewhere in a
   * `Ver2 == 0` file; the entries past `siz / 4` are zero.
   */
  lemma PaletteV2Entries(buf: seq<byte>, pos: nat, siz: nat, ver2: byte, k: nat)
    requires ReadPaletteV2(buf, pos, siz, ver2).Success? && k < 256
    ensures var pal := ReadPaletteV2(buf, pos, siz, ver2).value;
      var q := pos + 4 * k;
      (k < siz / 4 ==>
         q + 4 <= |buf| && Unpack(pal[k]) == Rgba(buf[q], buf[q + 1], buf[q + 2], Alpha(buf[q + 3], k, ver2)))
      && (k >= siz / 4 ==> pal[k] == 0)
      && (ver2 == 0 && k < siz / 4 ==> Unpack(pal[k]).a == if k == 0 then 0 else 255)
  {
    var m := Min(siz / 4, 256);
    var read := Colours(buf, pos, 0, m, ver2).value;
    if k < m {
      ColourAt(buf, pos, 0, m, ver2, k);
    }
  }

  /**
   * A version-1 palette: 256 three-byte colours at `pos`, entry 0
   * transparent and the rest opaque.
   */
  function ReadPaletteV1(buf: seq<byte>, pos: nat): (r: Result<seq<nat>, SffError>)
    ensures r.Success? <==> pos + 768 <= |buf|
    ensures r.Success? ==> |r.value| == 256 && Words(r.value)
    ensures r.Success? ==> forall k :: 0 <= k < 256 ==>
      Unpack(r.value[k]) == Rgba(buf[pos + 3 * k], buf[pos + 3 * k + 1], buf[pos + 3 * k + 2], if k == 0 then 0 else 255)
  {
    if pos + 768 > |buf| then Failure(Short(pos))
    else
      var pal := seq(256, k requires 0 <= k < 256 =>
        Pack(Rgba(buf[pos + 3 * k], buf[pos + 3 * k + 1], buf[pos + 3 * k + 2], if k == 0 then 0 else 255)));
      assert forall k :: 0 <= k < 256 ==>
        Unpack(pal[k]) == Rgba(buf[pos + 3 * k], buf[pos + 3 * k + 1], buf[pos + 3 * k + 2], if k == 0 then 0 else 255) by {
        forall k | 0 <= k < 256 {
          UnpackPack(Rgba(buf[pos + 3 * k], buf[pos + 3 * k + 1], buf[pos + 3 * k + 2], if k == 0 then 0 else 255));
        }
      }
      Success(pal)
  }
}

=== FILE: payload.dfy ===
/**
 * The payload of a version-2 sprite, as the C++ reader handles it: raw
 * pixels when `rle` is 0, otherwise a 4-byte length word followed by a
 * stream for the decoder that the format (`-rle`) names. Embedded PNG
 * formats are passed on untouched and any other format is skipped.
 */
module Payload {
  import opened Wrappers
  import opened Bytes
  import opened Codec
  import opened Container
  import Rle8
  import Rle5
  import Lz5

  /** What a payload yields. */
  datatype Pixels =
    | Raw(bytes: seq<byte>)
    | Decompressed(px: seq<byte>)
      /** Formats 10 to 12: an embedded PNG file, handed on as it is. */
    | Embedded(format: nat)
      /** Any other format: the reader does nothing and reports success. */
    | Skipped(format: nat)

  datatype PayloadError =
      /** A positive `rle` marks a PCX payload, which a version-2 reader refuses. */
    | PositiveRle(rle: int)
      /** A block read at `at` was empty or ran past the end of the file. */
    | ReadFailed(at: nat)
      /** The decoder for `format` produced nothing. */
    | Undecodable(format: nat, error: DecodeError)

  /**
   * A block read of `n` bytes at `at`. A zero-size block counts as a failed
   * read, as it does for `fread` with an item size of 0.
   */
  function Block(buf: seq<byte>, at: nat, n: nat): (r: Result<seq<byte>, PayloadError>)
    ensures r.Success? <==> 0 < n && at + n <= |buf|
    ensures r.Success? ==> r.value == buf[at..at + n]
    ensures r.Failure? ==> r.error == ReadFailed(at)
  {
    if 0 < n && at + n <= |buf| then Success(buf[at..at + n]) else Failure(ReadFailed(at))
  }

  /** The compressed formats and their decoders: 2 is RLE8, 3 is RLE5, 4 is LZ5. */
  predicate Compressed(format: int) {
    2 <= format <= 4
  }

  function Decompress(format: nat, src: seq<byte>, w: nat, h: nat): (r: Decoded)
    requires Compressed(format)
    ensures r.Success? ==> |r.value| == w * h
  {
    if format == 2 then Rle8.Decode(src, w, h)
    else if format == 3 then Rle5.Decode(src, w, h)
    else Lz5.Decode(src, w, h)
  }

  /**
   * The pixels of sprite `s` whose payload of `datasize` bytes starts at
   * `offset`. A compressed payload's stream starts after the length word and
   * has `datasize - 4` bytes, none when `datasize` is below 4.
   */
  function ReadV2(buf: seq<byte>, s: Sprite, offset: nat, datasize: nat): (r: Result<Pixels, PayloadError>)
    ensures s.rle > 0 <==> r == Failure(PositiveRle(s.rle))
    ensures s.rle == 0 ==> (r.Success? <==> 0 < datasize && offset + datasize <= |buf|)
    ensures s.rle == 0 && r.Success? ==> r.value == Raw(buf[offset..offset + datasize])
    ensures r.Success? && r.value.Decompressed? ==> Compressed(-s.rle) && |r.value.px| == s.w * s.h
    ensures Compressed(-s.rle) && r.Success? ==> r.value.Decompressed?
    ensures Compressed(-s.rle) ==>
      (r.Success? <==>
        (4 < datasize && offset + datasize <= |buf|
         && Decompress(-s.rle, buf[offset + 4..offset + datasize], s.w, s.h).Success?))
    ensures Compressed(-s.rle) && r.Success? ==>
      && r.value.Decompressed? && 4 < datasize && offset + datasize <= |buf|
      && Success(r.value.px) == Decompress(-s.rle, buf[offset + 4..offset + datasize], s.w, s.h)
    ensures Compressed(-s.rle) && r.Failure? && 4 < datasize && offset + datasize <= |buf| ==>
      r.error == Undecodable(-s.rle, Decompress(-s.rle, buf[offset + 4..offset + datasize], s.w, s.h).error)
    ensures s.rle < 0 && !Compressed(-s.rle) ==>
      r == Success(if 10 <= -s.rle <= 12 then Embedded(-s.rle) else Skipped(-s.rle))
  {
    if s.rle > 0 then Failure(PositiveRle(s.rle))
    else if s.rle == 0 then
      var bytes :- Block(buf, offset, datasize);
      Success(Raw(bytes))
    else
      var format := -s.rle;
      if Compressed(format) then
        var src :- Block(buf, offset + 4, if datasize < 4 then 0 else datasize - 4);
        match Decompress(format, src, s.w, s.h)
        case Success(px) => Success(Decompressed(px))
        case Failure(e) => Failure(Undecodable(format, e))
      else if 10 <= format <= 12 then Success(Embedded(format))
      else Success(Skipped(format))
  }

  /**
   * The empty-source refusal of the decoders is never what a version-2
   * payload fails with: an empty stream already fails as a read, and a
   * payload of at most the length word is an empty stream.
   */
  lemma NeverEmpty(buf: seq<byte>, s: Sprite, offset: nat, datasize: nat)
    ensures var r := ReadV2(buf, s, offset, datasize);
      r.Failure? && r.error.Undecodable? ==> r.error.error != EmptySource
    ensures s.rle < 0 && Compressed(-s.rle) && datasize <= 4 ==>
      ReadV2(buf, s, offset, datasize) == Failure(ReadFailed(offset + 4))
  {
  }

  /** The stream a compressor for `format` writes for `px`. */
  function Compress(format: nat, px: seq<byte>): (e: seq<byte>)
    requires Compressed(format) && (format == 4 ==> Lz5.FiveBit(px))
    ensures |e| >= |px|
  {
    if format == 2 then Rle8.Encode(px)
    else if format == 3 then Rle5.Encode(px)
    else Lz5.Encode(px)
  }

  /**
   * A payload made of any length word and the compressed stream of `px`,
   * placed anywhere in the file, reads back as `px`.
   */
  lemma V2RoundTrip(px: seq<byte>, s: Sprite, pre: seq<byte>, word: seq<byte>, post: seq<byte>)
    requires s.rle < 0 && Compressed(-s.rle) && (-s.rle == 4 ==> Lz5.FiveBit(px))
    requires px != [] && s.w * s.h == |px| && |word| == 4
    ensures var e := Compress(-s.rle, px);
      ReadV2(pre + word + e + post, s, |pre|, 4 + |e|) == Success(Decompressed(px))
  {
    var format: nat := -s.rle;
    var e := Compress(format, px);
    var buf := pre + word + e + post;
    assert buf[|pre| + 4..|pre| + 4 + |e|] == e;
    if format == 2 {
      Rle8.RoundTrip(px, s.w, s.h);
    } else if format == 3 {
      Rle5.RoundTrip(px, s.w, s.h);
    } else {
      Lz5.RoundTrip(px, s.w, s.h);
    }
  }
}

=== FILE: pcx.dfy ===
/**
 * PCX run-length pixels of a version-1 sprite. A byte of `0xC0` or more opens
 * a run of its low six bits' length of the next byte; any other byte stands
 * for itself. A line of the encoded image holds `rle` bytes (the PCX
 * bytes-per-line) of which only the first `w` are pixels: the rest is padding,
 * and a run never crosses the end of a line.
 */
module Pcx {
  import opened Wrappers
  import opened Bytes
  import opened Codec

  /** `d >= 0xC0`: the top two bits are both set. */
  predicate IsRun(d: byte) {
    d / 64 == 3
  }

  /**
   * The token at logical position `p`: the run length, the value repeated and
   * the number of source bytes the token takes.
   */
  function Token(src: seq<byte>, p: nat): (t: (nat, byte, nat))
    requires |src| > 0
    ensures t.0 == 0 ==> t.2 == 2
    ensures 1 <= t.2 <= 2
  {
    RunToken(src, p, 3)
  }

  /**
   * How far line position `k` still is from the end of a line of `rle` bytes
   * while it is in the padding after the `w` pixels; 0 inside the pixels.
   */
  function Gap(k: nat, w: nat, rle: nat): nat {
    if k < w || rle <= k then 0 else rle - k
  }

  /**
   * The decoder's inner loop for one token: `n` copies of `d`, each written
   * only while the line position `k` is below `w` and the buffer of `size`
   * pixels has room. The line position wraps to 0 at `rle`, and the wrap ends
   * the token.
   */
  function Units(d: byte, n: nat, k: nat, out: seq<byte>, w: nat, rle: nat, size: nat): (r: (seq<byte>, nat))
    requires 0 < rle && k < rle
    ensures r.1 < rle && |out| <= |r.0|
    ensures |out| <= size ==> |r.0| <= size
    ensures n == 0 ==> r == (out, k)
    ensures 0 < n && 0 < w && |out| < size ==> |out| < |r.0| || Gap(r.1, w, rle) < Gap(k, w, rle)
    decreases n
  {
    if n == 0 then (out, k)
    else
      var out' := if k < w && |out| < size then out + [d] else out;
      if k + 1 == rle then (out', 0) else Units(d, n - 1, k + 1, out', w, rle, size)
  }

  /**
   * The whole buffer of `size` pixels once decoding resumes at logical source
   * position `p` and line position `k` with `out` already written. A
   * zero-length run (`0xC0`) read at the last byte re-reads itself forever:
   * the decoder never returns there, reported as `Stalls`.
   */
  function Run(src: seq<byte>, p: nat, k: nat, out: seq<byte>, w: nat, rle: nat, size: nat): (r: Decoded)
    requires |src| > 0 && 0 < w && 0 < rle && k < rle && |out| <= size
    ensures r.Success? ==> |r.value| == size
    ensures r.Failure? ==> r.error == Stalls
    decreases size - |out|, Gap(k, w, rle), Left(src, p)
  {
    if |out| == size then Success(out)
    else
      var (n, d, len) := Token(src, p);
      if n == 0 && p + 1 >= |src| then Failure(Stalls)
      else
        var (out', k') := Units(d, n, k, out, w, rle, size);
        Run(src, p + len, k', out', w, rle, size)
  }

  /**
   * `RlePcxDecode`: an empty source, or a sprite whose `rle` says it is not
   * run-length encoded, is returned as it is; otherwise the `w`×`h` pixels.
   */
  function Decode(src: seq<byte>, w: nat, h: nat, rle: int): (r: Decoded)
    ensures |src| == 0 || rle <= 0 ==> r == Success(src)
    ensures |src| > 0 && rle > 0 && r.Success? ==> |r.value| == w * h
    ensures r.Failure? ==> r.error == Stalls
  {
    if |src| == 0 || rle <= 0 then Success(src)
    else if w == 0 then Success([])
    else Run(src, 0, 0, [], w, rle, w * h)
  }

  /** The sprite's `rle` after decoding: cleared once the pixels were decoded. */
  function RleAfter(src: seq<byte>, rle: int): (r: int)
    ensures r == 0 || r == rle
    ensures |src| > 0 && rle > 0 <==> r == 0 && rle != 0
  {
    if |src| == 0 || rle <= 0 then rle else 0
  }

  /** The head of the decoder's loop body: one or two bytes read through the saturating index. */
  method ReadToken(src: seq<byte>, i: nat, ghost p: nat) returns (n: nat, d: byte, i': nat)
    requires |src| > 0 && i == Sat(src, p)
    ensures (n, d) == (Token(src, p).0, Token(src, p).1)
    ensures i' == Sat(src, p + Token(src, p).2)
  {
    i' := i;
    n := 1;
    d := src[i'];
    if i' < |src| - 1 {
      i' := i' + 1;
    }
    if d >= 0xC0 {
      n := d % 64;
      d := src[i'];
      if i' < |src| - 1 {
        i' := i' + 1;
      }
    }
  }

  /** The decoder's inner loop, `n` counting down and a line wrap cutting it short. */
  method PutRun(d: byte, n: nat, k: nat, dst: seq<byte>, w: nat, rle: nat, size: nat) returns (dst': seq<byte>, k': nat)
    requires 0 < rle && k < rle
    ensures (dst', k') == Units(d, n, k, dst, w, rle, size)
  {
    dst', k' := dst, k;
    var m := n;
    while m > 0
      invariant k' < rle
      invariant Units(d, n, k, dst, w, rle, size) == Units(d, m, k', dst', w, rle, size)
    {
      if k' < w && |dst'| < size {
        dst' := dst' + [d];
      }
      k' := k' + 1;
      if k' == rle {
        k' := 0;
        m := 1;
      }
      m := m - 1;
    }
  }

  /** `RlePcxDecode` as the Go decoder writes it. */
  method PcxDecode(src: seq<byte>, w: nat, h: nat, rle: int) returns (r: Decoded, rle': int)
    ensures r == Decode(src, w, h, rle)
    ensures r.Success? ==> rle' == RleAfter(src, rle)
  {
    if |src| == 0 || rle <= 0 {
      return Success(src), rle;
    }
    var size := w * h;
    var dst: seq<byte> := [];
    if w == 0 {
      return Success(dst), 0;
    }
    var i, k: nat := 0, 0;
    ghost var p: nat := 0;
    while |dst| < size
      invariant |dst| <= size && k < rle && i == Sat(src, p)
      invariant Run(src, 0, 0, [], w, rle, size) == Run(src, p, k, dst, w, rle, size)
      decreases size - |dst|, Gap(k, w, rle), Left(src, p)
    {
      ghost var p0 := p;
      var i0 := i;
      var n, d;
      n, d, i := ReadToken(src, i, p);
      p := p + Token(src, p0).2;
      if n == 0 && i == i0 {
        return Failure(Stalls), rle;
      }
      dst, k := PutRun(d, n, k, dst, w, rle, size);
    }
    return Success(dst), 0;
  }

  /** The line position after one more byte of a line of `rle` bytes. */
  function Next(k: nat, rle: nat): (k': nat)
    requires k < rle
    ensures k' < rle
  {
    if k + 1 == rle then 0 else k + 1
  }

  /**
   * The bytes of the unit stream `us`, starting at line position `k`, that
   * fall within the first `w` bytes of their line: what the decoder keeps.
   */
  function Kept(us: seq<byte>, k: nat, w: nat, rle: nat): (r: seq<byte>)
    requires k < rle
    ensures |r| <= |us|
    decreases |us|
  {
    if us == [] then [] else (if k < w then [us[0]] else []) + Kept(us[1..], Next(k, rle), w, rle)
  }

  /** The shortest PCX spelling of one byte: a run of one when it looks like a run header. */
  function EncodeByte(v: byte): (e: seq<byte>)
    ensures 1 <= |e| <= 2
  {
    if IsRun(v) then [0xC1, v] else [v]
  }

  /** A byte-by-byte PCX run-length encoding. */
  function Encode(us: seq<byte>): (e: seq<byte>)
    ensures |us| <= |e| <= 2 * |us|
  {
    if us == [] then [] else EncodeByte(us[0]) + Encode(us[1..])
  }

  /** `h` lines of `w` pixels, each padded with zeros to `rle` bytes. */
  function Lines(px: seq<byte>, w: nat, h: nat, rle: nat): (us: seq<byte>)
    requires w <= rle && |px| == w * h
    ensures |us| == rle * h
    decreases h
  {
    if h == 0 then []
    else
      assert |px[w..]| == w * (h - 1);
      px[..w] + Repeat(0, rle - w) + Lines(px[w..], w, h - 1, rle)
  }

  /** The encoding of `us` sits at position `p` of the input `src`. */
  predicate EncodedAt(src: seq<byte>, p: nat, us: seq<byte>) {
    |src| > 0 && p + |Encode(us)| <= |src| && src[p..p + |Encode(us)|] == Encode(us)
  }

  /** An encoding is the first byte's token, then the encoding of the rest. */
  lemma EncodeSplit(src: seq<byte>, p: nat, us: seq<byte>)
    requires EncodedAt(src, p, us) && us != []
    ensures Token(src, p) == (1, us[0], |EncodeByte(us[0])|)
    ensures EncodedAt(src, p + |EncodeByte(us[0])|, us[1..])
  {
    var head := EncodeByte(us[0]);
    assert Encode(us) == head + Encode(us[1..]);
    SliceCut(src, p, head, Encode(us[1..]));
    assert src[p] == head[0];
    if IsRun(us[0]) {
      assert src[p + 1] == head[1];
    }
  }

  /** Decoding a one-byte token keeps the byte when it is a pixel of its line. */
  lemma RunOne(src: seq<byte>, p: nat, k: nat, out: seq<byte>, w: nat, rle: nat, size: nat, v: byte, len: nat)
    requires |src| > 0 && 0 < w && k < rle && |out| < size
    requires Token(src, p) == (1, v, len)
    ensures Run(src, p, k, out, w, rle, size)
      == Run(src, p + len, Next(k, rle), out + (if k < w then [v] else []), w, rle, size)
  {
    assert Units(v, 1, k, out, w, rle, size) == (out + (if k < w then [v] else []), Next(k, rle)) by {
      if k < w {
        assert out + [v] == out + (if k < w then [v] else []);
      } else {
        assert out == out + [];
      }
    }
  }

  /** The encoding of a unit stream decodes to the bytes of it that are kept. */
  lemma {:induction false} EncodedRun(src: seq<byte>, p: nat, k: nat, out: seq<byte>, us: seq<byte>, w: nat, rle: nat, size: nat)
    requires EncodedAt(src, p, us) && 0 < w && k < rle
    requires |out| + |Kept(us, k, w, rle)| == size
    ensures Run(src, p, k, out, w, rle, size) == Success(out + Kept(us, k, w, rle))
    decreases |us|
  {
    if |out| == size {
      assert out + Kept(us, k, w, rle) == out;
    } else {
      var v, k' := us[0], Next(k, rle);
      var kept := if k < w then [v] else [];
      var rest := Kept(us[1..], k', w, rle);
      KeptCons(us, k, w, rle);
      EncodeSplit(src, p, us);
      RunOne(src, p, k, out, w, rle, size, v, |EncodeByte(v)|);
      EncodedRun(src, p + |EncodeByte(v)|, k', out + kept, us[1..], w, rle, size);
      AppendAssoc(out, kept, rest);
    }
  }

  lemma KeptCons(us: seq<byte>, k: nat, w: nat, rle: nat)
    requires us != [] && k < rle
    ensures Kept(us, k, w, rle) == (if k < w then [us[0]] else []) + Kept(us[1..], Next(k, rle), w, rle)
  {
  }

  /** The pixels of a line are kept from line position `k` up to `w`. */
  lemma {:induction false} KeptPixels(line: seq<byte>, rest: seq<byte>, k: nat, w: nat, rle: nat)
    requires k < rle && w <= rle && k + |line| == w
    ensures Kept(line + rest, k, w, rle) == line + Kept(rest, if w == rle then 0 else w, w, rle)
    decreases |line|
  {
    if line != [] {
      assert (line + rest)[1..] == line[1..] + rest;
      if k + 1 < rle {
        KeptPixels(line[1..], rest, k + 1, w, rle);
      } else {
        assert line[1..] == [];
      }
      assert [line[0]] + line[1..] == line;
    } else {
      assert line + rest == rest;
    }
  }

  /** The padding of a line is dropped, up to the line's end. */
  lemma {:induction false} KeptPadding(pad: seq<byte>, rest: seq<byte>, k: nat, w: nat, rle: nat)
    requires w <= k < rle && k + |pad| == rle
    ensures Kept(pad + rest, k, w, rle) == Kept(rest, 0, w, rle)
    decreases |pad|
  {
    assert (pad + rest)[1..] == pad[1..] + rest;
    if k + 1 < rle {
      KeptPadding(pad[1..], rest, k + 1, w, rle);
    }
  }

  /** Every pixel of padded lines is kept and no padding byte is. */
  lemma {:induction false} KeptLines(px: seq<byte>, w: nat, h: nat, rle: nat)
    requires 0 < w <= rle && |px| == w * h
    ensures Kept(Lines(px, w, h, rle), 0, w, rle) == px
    decreases h
  {
    if h > 0 {
      var line, pad := px[..w], Repeat(0, rle - w);
      assert |px[w..]| == w * (h - 1);
      var rest := Lines(px[w..], w, h - 1, rle);
      assert Lines(px, w, h, rle) == line + (pad + rest);
      KeptPixels(line, pad + rest, 0, w, rle);
      if w < rle {
        KeptPadding(pad, rest, w, w, rle);
      } else {
        assert pad + rest == rest;
      }
      KeptLines(px[w..], w, h - 1, rle);
      assert line + px[w..] == px;
    }
  }

  /**
   * Any `w`×`h` image, its lines padded to `rle` bytes and encoded byte by
   * byte, decodes back to the image.
   */
  lemma RoundTrip(px: seq<byte>, w: nat, h: nat, rle: nat)
    requires 0 < w <= rle && |px| == w * h
    ensures Decode(Encode(Lines(px, w, h, rle)), w, h, rle) == Success(px)
  {
    var us := Lines(px, w, h, rle);
    var src := Encode(us);
    if h > 0 {
      KeptLines(px, w, h, rle);
      assert src[0..|src|] == src;
      EncodedRun(src, 0, 0, [], us, w, rle, w * h);
      assert [] + px == px;
    } else {
      assert us == [] && px == [];
    }
  }

  /**
   * Runs of three stop at the end of each two-byte line, and the second byte
   * of each line is padding.
   */
  lemma LineWrapExample()
    ensures Decode([0xC3, 7, 0xC3, 8], 1, 2, 2) == Success([7, 8])
  {
    var src: seq<byte> := [0xC3, 7, 0xC3, 8];
    assert Token(src, 0) == (3, 7, 2);
    assert [] + [7] == [7];
    assert Units(7, 2, 1, [7], 1, 2, 2) == ([7], 0);
    assert Units(7, 3, 0, [], 1, 2, 2) == ([7], 0);
    assert Token(src, 2) == (3, 8, 2);
    assert [7] + [8] == [7, 8];
    assert Units(8, 2, 1, [7, 8], 1, 2, 2) == ([7, 8], 0);
    assert Units(8, 3, 0, [7], 1, 2, 2) == ([7, 8], 0);
    assert Run(src, 4, 0, [7, 8], 1, 2, 2) == Success([7, 8]);
  }

  /** A stand-alone `0xC0` as the last byte loops forever in the decoder. */
  lemma StallExample()
    ensures Decode([0xC0], 1, 1, 1) == Failure(Stalls)
  {
  }

  /** A sprite that is not run-length encoded keeps its bytes. */
  lemma PassThroughExample()
    ensures Decode([0xC5, 1], 2, 2, 0) == Success([0xC5, 1])
  {
  }
}

=== FILE: rle5.dfy ===
/**
 * RLE5 (sprite format 3). A packet is a run length `rl`, a byte whose low
 * seven bits count `dl` further items and whose top bit says whether an
 * explicit first colour follows (otherwise it is 0); the first colour is
 * written `rl + 1` times, then each item byte is a 5-bit colour (low bits)
 * repeated one more time than its top three bits say.
 */
module Rle5 {
  import opened Wrappers
  import opened Bytes
  import opened Codec

  /** The fields of the packet header at logical position `p` and its length in bytes. */
  datatype Header = Header(rl: nat, dl: nat, c: byte, len: nat)

  function ReadHeader(src: seq<byte>, p: nat): (hd: Header)
    requires |src| > 0
    ensures hd.rl < 256 && hd.dl < 128
    ensures hd.len == 2 || hd.len == 3
  {
    var h := At(src, p + 1);
    if h / 128 != 0 then Header(At(src, p), h % 128, At(src, p + 2), 3)
    else Header(At(src, p), h % 128, 0, 2)
  }

  /** The pixels of `m` item bytes from logical position `q`. */
  function Items(src: seq<byte>, q: nat, m: nat): (r: seq<byte>)
    requires |src| > 0
    ensures |r| >= m
    decreases m
  {
    if m == 0 then []
    else
      var b := At(src, q);
      Repeat(b % 32, b / 32 + 1) + Items(src, q + 1, m - 1)
  }

  /** Every pixel of the packet at `p`, and its length in source bytes. */
  function Packet(src: seq<byte>, p: nat): (r: (seq<byte>, nat))
    requires |src| > 0
    ensures |r.0| >= 1
    ensures r.1 == ReadHeader(src, p).len + ReadHeader(src, p).dl
  {
    var hd := ReadHeader(src, p);
    (Repeat(hd.c, hd.rl + 1) + Items(src, p + hd.len, hd.dl), hd.len + hd.dl)
  }

  /** The next `need` pixels from the packet at `p` on; the last packet is cut at `need`. */
  function From(src: seq<byte>, p: nat, need: nat): (r: seq<byte>)
    requires |src| > 0
    ensures |r| == need
    decreases need
  {
    if need == 0 then []
    else
      var (pk, len) := Packet(src, p);
      var head := Take(pk, need);
      head + From(src, p + len, need - |head|)
  }

  /** The pixels of a `w`×`h` sprite; an empty source is refused. Every packet yields a pixel, so no source stalls. */
  function Decode(src: seq<byte>, w: nat, h: nat): (r: Decoded)
    ensures r.Success? ==> |r.value| == w * h
    ensures |src| == 0 <==> r == Failure(EmptySource)
    ensures r.Failure? ==> r.error == EmptySource
  {
    if |src| == 0 then Failure(EmptySource) else Success(From(src, 0, w * h))
  }

  /** The header reads of the C++ loop body, through the saturating index. */
  method ReadHeaderAt(src: seq<byte>, i: nat, ghost p: nat) returns (hd: Header, i': nat)
    requires |src| > 0 && i == Sat(src, p)
    ensures hd == ReadHeader(src, p) && i' == Sat(src, p + hd.len)
  {
    var rl := src[i];
    i' := Advance(src, i);
    AdvanceSat(src, p);
    var dl := src[i'] % 128;
    var c := 0;
    var len := 2;
    if src[i'] / 128 != 0 {
      AdvanceSat(src, p + 1);
      i' := Advance(src, i');
      c := src[i'];
      len := 3;
    }
    AdvanceSat(src, p + len - 1);
    i' := Advance(src, i');
    hd := Header(rl, dl, c, len);
  }

  /** What is left of a packet's pixels once its first pixel is written. */
  lemma Shift(src: seq<byte>, c: byte, rl: nat, q: nat, dl: nat)
    requires |src| > 0
    ensures (Repeat(c, rl + 1) + Items(src, q, dl))[1..]
      == if rl > 0 then Repeat(c, rl) + Items(src, q, dl) else Items(src, q, dl)
  {
    assert Repeat(c, rl + 1) == [c] + Repeat(c, rl);
  }

  /**
   * The C++ inner loop: the first colour `rl + 1` times, then `dl`
   * item bytes, each pixel kept only while the buffer of `n` pixels has room.
   */
  method Unpack(src: seq<byte>, n: nat, dst: seq<byte>, i: nat, c: byte, rl: int, dl: int, ghost q: nat)
    returns (dst': seq<byte>, i': nat)
    requires |src| > 0 && i == Sat(src, q) && |dst| <= n
    requires 0 <= rl && 0 <= dl
    ensures dst' == dst + Take(Repeat(c, rl + 1) + Items(src, q, dl), n - |dst|)
    ensures i' == Sat(src, q + dl)
  {
    dst', i' := dst, i;
    var c', rl', dl' := c, rl, dl;
    ghost var q' := q;
    ghost var rest := Repeat(c, rl + 1) + Items(src, q, dl);
    ghost var goal := dst + Take(rest, n - |dst|);
    while true
      invariant 0 <= rl' && 0 <= dl' && q' + dl' == q + dl
      invariant |dst'| <= n && i' == Sat(src, q')
      invariant rest == Repeat(c', rl' + 1) + Items(src, q', dl')
      invariant goal == dst' + Take(rest, n - |dst'|)
      decreases dl', rl'
    {
      TakeCons(dst', rest, n);
      Shift(src, c', rl', q', dl');
      if |dst'| < n {
        dst' := dst' + [c'];
      }
      rest := rest[1..];
      rl' := rl' - 1;
      if rl' < 0 {
        dl' := dl' - 1;
        if dl' < 0 {
          return;
        }
        var b := src[i'];
        c' := b % 32;
        rl' := b / 32;
        AdvanceSat(src, q');
        i' := Advance(src, i');
        q' := q' + 1;
      }
    }
  }

  /** One packet of `From`, cut at `need`, then the rest. */
  lemma FromStep(src: seq<byte>, p: nat, need: nat)
    requires |src| > 0 && need > 0
    ensures var head := Take(Packet(src, p).0, need);
      From(src, p, need) == head + From(src, p + Packet(src, p).1, need - |head|)
  {
  }

  /** One pass of the C++ outer loop: a packet header, then its pixels. */
  method DecodePacket(src: seq<byte>, n: nat, dst: seq<byte>, i: nat, ghost p: nat)
    returns (dst': seq<byte>, i': nat, ghost p': nat)
    requires |src| > 0 && i == Sat(src, p) && |dst| < n
    ensures |dst| < |dst'| <= n && i' == Sat(src, p')
    ensures dst + From(src, p, n - |dst|) == dst' + From(src, p', n - |dst'|)
  {
    var hd;
    hd, i' := ReadHeaderAt(src, i, p);
    dst', i' := Unpack(src, n, dst, i', hd.c, hd.rl, hd.dl, p + hd.len);
    p' := p + hd.len + hd.dl;
    PacketStep(src, n, dst, p, hd, dst');
  }

  /** Writing the packet at `p` into a buffer with room moves the decoding on by that packet. */
  lemma PacketStep(src: seq<byte>, n: nat, dst: seq<byte>, p: nat, hd: Header, dst': seq<byte>)
    requires |src| > 0 && |dst| < n && hd == ReadHeader(src, p)
    requires dst' == dst + Take(Repeat(hd.c, hd.rl + 1) + Items(src, p + hd.len, hd.dl), n - |dst|)
    ensures |dst| < |dst'| <= n
    ensures dst + From(src, p, n - |dst|) == dst' + From(src, p + hd.len + hd.dl, n - |dst'|)
  {
    var pk := Repeat(hd.c, hd.rl + 1) + Items(src, p + hd.len, hd.dl);
    assert Packet(src, p) == (pk, hd.len + hd.dl);
    var head := Take(pk, n - |dst|);
    assert |head| > 0;
    var rest := From(src, p + hd.len + hd.dl, n - |dst| - |head|);
    assert From(src, p, n - |dst|) == head + rest by {
      FromStep(src, p, n - |dst|);
    }
    AppendAssoc(dst, head, rest);
  }

  /** `Rle5Decode` as the C++ decoder writes it. */
  method Rle5Decode(src: seq<byte>, w: nat, h: nat) returns (r: Decoded)
    ensures r == Decode(src, w, h)
  {
    if |src| == 0 {
      return Failure(EmptySource);
    }
    var dstLen := w * h;
    var dst: seq<byte> := [];
    var i: nat := 0;
    ghost var p: nat := 0;
    while |dst| < dstLen
      invariant |dst| <= dstLen && i == Sat(src, p)
      invariant From(src, 0, dstLen) == dst + From(src, p, dstLen - |dst|)
      decreases dstLen - |dst|
    {
      dst, i, p := DecodePacket(src, dstLen, dst, i, p);
    }
    assert dst == dst + [];
    return Success(dst);
  }

  /** Each pixel as a packet of its own: no repeats, no items, an explicit colour. */
  function Encode(px: seq<byte>): (e: seq<byte>)
    ensures |e| == 3 * |px|
  {
    if px == [] then [] else [0, 0x80, px[0]] + Encode(px[1..])
  }

  /** A one-pixel packet reads back as that pixel. */
  lemma PixelPacket(src: seq<byte>, p: nat, v: byte)
    requires p + 3 <= |src| && src[p..p + 3] == [0, 0x80, v]
    ensures Packet(src, p) == ([v], 3)
  {
    assert src[p] == 0 && src[p + 1] == 0x80 && src[p + 2] == v;
    assert ReadHeader(src, p) == Header(0, 0, v, 3);
    assert Repeat(v, 1) + Items(src, p + 3, 0) == [v];
  }

  /** The encoding of `px`, found at position `p` of any source, decodes to `px`. */
  lemma {:induction false} EncodedFrom(src: seq<byte>, p: nat, px: seq<byte>)
    requires p + |Encode(px)| <= |src| && src[p..p + |Encode(px)|] == Encode(px)
    ensures |src| > 0 ==> From(src, p, |px|) == px
    decreases |px|
  {
    if px != [] {
      var e := Encode(px);
      assert e == [0, 0x80, px[0]] + Encode(px[1..]);
      assert src[p..p + 3] == e[..3];
      assert src[p + 3..p + |e|] == e[3..];
      PixelPacket(src, p, px[0]);
      EncodedFrom(src, p + 3, px[1..]);
      FromStep(src, p, |px|);
      assert [px[0]] + px[1..] == px;
    }
  }

  /** Every pixel sequence survives an encode-then-decode round trip. */
  lemma RoundTrip(px: seq<byte>, w: nat, h: nat)
    requires |px| > 0 && w * h == |px|
    ensures Decode(Encode(px), w, h) == Success(px)
  {
    var e := Encode(px);
    assert e[0..|e|] == e;
    EncodedFrom(e, 0, px);
  }

  /**
   * A packet with an explicit colour 7 repeated twice, then two items: colour 3
   * three times and colour 5 once.
   */
  lemma PacketExample()
    ensures Decode([1, 0x82, 7, 0x43, 0x05], 3, 2) == Success([7, 7, 3, 3, 3, 5])
  {
    var src: seq<byte> := [1, 0x82, 7, 0x43, 0x05];
    assert ReadHeader(src, 0) == Header(1, 2, 7, 3);
    assert Items(src, 4, 1) == [5] by {
      assert Repeat(5 as byte, 1) == [5];
    }
    assert Items(src, 3, 2) == [3, 3, 3, 5] by {
      assert Repeat(3 as byte, 3) == [3, 3, 3];
    }
    assert Repeat(7 as byte, 2) == [7, 7];
    var pk: seq<byte> := [7, 7, 3, 3, 3, 5];
    assert Packet(src, 0).0 == Repeat(7, 2) + Items(src, 3, 2) == pk;
    assert Take(pk, 6) == pk;
    FromStep(src, 0, 6);
    assert From(src, 0, 6) == pk + From(src, 5, 0) == pk + [] == pk;
    assert Decode(src, 3, 2) == Success(From(src, 0, 6));
  }
}

=== FILE: rle8.dfy ===
/**
 * RLE8 (sprite format 2): a byte whose top two bits are 01 opens a run of its
 * low six bits' length of the next byte; any other byte stands for itself.
 */
module Rle8 {
  import opened Wrappers
  import opened Bytes
  import opened Codec

  /** `(d & 0xC0) == 0x40`. */
  predicate IsRun(d: byte) {
    d / 64 == 1
  }

  /**
   * The token at logical position `p`: the run length, the value repeated and
   * the number of source bytes the token takes.
   */
  function Token(src: seq<byte>, p: nat): (t: (nat, byte, nat))
    requires |src| > 0
    ensures t.0 == 0 ==> t.2 == 2
    ensures 1 <= t.2 <= 2
  {
    RunToken(src, p, 1)
  }

  /**
   * The next `need` pixels decoded from logical position `p`, the last run cut
   * at `need`. A zero-length run (`0x40`) read at the last byte re-reads itself
   * forever: the C++ decoder never returns there, reported as `Stalls`.
   */
  function From(src: seq<byte>, p: nat, need: nat): (r: Decoded)
    requires |src| > 0
    ensures r.Success? ==> |r.value| == need
    ensures r.Failure? ==> r.error == Stalls
    decreases need, Left(src, p)
  {
    if need == 0 then Success([])
    else
      var (n, v, len) := Token(src, p);
      if n == 0 && p + 1 >= |src| then Failure(Stalls)
      else
        var k := Min(n, need);
        Prepend(Repeat(v, k), From(src, p + len, need - k))
  }

  /** One token of `From`: its run, cut at `need`, then the rest. */
  lemma FromStep(src: seq<byte>, p: nat, need: nat)
    requires |src| > 0 && need > 0
    requires Token(src, p).0 > 0 || p + 1 < |src|
    ensures var (n, v, len) := Token(src, p);
      From(src, p, need) == Prepend(Repeat(v, Min(n, need)), From(src, p + len, need - Min(n, need)))
  {
  }

  /** A one-pixel token of `From`. */
  lemma FromCons(src: seq<byte>, p: nat, v: byte, len: nat, need: nat)
    requires |src| > 0 && Token(src, p) == (1, v, len) && need > 0
    ensures From(src, p, need) == Prepend([v], From(src, p + len, need - 1))
  {
    assert Repeat(v, 1) == [v];
  }

  /** Decoding one more token extends the decoded prefix by that token's run. */
  lemma StepKeeps(src: seq<byte>, need: nat, pre: seq<byte>, p: nat)
    requires |src| > 0 && |pre| < need
    requires Token(src, p).0 > 0 || p + 1 < |src|
    ensures var (n, v, len) := Token(src, p);
      var run := Repeat(v, Min(n, need - |pre|));
      Prepend(pre, From(src, p, need - |pre|)) == Prepend(pre + run, From(src, p + len, need - |pre| - |run|))
  {
    var (n, v, len) := Token(src, p);
    var run := Repeat(v, Min(n, need - |pre|));
    FromStep(src, p, need - |pre|);
    PrependAssoc(pre, run, From(src, p + len, need - |pre| - |run|));
  }

  /**
   * The head of the C++ loop body: one or two bytes read through the
   * saturating index.
   */
  method ReadToken(src: seq<byte>, i: nat, ghost p: nat) returns (n: nat, d: byte, i': nat)
    requires |src| > 0 && i == Sat(src, p)
    ensures (n, d) == (Token(src, p).0, Token(src, p).1)
    ensures i' == Sat(src, p + Token(src, p).2)
  {
    i' := i;
    n := 1;
    d := src[i'];
    if i' < |src| - 1 {
      i' := i' + 1;
    }
    if d / 64 == 1 {
      n := d % 64;
      d := src[i'];
      if i' < |src| - 1 {
        i' := i' + 1;
      }
    }
  }

  /** The pixels of a `w`×`h` sprite; an empty source is refused. */
  function Decode(src: seq<byte>, w: nat, h: nat): (r: Decoded)
    ensures r.Success? ==> |r.value| == w * h
    ensures |src| == 0 <==> r == Failure(EmptySource)
  {
    if |src| == 0 then Failure(EmptySource) else From(src, 0, w * h)
  }

  /**
   * `Rle8Decode` as the C++ decoder writes it: a saturating input index `i`, a
   * destination index `j`, and a run loop that stops writing at the end of
   * the buffer.
   */
  method Rle8Decode(src: seq<byte>, w: nat, h: nat) returns (r: Decoded)
    ensures r == Decode(src, w, h)
    ensures r.Success? ==> |r.value| == w * h
  {
    if |src| == 0 {
      return Failure(EmptySource);
    }
    var dstLen := w * h;
    var dst: seq<byte> := [];
    var i: nat := 0;
    ghost var p: nat := 0;
    while |dst| < dstLen
      invariant |dst| <= dstLen
      invariant i == Sat(src, p)
      invariant From(src, 0, dstLen) == Prepend(dst, From(src, p, dstLen - |dst|))
      decreases dstLen - |dst|, Left(src, p)
    {
      ghost var p0, pre := p, dst;
      var i0 := i;
      var n, d;
      n, d, i := ReadToken(src, i, p);
      p := p + Token(src, p0).2;
      if n == 0 && i == i0 {
        assert From(src, p0, dstLen - |pre|) == Failure(Stalls);
        return Failure(Stalls);
      }
      var run := Repeat(d, Min(n, dstLen - |dst|));
      dst := dst + run;
      StepKeeps(src, dstLen, pre, p0);
    }
    assert From(src, p, 0) == Success([]);
    assert dst == dst + [];
    return Success(dst);
  }

  /** The shortest RLE8 spelling of one pixel: a run of one when it looks like a run header. */
  function EncodePixel(v: byte): (e: seq<byte>)
    ensures 1 <= |e| <= 2
  {
    if IsRun(v) then [0x41, v] else [v]
  }

  /** A pixel-by-pixel RLE8 encoding. */
  function Encode(px: seq<byte>): (e: seq<byte>)
    ensures |px| <= |e| <= 2 * |px|
  {
    if px == [] then [] else EncodePixel(px[0]) + Encode(px[1..])
  }

  /** The spelling of one pixel reads back as a one-pixel token. */
  lemma PixelToken(src: seq<byte>, p: nat, v: byte)
    requires p + |EncodePixel(v)| <= |src| && src[p..p + |EncodePixel(v)|] == EncodePixel(v)
    ensures Token(src, p) == (1, v, |EncodePixel(v)|)
  {
    assert src[p] == EncodePixel(v)[0];
    if IsRun(v) {
      assert src[p + 1] == EncodePixel(v)[1];
    }
  }

  /** The encoding of `px` sits at position `p` of the input `src`. */
  predicate EncodedAt(src: seq<byte>, p: nat, px: seq<byte>) {
    |src| > 0 && p + |Encode(px)| <= |src| && src[p..p + |Encode(px)|] == Encode(px)
  }

  /** An encoding is the first pixel's token, then the encoding of the rest. */
  lemma EncodeSplit(src: seq<byte>, p: nat, px: seq<byte>)
    requires EncodedAt(src, p, px) && px != []
    ensures Token(src, p) == (1, px[0], |EncodePixel(px[0])|)
    ensures EncodedAt(src, p + |EncodePixel(px[0])|, px[1..])
  {
    assert Encode(px) == EncodePixel(px[0]) + Encode(px[1..]);
    SliceCut(src, p, EncodePixel(px[0]), Encode(px[1..]));
    PixelToken(src, p, px[0]);
  }

  /** The encoding of `px`, found at position `p` of any source, decodes to `px`. */
  lemma {:induction false} EncodedFrom(src: seq<byte>, p: nat, px: seq<byte>, n: nat)
    requires EncodedAt(src, p, px) && n == |px|
    ensures From(src, p, n) == Success(px)
    decreases |px|
  {
    if px != [] {
      var len := |EncodePixel(px[0])|;
      EncodeSplit(src, p, px);
      EncodedFrom(src, p + len, px[1..], n - 1);
      FromCons(src, p, px[0], len, n);
      assert [px[0]] + px[1..] == px;
    }
  }

  /** Every pixel sequence survives an encode-then-decode round trip. */
  lemma RoundTrip(px: seq<byte>, w: nat, h: nat)
    requires |px| > 0 && w * h == |px|
    ensures Decode(Encode(px), w, h) == Success(px)
  {
    assert Encode(px)[0..|Encode(px)|] == Encode(px);
    EncodedFrom(Encode(px), 0, px, w * h);
  }

  /** A run header `0x44` fills a 2×2 sprite with the following byte. */
  lemma RunExample()
    ensures Decode([0x44, 0x05], 2, 2) == Success([5, 5, 5, 5])
  {
    var src: seq<byte> := [0x44, 0x05];
    assert Token(src, 0) == (4, 5, 2);
    FromStep(src, 0, 4);
    assert Repeat(5 as byte, 4) == [5, 5, 5, 5];
    assert From(src, 2, 0) == Success([]);
    assert [5, 5, 5, 5] + [] == [5, 5, 5, 5];
  }

  /** A stand-alone `0x40` as the last byte loops forever in the C++ decoder. */
  lemma StallExample()
    ensures Decode([0x40], 1, 1) == Failure(Stalls)
  {
  }
}

=== FILE: sprites.dfy ===
/**
 * Sprites sharing data: a zero-size directory entry is an alias of an
 * earlier sprite. The C++ extractor copies the earlier sprite whole
 * (`spriteCopy`); the Go extractor shares its pixels, size and palette but
 * keeps the alias's own identity and, when it has one, its palette index
 * (`shareCopy`). Also the palette a sprite draws with and the map from
 * (group, number) to sprite.
 */
module Sprites {
  import opened Wrappers
  import opened Bytes
  import opened Container
  import opened Directory
  import opened Palettes

  /** C++ `spriteCopy`: every field of the source sprite; nothing of the destination survives. */
  function SpriteCopy(dst: Sprite, src: Sprite): (s: Sprite)
    ensures s.pal == src.pal && s.group == src.group && s.number == src.number
    ensures s.w == src.w && s.h == src.h && s.x == src.x && s.y == src.y
    ensures s.palidx == src.palidx && s.rle == src.rle && s.coldepth == src.coldepth
  {
    src
  }

  /**
   * Go `shareCopy`: the source's palette, size and colour depth, and its
   * palette index only while the destination has none.
   */
  function ShareCopy(dst: Sprite, src: Sprite): (s: Sprite)
    ensures s.pal == src.pal && s.w == src.w && s.h == src.h && s.coldepth == src.coldepth
    ensures s.group == dst.group && s.number == dst.number && s.x == dst.x && s.y == dst.y && s.rle == dst.rle
    ensures s.palidx == if dst.palidx < 0 then src.palidx else dst.palidx
  {
    dst.(pal := src.pal, w := src.w, h := src.h, coldepth := src.coldepth,
         palidx := if dst.palidx < 0 then src.palidx else dst.palidx)
  }

  /**
   * The palette a sprite draws with: its own when it has one or is true
   * colour, otherwise the table's palette for its index; an index the table
   * does not hold is a run-time panic in the Go extractor, reported as `NoPalette`.
   */
  function GetPal(s: Sprite, pl: PaletteList): (r: Result<seq<nat>, SffError>)
    ensures (|s.pal| > 0 || s.coldepth > 8) ==> r == Success(s.pal)
    ensures !(|s.pal| > 0 || s.coldepth > 8) ==>
      (r.Success? <==> CanGet(pl, s.palidx)) && (r.Success? ==> r.value == Get(pl, s.palidx))
    ensures r.Failure? ==> r.error == NoPalette(s.palidx)
  {
    if |s.pal| > 0 || s.coldepth > 8 then Success(s.pal)
    else if CanGet(pl, s.palidx) then Success(Get(pl, s.palidx))
    else Failure(NoPalette(s.palidx))
  }

  /**
   * An alias that had no palette index of its own draws with the same palette
   * as the sprite it shares; one whose entry named an index (every version-2
   * entry does) keeps drawing with its own.
   */
  lemma SharedPalette(dst: Sprite, src: Sprite, pl: PaletteList)
    ensures dst.palidx < 0 ==> GetPal(ShareCopy(dst, src), pl) == GetPal(src, pl)
    ensures dst.palidx >= 0 && src.pal == [] && src.coldepth <= 8 ==>
      GetPal(ShareCopy(dst, src), pl) == GetPal(src.(palidx := dst.palidx), pl)
  {
  }

  /** Which copy an alias entry makes. */
  datatype Copier = CopyAll | Share

  function Alias(rule: Copier, dst: Sprite, src: Sprite): Sprite {
    if rule == CopyAll then SpriteCopy(dst, src) else ShareCopy(dst, src)
  }

  /**
   * Loading a sprite's payload: given the sprite its entry describes, the
   * previous loaded sprite (if any) and the palette table, the completed
   * sprite and table, or the error that ends the extraction. Payload bytes
   * and pixel decoding stay outside this function's signature.
   */
  type Loader = (Entry, Option<Sprite>, PaletteList) -> Result<(Sprite, PaletteList), SffError>

  /** The sprites of the walk so far, the palette table and the index of the last loaded sprite. */
  datatype Walked = Walked(sprites: seq<Sprite>, pl: PaletteList, prev: Option<nat>)

  /** The last loaded sprite of a walk, which the next load is given. */
  function PrevSprite(w: Walked): (r: Option<Sprite>)
    requires w.prev.Some? ==> w.prev.value < |w.sprites|
    ensures r.Some? <==> w.prev.Some?
    ensures r.Some? ==> r.value == w.sprites[w.prev.value]
  {
    if w.prev.Some? then Some(w.sprites[w.prev.value]) else None
  }

  /**
   * The extractor's sprite loop over the directory entries: a zero-size entry
   * aliases an earlier sprite when its link is earlier, and otherwise keeps its
   * own fields with palette index 0; every other entry is loaded with the
   * previous loaded sprite at hand and becomes the new previous one. The first
   * load that fails ends the walk with its error.
   */
  function Resolve(es: seq<Entry>, rule: Copier, load: Loader, pl0: PaletteList): (r: Result<Walked, SffError>)
    ensures r.Success? ==> |r.value.sprites| == |es|
    ensures r.Success? && r.value.prev.Some? ==> r.value.prev.value < |es|
    ensures (forall k :: 0 <= k < |es| ==> es[k].size == 0) ==> r.Success?
    decreases |es|
  {
    if es == [] then Success(Walked([], pl0, None))
    else
      var i := |es| - 1;
      assert forall k :: 0 <= k < i ==> es[..i][k] == es[k];
      var w :- Resolve(es[..i], rule, load, pl0);
      var e := es[i];
      if e.size == 0 then
        var s := if e.link < i then Alias(rule, e.sprite, w.sprites[e.link]) else e.sprite.(palidx := 0);
        Success(Walked(w.sprites + [s], w.pl, w.prev))
      else
        var loaded :- load(e, PrevSprite(w), w.pl);
        Success(Walked(w.sprites + [loaded.0], loaded.1, Some(i)))
  }

  /** `p` is the last index below `n` with a payload, or there is none. */
  predicate LastLoaded(es: seq<Entry>, n: nat, p: Option<nat>)
    requires n <= |es|
  {
    match p
    case Some(j) => j < n && es[j].size != 0 && forall k :: j < k < n ==> es[k].size == 0
    case None => forall k :: 0 <= k < n ==> es[k].size == 0
  }

  /** The previous sprite moves only on entries with a payload. */
  lemma {:induction false} PrevIsLastLoaded(es: seq<Entry>, rule: Copier, load: Loader, pl0: PaletteList)
    requires Resolve(es, rule, load, pl0).Success?
    ensures LastLoaded(es, |es|, Resolve(es, rule, load, pl0).value.prev)
    decreases |es|
  {
    if es != [] {
      var i := |es| - 1;
      PrevIsLastLoaded(es[..i], rule, load, pl0);
      assert forall k :: 0 <= k < i ==> es[..i][k] == es[k];
    }
  }

  /** Walking further never changes the sprites already resolved, and a walk that fails on a prefix fails. */
  lemma {:induction false} Stable(es: seq<Entry>, rule: Copier, load: Loader, pl0: PaletteList, n: nat)
    requires n <= |es|
    ensures Resolve(es[..n], rule, load, pl0).Failure? ==> Resolve(es, rule, load, pl0) == Resolve(es[..n], rule, load, pl0)
    ensures Resolve(es, rule, load, pl0).Success? ==>
      Resolve(es[..n], rule, load, pl0).Success?
      && Resolve(es[..n], rule, load, pl0).value.sprites == Resolve(es, rule, load, pl0).value.sprites[..n]
    decreases |es|
  {
    if n < |es| {
      var i := |es| - 1;
      assert es[..i][..n] == es[..n];
      Stable(es[..i], rule, load, pl0, n);
    } else {
      assert es[..n] == es;
    }
  }

  /** Sprite `i` of a successful walk is the last sprite of the walk over the first `i + 1` entries. */
  lemma Nth(es: seq<Entry>, rule: Copier, load: Loader, pl0: PaletteList, i: nat)
    requires i < |es| && Resolve(es, rule, load, pl0).Success?
    ensures Resolve(es[..i], rule, load, pl0).Success? && Resolve(es[..i + 1], rule, load, pl0).Success?
    ensures var w := Resolve(es[..i], rule, load, pl0).value;
      Resolve(es, rule, load, pl0).value.sprites[i] == Resolve(es[..i + 1], rule, load, pl0).value.sprites[i]
      && w.sprites == Resolve(es, rule, load, pl0).value.sprites[..i]
  {
    Stable(es, rule, load, pl0, i + 1);
    Stable(es, rule, load, pl0, i);
  }

  /**
   * C++: a zero-size entry whose link is earlier becomes an exact copy of the
   * linked sprite, palette index included; one whose link is not earlier keeps
   * its own fields with palette index 0.
   */
  lemma AliasCopiesAll(es: seq<Entry>, load: Loader, pl0: PaletteList, i: nat)
    requires i < |es| && es[i].size == 0 && Resolve(es, CopyAll, load, pl0).Success?
    ensures var ss := Resolve(es, CopyAll, load, pl0).value.sprites;
      (es[i].link < i ==> ss[i] == ss[es[i].link])
      && (es[i].link >= i ==> ss[i] == es[i].sprite.(palidx := 0))
  {
    Nth(es, CopyAll, load, pl0, i);
    assert es[..i + 1][..i] == es[..i];
    assert es[..i + 1][i] == es[i];
  }

  /**
   * Go: a zero-size entry whose link is earlier takes the linked sprite's
   * palette, size and colour depth, keeps its own group, number, offset and
   * `rle`, and inherits the linked palette index only when its entry gave none.
   */
  lemma AliasShares(es: seq<Entry>, load: Loader, pl0: PaletteList, i: nat)
    requires i < |es| && es[i].size == 0 && Resolve(es, Share, load, pl0).Success?
    ensures var ss := Resolve(es, Share, load, pl0).value.sprites;
      var own := es[i].sprite;
      (es[i].link < i ==>
         var src := ss[es[i].link];
         ss[i].pal == src.pal && ss[i].w == src.w && ss[i].h == src.h && ss[i].coldepth == src.coldepth
         && ss[i].group == own.group && ss[i].number == own.number
         && ss[i].x == own.x && ss[i].y == own.y && ss[i].rle == own.rle
         && ss[i].palidx == (if own.palidx < 0 then src.palidx else own.palidx))
      && (es[i].link >= i ==> ss[i] == own.(palidx := 0))
  {
    Nth(es, Share, load, pl0, i);
    assert es[..i + 1][..i] == es[..i];
    assert es[..i + 1][i] == es[i];
  }

  /** An entry with a payload is what the loader makes of it, given the last loaded sprite before it. */
  lemma LoadedEntry(es: seq<Entry>, rule: Copier, load: Loader, pl0: PaletteList, i: nat)
    requires i < |es| && es[i].size != 0 && Resolve(es, rule, load, pl0).Success?
    ensures Resolve(es[..i], rule, load, pl0).Success?
    ensures var w := Resolve(es[..i], rule, load, pl0).value;
      LastLoaded(es, i, w.prev)
      && load(es[i], PrevSprite(w), w.pl).Success?
      && Resolve(es, rule, load, pl0).value.sprites[i] == load(es[i], PrevSprite(w), w.pl).value.0
  {
    Nth(es, rule, load, pl0, i);
    assert es[..i + 1][..i] == es[..i];
    PrevIsLastLoaded(es[..i], rule, load, pl0);
  }

  /** A load that fails ends the whole walk with its error. */
  lemma StopsAt(es: seq<Entry>, rule: Copier, load: Loader, pl0: PaletteList, i: nat)
    requires i < |es| && es[i].size != 0 && Resolve(es[..i], rule, load, pl0).Success?
    requires var w := Resolve(es[..i], rule, load, pl0).value; load(es[i], PrevSprite(w), w.pl).Failure?
    ensures var w := Resolve(es[..i], rule, load, pl0).value;
      Resolve(es, rule, load, pl0) == Failure(load(es[i], PrevSprite(w), w.pl).error)
  {
    assert es[..i + 1][..i] == es[..i];
    Stable(es, rule, load, pl0, i + 1);
  }

  /**
   * A walk that fails does so at a loaded entry: every entry before it
   * resolves, and the loader reports the walk's error for it.
   */
  lemma {:induction false} FirstFailure(es: seq<Entry>, rule: Copier, load: Loader, pl0: PaletteList) returns (i: nat)
    requires Resolve(es, rule, load, pl0).Failure?
    ensures i < |es| && es[i].size != 0 && Resolve(es[..i], rule, load, pl0).Success?
    ensures var w := Resolve(es[..i], rule, load, pl0).value;
      load(es[i], PrevSprite(w), w.pl) == Failure(Resolve(es, rule, load, pl0).error)
    decreases |es|
  {
    var n := |es| - 1;
    if Resolve(es[..n], rule, load, pl0).Failure? {
      i := FirstFailure(es[..n], rule, load, pl0);
      assert es[..n][..i] == es[..i];
    } else {
      i := n;
    }
  }

  /** The extractor's loop, one entry at a time, with `prev` kept as the index of the last loaded sprite. */
  method Extract(es: seq<Entry>, rule: Copier, load: Loader, pl0: PaletteList)
    returns (r: Result<(seq<Sprite>, PaletteList), SffError>)
    ensures r.Success? <==> Resolve(es, rule, load, pl0).Success?
    ensures r.Success? ==> r.value == (Resolve(es, rule, load, pl0).value.sprites, Resolve(es, rule, load, pl0).value.pl)
    ensures r.Failure? ==> r.error == Resolve(es, rule, load, pl0).error
  {
    var sprites, pl := [], pl0;
    var prev: Option<nat> := None;
    var i := 0;
    while i < |es|
      invariant i <= |es|
      invariant Resolve(es[..i], rule, load, pl0) == Success(Walked(sprites, pl, prev))
    {
      assert es[..i + 1][..i] == es[..i];
      var e := es[i];
      var s;
      if e.size == 0 {
        if e.link < i {
          s := if rule == CopyAll then SpriteCopy(e.sprite, sprites[e.link]) else ShareCopy(e.sprite, sprites[e.link]);
        } else {
          s := e.sprite.(palidx := 0);
        }
      } else {
        var p := if prev.Some? then Some(sprites[prev.value]) else None;
        var loaded := load(e, p, pl);
        if loaded.Failure? {
          StopsAt(es, rule, load, pl0, i);
          return Failure(loaded.error);
        }
        s, pl := loaded.value.0, loaded.value.1;
        prev := Some(i);
      }
      sprites := sprites + [s];
      i := i + 1;
    }
    assert es[..i] == es;
    return Success((sprites, pl));
  }

  /**
   * Go's palette choice for a version-1 sprite: when the payload says it
   * shares the previous palette (`ps != 0`) and there is a previous sprite,
   * its index, or a fresh palette if that index is unknown; otherwise the
   * palette read from the payload in a new slot.
   */
  function V1Palette(s: Sprite, ps: byte, prev: Option<Sprite>, pl: PaletteList, read: seq<nat>): (r: (Sprite, PaletteList))
    ensures ps != 0 && prev.Some? && prev.value.palidx >= 0 ==> r == (s.(palidx := prev.value.palidx), pl)
    ensures !(ps != 0 && prev.Some? && prev.value.palidx >= 0) ==>
      r.0.palidx == |pl.palettes| && |r.1.palettes| == |pl.palettes| + 1
  {
    if ps != 0 && prev.Some? then
      var s' := s.(palidx := prev.value.palidx);
      if s'.palidx < 0 then
        var (pl', i, _) := NewPal(pl);
        (s'.(palidx := i), pl')
      else (s', pl)
    else
      var (pl', i, _) := NewPal(pl);
      (s.(palidx := i), SetSource(pl', i, read))
  }

  /** A sprite with its own palette reads exactly that palette back through the table. */
  lemma V1PaletteRead(s: Sprite, ps: byte, prev: Option<Sprite>, pl: PaletteList, read: seq<nat>)
    requires Aligned(pl) && (ps == 0 || prev.None?)
    ensures var (s', pl') := V1Palette(s, ps, prev, pl, read);
      Aligned(pl') && CanGet(pl', s'.palidx) && Get(pl', s'.palidx) == read
  {
  }

  /** `n` bytes at `at`; an empty read succeeds. */
  function Slice(buf: seq<byte>, at: nat, n: nat): (r: Result<seq<byte>, SffError>)
    ensures r.Success? <==> at + n <= |buf|
    ensures r.Success? ==> r.value == buf[at..at + n]
  {
    if at + n <= |buf| then Success(buf[at..at + n]) else Failure(Short(at))
  }

  /** A version-1 sprite as Go reads it: the sprite, the palette table and the still encoded pixel bytes. */
  datatype V1Sprite = V1Sprite(sprite: Sprite, pl: PaletteList, px: seq<byte>)

  /**
   * The palette half of Go's version-1 `read`: a sprite that shares the
   * previous palette reads nothing; any other reads 256 colours from the
   * 768 bytes that end its payload, `end` being the payload's end. A seek
   * before the start of the file is reported as `Short`.
   */
  function V1PaletteAt(buf: seq<byte>, s: Sprite, ps: byte, prev: Option<Sprite>, pl: PaletteList, end: nat)
    : (r: Result<(Sprite, PaletteList), SffError>)
    ensures r.Success? ==> r.value.0 == s.(palidx := r.value.0.palidx)
    ensures ps != 0 && prev.Some? ==> r.Success?
    ensures ps != 0 && prev.Some? && prev.value.palidx >= 0 ==> r == Success((s.(palidx := prev.value.palidx), pl))
    ensures !(ps != 0 && prev.Some?) ==> (r.Success? <==> 768 <= end <= |buf|)
    ensures r.Success? && !(ps != 0 && prev.Some?) && Aligned(pl) ==>
      end >= 768 && ReadPaletteV1(buf, end - 768).Success?
      && Aligned(r.value.1) && CanGet(r.value.1, r.value.0.palidx)
      && Get(r.value.1, r.value.0.palidx) == ReadPaletteV1(buf, end - 768).value
  {
    if ps != 0 && prev.Some? then Success(V1Palette(s, ps, prev, pl, []))
    else if end < 768 then Failure(Short(end))
    else
      var read :- ReadPaletteV1(buf, end - 768);
      if Aligned(pl) then
        V1PaletteRead(s, ps, prev, pl, read);
        Success(V1Palette(s, ps, prev, pl, read))
      else Success(V1Palette(s, ps, prev, pl, read))
  }

  /** The payload layout of the version-1 entry `e` at `shofs`, given its palette flag byte `ps`. */
  function V1Layout(shofs: nat, e: Entry, ps: byte, prev: Option<Sprite>, c00: bool): Payload {
    V1Payload(V1PayloadOffset(shofs), e.size, e.xofs, c00, ps != 0 && prev.Some?)
  }

  /**
   * Everything a version-1 read needs: the palette flag byte, a PCX header
   * of depth 8 after the slot, all the pixel bytes, and the palette the
   * flag and the pixel count call for (`V1PaletteAt`).
   */
  predicate V1Readable(buf: seq<byte>, shofs: nat, e: Entry, prev: Option<Sprite>, pl: PaletteList, c00: bool) {
    && shofs + 18 < |buf|
    && ReadPcx(buf, V1PayloadOffset(shofs)).Success?
    && (var offset := V1PayloadOffset(shofs);
        var p := V1Layout(shofs, e, buf[shofs + 18], prev, c00);
        && offset + 128 + p.pixelBytes <= |buf|
        && V1PaletteAt(buf, WithPcx(e.sprite, ReadPcx(buf, offset).value), buf[shofs + 18], prev, pl, offset + p.datasize).Success?)
  }

  /**
   * Go `read` for the version-1 entry `e` at `shofs`: the palette flag is
   * the byte after the 18 entry bytes; the payload starts after the 32-byte
   * slot with a 128-byte PCX header, then the pixels, and its palette, if it
   * has one, is its last 768 bytes (`V1PaletteAt`).
   */
  function ReadSpriteV1(buf: seq<byte>, shofs: nat, e: Entry, prev: Option<Sprite>, pl: PaletteList, c00: bool)
    : (r: Result<V1Sprite, SffError>)
    ensures r.Success? <==> V1Readable(buf, shofs, e, prev, pl, c00)
    ensures r.Success? ==>
      && shofs + 18 < |buf| && ReadPcx(buf, V1PayloadOffset(shofs)).Success?
      && (var offset := V1PayloadOffset(shofs);
          var s := WithPcx(e.sprite, ReadPcx(buf, offset).value);
          var p := V1Layout(shofs, e, buf[shofs + 18], prev, c00);
          && offset + 128 + p.pixelBytes <= |buf|
          && r.value.px == buf[offset + 128..offset + 128 + p.pixelBytes]
          && Success((r.value.sprite, r.value.pl)) == V1PaletteAt(buf, s, buf[shofs + 18], prev, pl, offset + p.datasize))
  {
    var ps :- Lift(U8(buf, shofs + 18));
    var offset := V1PayloadOffset(shofs);
    var pcx :- ReadPcx(buf, offset);
    V1Pixels(buf, offset, V1Layout(shofs, e, ps, prev, c00), WithPcx(e.sprite, pcx), ps, prev, pl)
  }

  /** The part of a version-1 read after the PCX header: the pixel bytes, then the palette. */
  function V1Pixels(buf: seq<byte>, offset: nat, p: Payload, s: Sprite, ps: byte, prev: Option<Sprite>, pl: PaletteList)
    : (r: Result<V1Sprite, SffError>)
    ensures r.Success? <==>
      offset + 128 + p.pixelBytes <= |buf| && V1PaletteAt(buf, s, ps, prev, pl, offset + p.datasize).Success?
    ensures r.Success? ==>
      && offset + 128 + p.pixelBytes <= |buf|
      && r.value.px == buf[offset + 128..offset + 128 + p.pixelBytes]
      && Success((r.value.sprite, r.value.pl)) == V1PaletteAt(buf, s, ps, prev, pl, offset + p.datasize)
  {
    var px :- Slice(buf, offset + 128, p.pixelBytes);
    var sp :- V1PaletteAt(buf, s, ps, prev, pl, offset + p.datasize);
    Success(V1Sprite(sp.0, sp.1, px))
  }

  /**
   * The palette a version-1 sprite reads is the 768 bytes that end its
   * payload: right after the pixel bytes when it counts a palette, and the
   * tail of the pixel bytes for the first sprite of a character file.
   */
  lemma V1PaletteAtEnd(offset: nat, datasize: nat, next: nat, c00: bool)
    ensures var p := V1Payload(offset, datasize, next, c00, false);
      (!c00 ==> offset + p.datasize - 768 == offset + 128 + p.pixelBytes)
      && (c00 && p.pixelBytes >= 768 ==> offset + p.datasize - 768 == offset + 128 + p.pixelBytes - 768)
  {
  }

  /** A sprite's key in the sprite map. */
  function Key(s: Sprite): (int, int) {
    (s.group, s.number)
  }

  /** Each (group, number) mapped to the first sprite that has it. */
  function SpriteMap(ss: seq<Sprite>): (m: map<(int, int), nat>)
    ensures forall k :: k in m ==> m[k] < |ss| && Key(ss[m[k]]) == k
    ensures forall i :: 0 <= i < |ss| ==> Key(ss[i]) in m && m[Key(ss[i])] <= i
    decreases |ss|
  {
    if ss == [] then map[]
    else
      var i := |ss| - 1;
      var m := SpriteMap(ss[..i]);
      if Key(ss[i]) in m then m else m[Key(ss[i]) := i]
  }

  /** The map holds every key of the sequence and sends it to the key's first occurrence. */
  lemma {:induction false} FirstOccurrence(ss: seq<Sprite>, k: (int, int))
    ensures var m := SpriteMap(ss);
      (k in m <==> exists i :: 0 <= i < |ss| && Key(ss[i]) == k)
      && (k in m ==> m[k] < |ss| && Key(ss[m[k]]) == k && forall j :: 0 <= j < m[k] ==> Key(ss[j]) != k)
    decreases |ss|
  {
    if ss != [] {
      var i := |ss| - 1;
      FirstOccurrence(ss[..i], k);
      assert forall j :: 0 <= j < i ==> ss[..i][j] == ss[j];
      if k !in SpriteMap(ss[..i]) && Key(ss[i]) == k {
        assert forall j :: 0 <= j < i ==> Key(ss[j]) != k;
      }
    }
  }

  /** Go `GetSprite`: nothing for group -1, otherwise the first sprite with that group and number. */
  function GetSprite(ss: seq<Sprite>, g: int, n: int): (r: Option<nat>)
    ensures g == -1 ==> r == None
    ensures g != -1 ==> (r.Some? <==> exists i :: 0 <= i < |ss| && Key(ss[i]) == (g, n))
    ensures r.Some? ==> r.value < |ss| && Key(ss[r.value]) == (g, n)
    ensures r.Some? ==> forall j :: 0 <= j < r.value ==> Key(ss[j]) != (g, n)
  {
    if g == -1 then None
    else
      FirstOccurrence(ss, (g, n));
      var m := SpriteMap(ss);
      if (g, n) in m then Some(m[(g, n)]) else None
  }
}

=== FILE: wrappers.dfy ===
/** Failure-compatible result types and small sequence helpers shared by every module. */
module Wrappers {

  datatype Option<+T> = None | Some(value: T)

  /** A value or the reason it could not be produced; usable with `:-`. */
  datatype Result<+T, +E> = Success(value: T) | Failure(error: E) {

    predicate IsFailure() {
      Failure?
    }

    function PropagateFailure<U>(): Result<U, E>
      requires Failure?
    {
      Failure(error)
    }

    function Extract(): T
      requires Success?
    {
      value
    }
  }

  function Min(a: int, b: int): int {
    if a <= b then a else b
  }

  /** `n` copies of `v`. */
  function Repeat<T>(v: T, n: nat): (r: seq<T>)
    ensures |r| == n
  {
    seq(n, _ => v)
  }

  lemma RepeatSplit<T>(v: T, a: nat, b: nat)
    ensures Repeat(v, a + b) == Repeat(v, a) + Repeat(v, b)
  {
    assert |Repeat(v, a + b)| == |Repeat(v, a) + Repeat(v, b)|;
    assert forall k :: 0 <= k < a + b ==> Repeat(v, a + b)[k] == (Repeat(v, a) + Repeat(v, b))[k];
  }
}
